=== FILE: README.md ===
# Mon Répétiteur — a verified model of the marketplace logic

Mon Répétiteur is a tutoring marketplace for Côte d'Ivoire. It has three kinds of users:

- **Parents** (role `client`) post offers: a subject, level, address, frequency and a monthly budget.
- **Tutors** (`prestataire`) apply to offers. They upload an identity card, diplomas and a profile photo, and fill in a profile.
- **Administrators** (`admin`, `super_admin`) manage users, tutors and offers.

A parent accepts or refuses applications and follows contracts. A contract is active, finished (`termine`) or cancelled (`annule`).

This project models the front end's logic as pure Dafny functions over an in-memory database value. `Store.Db` holds five tables as sequences: offers, applications, contracts, profiles and role rows. Every page handler becomes a function with this shape:

- it takes the database, the page's own state, and the backend's reply (`Reply = Done | Rejected(code)`);
- it returns the new database or an error (`Result<Db, Error>`);
- a second function computes what the page shows afterwards.

The storage buckets (identity card, diplomas, avatars) are modelled as sets of file names.

The modules follow the program:

- `Validations`: phone normalisation and the login-email mapping, plus the sign-up and sign-in forms.
- `TutorProfile`: the tutor profile form.
- `Constants`: status values, their labels and the fixed value lists.
- One module per page, for example `ParentOfferDetails`, `TutorOfferDetails`, `AdminOffers` and `AvailableOffers`.
- One module per upload widget: `Cni`, `Diplomas`, `Avatar` and `TutorDocuments`.
- `Cards`: the offer and application cards.
- `Routing`: the redirects, the route table and the sidebar.
- `Seqs`, `Text`, `Dates`, `Store` and `Wrappers`: the shared helpers.

Most operations have a partner, and a lemma or the operation's own contract states the relation between the two for all inputs:

- a reader for each writer: the profile round trip, stored names read back, the avatar URL read back, the ISO date read back;
- a reference definition for each fold: the counting maps and the role counts against filter counts;
- the state the page shows after a handler, against the database after it;
- the guard that shows a button, against what the handler then allows;
- each list a page shows, against the table it reads: a permutation of it or a sub-multiset of it, its order, and the fields of each row;
- each form check, against the values it passes on: the normalised phone, the parsed user type, and the login email that sign-in and sign-up share.

The pure formatters (labels, colours, date and amount texts) have no partner beyond their contracts.

## Behaviour of the code worth knowing

The model follows the code in each of these cases, even where a reader might expect otherwise.

- Accepting an application only writes that application's status. No contract is created (`src/pages/parent/OffreDetails.tsx:164-200`). Nothing in the pages creates a contract.
- Applying checks neither the offer's status nor ownership (`src/pages/repetiteur/OffreDetails.tsx:90-128`). The page only hides the button when the tutor already applied or their documents are not validated.
- An offer's status can move from any of the three values to any other (`ParentOfferDetails.AnyStatusToAny`).
- The handlers check no permissions. Row-level security on the backend is not part of the code shown.
- Deleting an offer reports only the last deletion's error. A failed contract or application deletion leaves orphans silently (`AdminOffers.OrphanedContractsUnreported`).

## Model

| member | source | states |
|---|---|---|
| Validations.PhoneIssues | src/lib/validations.ts:4-6 | A phone passes both checks exactly when it is ten ASCII digits, optionally preceded by "+225"; the too-short issue is raised exactly below 10 characters |
| Validations.PhoneAcceptedShape | src/lib/validations.ts:5-6 | The 10-character minimum never rejects anything the pattern accepts, so acceptance is the pattern alone |
| Validations.NormalizeDigits | src/lib/validations.ts:7-13 | The transform yields '+' followed only by digits: the kept digits when they already start with 225, "225" and the digits otherwise |
| Validations.NormalizePhone | src/lib/validations.ts:4-13 | Normalisation succeeds exactly on pattern-accepted input and otherwise reports at least one issue |
| Validations.NormalizedShape | src/lib/validations.ts:7-13 | Every normalised phone starts with "+225" and has only digits after the '+' |
| Validations.NormalizeInternational | src/lib/validations.ts:8-10 | "+225" followed by ten digits normalises to itself |
| Validations.NormalizeIdempotent | src/lib/validations.ts:4-13 | Normalising a 14-character output again gives the same phone |
| Validations.NormalizeLocal | src/lib/validations.ts:12 | Ten digits not starting with 225 become "+225" and the digits |
| Validations.NormalizeLocalStartingWith225 | src/lib/validations.ts:9-10 | Ten local digits starting with 225 become only "+" and the digits (11 characters), a value the schema itself would then reject |
| Validations.PhoneToEmail | src/lib/validations.ts:38-41 | The login email holds no '+', ends with "@monrepetiteur.local", and a phone without '+' is kept as written |
| Validations.PhoneToEmailOfNormalized | src/lib/validations.ts:38-41 | A normalised phone '+digits' maps to the digits followed by the domain |
| Validations.PhoneToEmailInjective | src/lib/validations.ts:38-41 | Distinct normalised phones give distinct login emails |
| Validations.LoginEmailDeterminesPhone | src/lib/validations.ts:4-41 | Two accepted phone entries with the same login email have the same normalised phone |
| Validations.ParseUserType | src/lib/validations.ts:16 | A user type is accepted exactly when it is 'client' or 'prestataire' |
| Validations.ValidateSignUp | src/lib/validations.ts:20-29 | Sign-up passes exactly when the name has 2..100 characters, the phone matches, the password has 6..72 characters and the type is client or prestataire; the phone passed on is the normalised phone and the type passed on is the parsed one |
| Validations.ValidateSignIn | src/lib/validations.ts:32-35 | Sign-in passes exactly when the phone matches and the password is non-empty; the password is kept unchanged and the phone passed on is the normalised phone |
| Validations.SignInMatchesSignUp | src/lib/validations.ts:20-41 | A sign-in reaches the login email of a sign-up exactly when the two phone entries normalise to the same phone |
| TutorProfile.SchemaIssues | src/components/profile/RepetiteurProfileForm.tsx:17-37 | No issue exactly when bio is empty or 50..1000 characters, the three lists are non-empty, localisation has at least 3 characters, tarif is 0 or 1000..100000 and experience is 0..50 |
| TutorProfile.DefaultFormInvalid | src/components/profile/RepetiteurProfileForm.tsx:49-57 | The empty form fails exactly the three list checks and the localisation check |
| TutorProfile.ProfilComplet | src/components/profile/RepetiteurProfileForm.tsx:101-108 | Complete exactly when bio has at least 50 characters, the three lists are non-empty and localisation is non-empty |
| TutorProfile.CompleteIffBio | src/components/profile/RepetiteurProfileForm.tsx:101-108 | For a form the schema accepts, the profile is complete exactly when bio is non-empty |
| TutorProfile.NullIfEmpty | src/components/profile/RepetiteurProfileForm.tsx:113-117 | An empty text is stored as null, any other text as itself |
| TutorProfile.Save | src/components/profile/RepetiteurProfileForm.tsx:110-122 | The written row stores empty bio and localisation and a zero tarif as null, experience always as a number, the lists as given, and the computed completeness flag |
| TutorProfile.ZeroIfNull | src/components/profile/RepetiteurProfileForm.tsx:81-82 | A missing number loads as 0, a present one as itself |
| TutorProfile.Load | src/components/profile/RepetiteurProfileForm.tsx:75-83 | Each missing column loads as '', [] or 0 |
| TutorProfile.LoadSave | src/components/profile/RepetiteurProfileForm.tsx:75-122 | Reloading a saved form gives back exactly the form submitted |
| TutorProfile.LoadEmpty | src/components/profile/RepetiteurProfileForm.tsx:49-83 | A row with every field missing loads as the form's defaults |
| TutorProfile.SubmitProfile | src/components/profile/RepetiteurProfileForm.tsx:95-124 | An invalid form writes nothing, no profile writes nothing, a store failure is reported; on success only the current user's tutor columns change |
| TutorProfile.SubmitThenLoad | src/components/profile/RepetiteurProfileForm.tsx:95-124 | After a successful submission the profile reloads as the submitted form and is flagged complete exactly when bio is non-empty |
| TutorProfile.Tick | src/components/profile/RepetiteurProfileForm.tsx:223-224 | Ticking appends the value after the current ones |
| TutorProfile.Untick | src/components/profile/RepetiteurProfileForm.tsx:225-226 | Unticking removes every occurrence of the value and keeps every other one |
| TutorProfile.Toggle | src/components/profile/RepetiteurProfileForm.tsx:221-227 | After a toggle the value is ticked exactly when it was not before |
| TutorProfile.UntickKeepsOrder | src/components/profile/RepetiteurProfileForm.tsx:225-226 | Unticking keeps the remaining values in their order |
| TutorProfile.UntickTick | src/components/profile/RepetiteurProfileForm.tsx:221-227 | Ticking then unticking a value not yet ticked restores the list |
| TutorProfile.ToggleKeepsDistinct | src/components/profile/RepetiteurProfileForm.tsx:221-227 | Toggling never creates a duplicate entry |
| Constants.ParseOfferStatus | src/lib/constants.ts:71-75 | An offer status is exactly one of ouverte, en_cours, fermee |
| Constants.OfferStatusName | src/lib/constants.ts:88 | Each offer status's stored value parses back to it |
| Constants.OfferStatusLabel | src/lib/constants.ts:71-75 | Each offer status has its own label |
| Constants.ParseApplicationStatus | src/lib/constants.ts:78-82 | An application status is exactly one of en_attente, acceptee, refusee |
| Constants.ApplicationStatusName | src/lib/constants.ts:89 | Each application status's stored value parses back to it |
| Constants.ApplicationStatusLabel | src/lib/constants.ts:78-82 | Each application status has its own label |
| Constants.ParseContractStatus | src/pages/parent/MesContrats.tsx:31 | A contract status is exactly one of actif, termine, annule |
| Constants.ContractStatusName | src/pages/parent/MesContrats.tsx:31 | Each contract status's stored value parses back to it |
| Constants.ContractStatusLabel | src/pages/parent/MesContrats.tsx:33-37 | Each contract status has its own label |
| Constants.ParseRole | src/pages/admin/Users.tsx:39 | A role is exactly one of super_admin, admin, prestataire, client |
| Constants.RoleName | src/pages/admin/Users.tsx:39 | Each role's stored value parses back to it |
| Constants.ValueListsDistinct | src/lib/constants.ts:2-45 | The subject and level lists hold 14 distinct entries each, the frequency list 6 |
| Constants.DaySlots | src/lib/constants.ts:48-68 | A weekday offers three slots, a weekend day two, and a slot is listed exactly when it is offered that day |
| Constants.DisponibilitesDistinct | src/lib/constants.ts:48-68 | The availability list holds 19 distinct slots |
| Constants.DisponibilitesAreWeekSlots | src/lib/constants.ts:48-68 | The availability list is the week's slots, day by day from Monday |
| Constants.SlotListedIffOffered | src/lib/constants.ts:48-68 | A day and period are listed exactly when the period is morning or afternoon, or evening on a weekday |
| Constants.SlotLabelsDiffer | src/lib/constants.ts:48-68 | Slots of different days have different labels |
| NewOffer.CreateOffer | src/pages/parent/NouvelleOffre.tsx:19-34 | Without a user nothing is inserted; on success exactly one offer is appended, owned by the user, open, copying the form's fields, all else unchanged |
| AvailableOffers.CreatedOfferListed | src/pages/repetiteur/OffresDisponibles.tsx:52-56 | A newly created offer appears on the tutors' list of available offers with no filter set |
| ParentOfferDetails.LoadOwnOffer | src/pages/parent/OffreDetails.tsx:74-81 | A loaded offer has the requested id and belongs to the user; anything else is NotFound |
| ParentOfferDetails.LoadOwnOfferFound | src/pages/parent/OffreDetails.tsx:74-79 | With unique ids the user's own offer is found |
| ParentOfferDetails.LoadOthersOfferFails | src/pages/parent/OffreDetails.tsx:74-81 | Another parent's offer is never loaded |
| ParentOfferDetails.OfferApplications | src/pages/parent/OffreDetails.tsx:85-95 | The list is a newest-first permutation of exactly the offer's applications |
| ParentOfferDetails.Applicant | src/pages/parent/OffreDetails.tsx:100-117 | The applicant is the tutor's profile, or a placeholder named 'Utilisateur inconnu' with the tutor's id |
| ParentOfferDetails.SetOfferStatus | src/pages/parent/OffreDetails.tsx:135-145 | Without a loaded offer nothing happens; on success only the offer's status changes and every other field and table stays |
| ParentOfferDetails.LocalOfferAfter | src/pages/parent/OffreDetails.tsx:145-147 | The shown offer takes the new status only when the store accepted it |
| ParentOfferDetails.AnyStatusToAny | src/pages/parent/OffreDetails.tsx:135-162 | Every status can be chosen from every status and is then stored |
| ParentOfferDetails.StatusChangeReversible | src/pages/parent/OffreDetails.tsx:135-147 | Changing the status and changing it back restores the database |
| ParentOfferDetails.DecisionStatus | src/pages/parent/OffreDetails.tsx:164-166 | A decision never leaves an application pending |
| ParentOfferDetails.DecideApplication | src/pages/parent/OffreDetails.tsx:164-175 | A decision writes only the targeted application's status; offers, contracts and other applications are unchanged |
| ParentOfferDetails.LocalApplicationsAfter | src/pages/parent/OffreDetails.tsx:175-181 | On a refusal the shown list is unchanged; on success the targeted row takes the decided status and every other row is kept |
| ParentOfferDetails.LocalDecisionMirrorsStore | src/pages/parent/OffreDetails.tsx:170-181 | After a decision the page shows what a reload would show |
| Cards.ShowDecisions | src/components/offers/ApplicationCard.tsx:227 | Accept and refuse are offered exactly in the parent view of a pending application with both handlers |
| Cards.DecidedHasNoButtons | src/components/offers/ApplicationCard.tsx:227-249 | A decided application never offers a decision, and the tutor view never does |
| Cards.ViewOfferTarget | src/components/offers/ApplicationCard.tsx:251 | 'Voir l'offre' is offered exactly in the tutor view with a handler and an offer, and leads to that offer |
| Cards.ButtonsExclusive | src/components/offers/ApplicationCard.tsx:227-251 | A card never shows both the decision buttons and the view-offer button |
| Cards.ApplicationBadge | src/components/offers/ApplicationCard.tsx:47-57 | Each status's badge carries its label; the check icon marks exactly accepted, the cross exactly refused |
| Cards.ApplicationBadgesDistinct | src/components/offers/ApplicationCard.tsx:47-57 | The colour and icon maps tell the three statuses apart |
| Cards.HasEnrichedProfile | src/components/offers/ApplicationCard.tsx:83-89 | Enriched exactly when a tutor is attached with a bio, a subject, a level, a localisation or a non-zero experience |
| Cards.SavedProfileEnriched | src/components/offers/ApplicationCard.tsx:83-89 | A profile saved by the form is enriched exactly when one of those fields was filled; a complete profile always is |
| Cards.ExperienceLineAsWritten | src/components/offers/ApplicationCard.tsx:115-119 | As written: no experience shows nothing, a positive one shows the line, and zero shows a bare "0" |
| Cards.ExperienceLine | src/components/offers/ApplicationCard.tsx:115-119 | The line appears exactly for positive experience, with 'ans' exactly above one year |
| Cards.ExperienceLinesAgree | src/components/offers/ApplicationCard.tsx:115-119 | The two versions differ exactly on an experience of zero |
| Cards.RateLine | src/components/offers/ApplicationCard.tsx:177-181 | The hourly rate shows for a positive rate; a zero would show "0" |
| Cards.SavedRateNeverLeaksZero | src/components/offers/ApplicationCard.tsx:177 | A rate saved by the form never shows a bare "0", because a zero rate is saved as null; the rate shows exactly when positive |
| Cards.FormatBudget | src/components/offers/OfferCard.tsx:45-51 | The label starts with the minimum and ends with " FCFA", ending with the maximum when they differ |
| Cards.BudgetSingleIffEqual | src/components/offers/OfferCard.tsx:45-51 | The label is a single amount exactly when min equals max, and a range otherwise |
| Cards.OfferStatusColor | src/components/offers/OfferCard.tsx:31-35 | Every offer status has a colour class |
| Cards.OfferBadge | src/components/offers/OfferCard.tsx:63-67 | The status badge appears exactly when requested and carries the status label |
| Cards.CountText | src/components/offers/OfferCard.tsx:100 | The count is followed by 'candidature', plural exactly above one |
| Cards.ApplicationsLine | src/components/offers/OfferCard.tsx:98-102 | The count line appears exactly when requested and the count is known |
| Cards.ActionButton | src/components/offers/OfferCard.tsx:105-115 | The action button appears exactly with a non-empty label and a handler |
| Jsx.NumAnd | src/pages/repetiteur/MesContrats.tsx:181 | A number guard renders nothing for a missing number, the node for a non-zero one, and the text "0" for zero |
| Jsx.NumAndPositive | src/components/offers/ApplicationCard.tsx:115 | Guarding with "n && n > 0" still renders "0" for zero and nothing for a negative number |
| Jsx.WhenPositive | src/components/offers/ApplicationCard.tsx:115 | The intended guard renders the node exactly for a positive number and nothing otherwise |
| Jsx.NumAndPositiveLeaksZero | src/components/offers/ApplicationCard.tsx:115 | The two guards agree on every input but zero |
| Initials.GetInitials | src/components/offers/ApplicationCard.tsx:69-76 | The initials have at most two characters |
| Initials.InitialsOfWords | src/components/offers/ApplicationCard.tsx:69-76 | The initials are the upper-cased first letters of the first non-empty words, two exactly when there are two such words |
| Initials.SingleWordInitial | src/components/profile/AvatarUpload.tsx:32-39 | A name without spaces gives its upper-cased first character alone |
| TutorOfferDetails.LoadOffer | src/pages/repetiteur/OffreDetails.tsx:59-66 | A loaded offer has the requested id; anything else is NotFound |
| TutorOfferDetails.LoadOfferAnyStatus | src/pages/repetiteur/OffreDetails.tsx:59-66 | Any offer loads whatever its status |
| TutorOfferDetails.LoadHasApplied | src/pages/repetiteur/OffreDetails.tsx:69-76 | The applied flag is set only when an application of this tutor to this offer exists |
| TutorOfferDetails.LoadHasAppliedExact | src/pages/repetiteur/OffreDetails.tsx:69-76 | With at most one application per pair, the flag is set exactly when the tutor applied |
| TutorOfferDetails.DocumentsValides | src/pages/repetiteur/OffreDetails.tsx:41-42 | The documents gate opens exactly when the profile's flag is present and true |
| TutorOfferDetails.ApplyPanel | src/pages/repetiteur/OffreDetails.tsx:198-230 | The apply button shows exactly when the tutor has not applied and the documents are validated; the banner exactly when they applied |
| TutorOfferDetails.InsertReply | src/pages/repetiteur/OffreDetails.tsx:95-100 | The unique index rejects an insert exactly for a pair that already has an application |
| TutorOfferDetails.Apply | src/pages/repetiteur/OffreDetails.tsx:90-128 | A duplicate is reported as already applied and any other rejection as a failure; on success one pending application with the message is appended, all else unchanged, and pairs stay unique |
| TutorOfferDetails.HasAppliedAfter | src/pages/repetiteur/OffreDetails.tsx:102-104 | The flag is set after a successful insert and unchanged after a failure |
| TutorOfferDetails.NoSecondApplication | src/pages/repetiteur/OffreDetails.tsx:104-198 | After applying, the page and a reload of it both show the banner instead of the button |
| TutorOfferDetails.SecondAttemptRejected | src/pages/repetiteur/OffreDetails.tsx:110-124 | A second attempt by the same tutor is refused as already applied whatever else the backend says |
| TutorOfferDetails.ApplyIgnoresOfferStatus | src/pages/repetiteur/OffreDetails.tsx:90-100 | Applying behaves the same whatever the offer's status |
| ParentContracts.ParentContractList | src/pages/parent/MesContrats.tsx:79-83 | A permutation of the parent's contracts (multiset equal to the filter), newest first |
| ParentContracts.ContractTutor | src/pages/parent/MesContrats.tsx:94-104 | The tutor shown is their profile, or a placeholder named 'Inconnu' |
| ParentContracts.EndDateWritten | src/pages/parent/MesContrats.tsx:123-127 | An end date is written exactly when finishing or cancelling, as today's date text: ten characters up to the year 9999, thirteen in the extended form after |
| ParentContracts.SetContractStatus | src/pages/parent/MesContrats.tsx:120-134 | Only the targeted contract changes, in status and, when it ends, in end date; other contracts and tables are unchanged |
| ParentContracts.OrElse | src/pages/parent/MesContrats.tsx:139 | A written end date replaces the shown one; otherwise the old one stays |
| ParentContracts.LocalContractsAfter | src/pages/parent/MesContrats.tsx:134-142 | The shown list changes only after the store accepted, and only in the targeted row |
| ParentContracts.LocalContractsMirrorStore | src/pages/parent/MesContrats.tsx:129-142 | After a change the page shows what a reload would show |
| ParentContracts.EndedHasNoControl | src/pages/parent/MesContrats.tsx:250-266 | Once finished or cancelled a contract no longer offers the status control |
| ParentContracts.EndDateKept | src/pages/parent/MesContrats.tsx:123-139 | Reactivating a finished contract keeps the end date written when it ended |
| AdminOffers.CountApplications | src/pages/admin/AdminOffres.tsx:88-91 | Every counted offer id has a positive count or keeps its initial count |
| AdminOffers.CountApplicationsIsFilterCount | src/pages/admin/AdminOffres.tsx:88-91 | The counting map holds, for each offer id, the number of applications with that id |
| AdminOffers.ApplicationsCount | src/pages/admin/AdminOffres.tsx:88-96 | An offer's count is the number of its applications, 0 when there are none |
| AdminOffers.ParentName | src/pages/admin/AdminOffres.tsx:81-95 | The parent's name when the profile exists and the name is non-empty; '—' for a missing profile and for an empty name |
| AdminOffers.OfferRows | src/pages/admin/AdminOffres.tsx:62-97 | The rows' offers are a permutation of the offers, newest first; each row carries its offer's applications count and `ParentName` of its offer's parent |
| AdminOffers.OfferStats | src/pages/admin/AdminOffres.tsx:149-154 | The three status counts are filter counts and add up to the total |
| AdminOffers.FilteredOffers | src/pages/admin/AdminOffres.tsx:135-140 | A row is kept exactly when the term occurs, ignoring case, in subject, level, parent name or address; order kept; an empty term keeps all |
| AdminOffers.DeleteIfDone | src/pages/admin/AdminOffres.tsx:116-121 | A refused deletion leaves the rows; a done one removes every row with the key and keeps every other row, in order |
| AdminOffers.DeleteOffer | src/pages/admin/AdminOffres.tsx:112-133 | Only the offer deletion's error is reported; each refused step leaves its table; profiles and roles never change |
| AdminOffers.DeleteOfferComplete | src/pages/admin/AdminOffres.tsx:116-121 | When all three deletions succeed, nothing refers to the offer any more, and every other offer, application and contract stays, in order |
| AdminOffers.OrphanedContractsUnreported | src/pages/admin/AdminOffres.tsx:117-122 | A failed contract deletion is not reported: the offer is gone, yet its contract stays |
| AdminUsers.UserRows | src/pages/admin/Users.tsx:62-91 | The rows are a permutation of the profiles' rows, newest first, each with the role of the user's first role row, or 'client' |
| AdminUsers.FilterUsers | src/pages/admin/Users.tsx:111-128 | Only listed users are kept |
| AdminUsers.FilterUsersKeepsListed | src/pages/admin/Users.tsx:111-128 | A user is kept exactly when the query is empty or found in the lower-cased name or the phone, and the role filter is 'all' or the user's role; order kept |
| AdminUsers.ToggleActive | src/pages/admin/Users.tsx:130-137 | Only the chosen user's active flag is inverted |
| AdminUsers.ToggleTwiceRestores | src/pages/admin/Users.tsx:130-145 | Toggling a user and toggling them again from the reloaded row restores the database |
| AdminUsers.AssignableRoles | src/pages/admin/Users.tsx:304 | The assignable roles are every role except super_admin, without repetition |
| AdminUsers.RoleOptions | src/pages/admin/Users.tsx:304-305 | The options are the assignable roles other than the current one, each once |
| AdminUsers.UserMenu | src/pages/admin/Users.tsx:282-315 | View and toggle are always offered; a role change to r is offered exactly when the viewer is super admin, the user is not, and r is another assignable role |
| AdminUsers.ChangeRole | src/pages/admin/Users.tsx:156-163 | Only the user's role rows change, to the new role |
| AdminUsers.ChangeRoleDisplayed | src/pages/admin/Users.tsx:156-170 | After a change the reloaded list shows the new role for a user who had a role row, and nothing changes for one without |
| AdminTutors.TutorList | src/pages/admin/Prestataires.tsx:34-59 | Exactly the profiles with a 'prestataire' role row, in profile order |
| AdminTutors.TutorTallies | src/pages/admin/Prestataires.tsx:141-163 | Active and inactive counts are filter counts adding up to the total |
| AdminTutors.FilteredTutors | src/pages/admin/Prestataires.tsx:103-106 | A tutor is kept exactly when the lower-cased name contains the lower-cased term or the phone the raw term; order kept |
| AdminTutors.ToggleTutor | src/pages/admin/Prestataires.tsx:78-85 | Only the chosen user's flag changes, to the negation of the status shown |
| AdminTutors.ToggleKeepsTutors | src/pages/admin/Prestataires.tsx:78-92 | A toggle changes no role row, so the listed tutors' ids and their order stay; the toggled tutor differs only in the flag, now negated, and every other tutor is unchanged |
| AdminDashboard.CountRoles | src/pages/admin/Dashboard.tsx:63-74 | The `forEach` only raises counters, and by at most one per row in total |
| AdminDashboard.CountRolesIsFilterCount | src/pages/admin/Dashboard.tsx:63-74 | The four counters are the numbers of rows with each known role; unknown roles are ignored |
| AdminDashboard.DashboardStats | src/pages/admin/Dashboard.tsx:83-103 | Users count profiles; admins add admin and super_admin rows; open offers and pending applications are filter counts |
| AdminDashboard.RecentUsers | src/pages/admin/Dashboard.tsx:106-119 | min(5, number of profiles) rows, a sub-multiset of the profiles' rows, newest first, each with their displayed role or 'client' |
| AdminDashboard.RecentUsersAreNewest | src/pages/admin/Dashboard.tsx:106-108 | A user left out is no newer than any user shown, and fewer than 5 shown means every user is shown |
| ParentDashboard.OwnApplications | src/pages/parent/Dashboard.tsx:68-80 | A permutation of the applications whose offer is one of the parent's (multiset equal to that filter), newest first |
| ParentDashboard.OwnIdsExact | src/pages/parent/Dashboard.tsx:53-61 | An id is in the list of the parent's offer ids exactly when one of their offers has it |
| ParentDashboard.ParentDashboardData | src/pages/parent/Dashboard.tsx:53-130 | Offer counts cover the parent's offers; with none, application counts are 0 and nothing is recent; pending plus accepted never exceed the applications; with an offer, the recent panel holds min(5, applications) entries, in the order of the applications |
| ParentDashboard.Summarize | src/pages/parent/Dashboard.tsx:60-130 | The tallies count the parent's offers and their open ones; with no offer, no application is counted or shown; pending plus accepted never exceed the applications; with an offer, the panel holds min(5, applications) entries, the first ones in order |
| ParentDashboard.RecentTutorName | src/pages/parent/Dashboard.tsx:108-121 | A recent application names its tutor, or 'Inconnu' |
| TutorDashboard.MyApplications | src/pages/repetiteur/Dashboard.tsx:68-72 | A newest-first permutation of exactly the tutor's applications |
| TutorDashboard.RecentOpenOffers | src/pages/repetiteur/Dashboard.tsx:104-109 | min(3, open offers) offers, a sub-multiset of the open offers, newest first |
| TutorDashboard.RecentOffersAreNewest | src/pages/repetiteur/Dashboard.tsx:104-109 | An open offer left out is no newer than any shown, and fewer than 3 shown means every open offer is shown |
| TutorDashboard.ApplicationsPanel | src/pages/repetiteur/Dashboard.tsx:83-100 | min(3, applications) entries, the first applications in order, each keeping its application's status and date, with the offer's subject and level, or '' when the offer is missing |
| TutorDashboard.TutorDashboardData | src/pages/repetiteur/Dashboard.tsx:60-118 | Available offers count open offers; total, pending and accepted count the tutor's applications, pending plus accepted at most the total |
| AvailableOffers.OpenOffers | src/pages/repetiteur/OffresDisponibles.tsx:52-56 | A permutation of the open offers (multiset equal to the filter), newest first |
| AvailableOffers.FilteredOffers | src/pages/repetiteur/OffresDisponibles.tsx:78-92 | An offer is shown exactly when it passes the search and both filters, 'all' disabling a filter; order kept |
| AvailableOffers.HasActiveFilters | src/pages/repetiteur/OffresDisponibles.tsx:104-105 | Filters are active exactly when they differ from the defaults |
| AvailableOffers.ClearFilters | src/pages/repetiteur/OffresDisponibles.tsx:98-102 | After clearing no filter is active |
| AvailableOffers.ClearedShowsAll | src/pages/repetiteur/OffresDisponibles.tsx:78-102 | After clearing every fetched offer is shown |
| AvailableOffers.Plural | src/pages/repetiteur/OffresDisponibles.tsx:204 | The plural 's' appears exactly above one |
| AvailableOffers.CountLabel | src/pages/repetiteur/OffresDisponibles.tsx:204 | The label starts with the count and is plural exactly above one |
| TutorApplications.OfferBriefOf | src/pages/repetiteur/MesCandidatures.tsx:56-65 | The offer's subject and level, or 'Offre supprimée' when the offer is gone |
| TutorApplications.ApplicationsWithOffers | src/pages/repetiteur/MesCandidatures.tsx:39-68 | The entries are a permutation of the tutor's applications joined with their offers, newest first |
| TutorApplications.Group | src/pages/repetiteur/MesCandidatures.tsx:88-90 | A group holds exactly the entries with its status, in order |
| TutorApplications.GroupsPartition | src/pages/repetiteur/MesCandidatures.tsx:88-90 | The three groups together hold every entry once |
| TutorApplications.PageBody | src/pages/repetiteur/MesCandidatures.tsx:108-161 | The empty message shows exactly with no application; a section shows exactly when its group is non-empty, in the page's order |
| TutorApplications.EveryApplicationShownOnce | src/pages/repetiteur/MesCandidatures.tsx:88-161 | Every application is shown, in exactly one section |
| TutorContracts.TutorContractList | src/pages/repetiteur/MesContrats.tsx:72-76 | A permutation of the tutor's contracts (multiset equal to the filter), newest first |
| TutorContracts.ContractsWithParents | src/pages/repetiteur/MesContrats.tsx:89-98 | Each contract with its parent's profile, or a placeholder named 'Inconnu' |
| TutorContracts.SplitSections | src/pages/repetiteur/MesContrats.tsx:113-114 | Active and past sections partition the contracts, each in order |
| TutorContracts.PageBody | src/pages/repetiteur/MesContrats.tsx:195-226 | The empty message shows exactly with no contract; a section shows exactly when it has a contract |
| TutorContracts.TarifLineAsWritten | src/pages/repetiteur/MesContrats.tsx:181-185 | As written: a zero agreed rate renders a bare "0" |
| TutorContracts.TarifLine | src/pages/repetiteur/MesContrats.tsx:181-185 | The rate line shows exactly when a rate is set, and never a bare "0" |
| TutorContracts.TarifLineZeroDiffers | src/pages/repetiteur/MesContrats.tsx:181-185 | The two versions agree except on a zero rate |
| Routing.RoleHome | src/App.tsx:54-62 | Staff go to the admin dashboard, else clients to the parent one, else tutors to theirs; a user without roles has no home |
| Routing.HomeRedirect | src/App.tsx:38-63 | Spinner while loading; without a user or a known role, /auth; otherwise the role's home |
| Routing.AuthRedirect | src/App.tsx:66-89 | Spinner while loading; a signed-in user with a role goes home; anyone else sees the sign-in page |
| Routing.ParentBeforeTutor | src/App.tsx:56-59 | A user both client and tutor lands on the parent dashboard |
| Routing.RedirectsAgree | src/App.tsx:54-88 | For a signed-in user both redirects agree, except that without a role one sends to /auth and the other shows it |
| Routing.GuardOf | src/App.tsx:100-257 | A path has a guard exactly when the route table declares it, and that is its declared guard |
| Routing.RoutePathsDistinct | src/App.tsx:100-257 | No path is declared twice |
| Routing.LandingAdmitsUser | src/App.tsx:106-216 | The home a user is redirected to admits one of their roles |
| Routing.FilteredNavItems | src/components/layout/Sidebar.tsx:38-41 | An item is shown exactly when it has no role list or the user holds one of its roles; order kept; the dashboard item always shows |
| Routing.NavForRoles | src/components/layout/Sidebar.tsx:25-41 | Non-staff users see only the dashboard item; staff see all four |
| Routing.NavItemsDistinct | src/components/layout/Sidebar.tsx:25-30 | The items are distinct and have distinct links |
| Routing.AtMostOneActive | src/components/layout/Sidebar.tsx:66-67 | At most one shown item is active for any path |
| Store.DisplayedRole | src/pages/admin/Users.tsx:81-89 | The role of the user's first role row, or 'client' without one |
| Uploads.CheckDocument | src/components/profile/CniUpload.tsx:70-87 | A document is refused for another format first, then above the size limit; accepted exactly otherwise |
| Uploads.CniLimitIsStricter | src/components/profile/DiplomaUpload.tsx:59-68 | Limits are 5 MiB for the card and 10 MiB for diplomas; a card file is always a valid diploma |
| Uploads.Listed | src/components/profile/CniUpload.tsx:46-47 | The placeholder file is never listed, every other file is, in order |
| Uploads.IsPdf | src/components/profile/CniUpload.tsx:130 | A name is a PDF exactly when it ends in '.', then 'p', 'd', 'f' in either case |
| Uploads.IsPdfIgnoresCase | src/components/profile/CniUpload.tsx:130 | The PDF check ignores case |
| Cni.SideName | src/components/profile/CniUpload.tsx:92 | Both side names have five characters |
| Cni.ClassifySide | src/components/profile/CniUpload.tsx:49 | A file is the front exactly when its name starts with "recto" |
| Cni.StoredName | src/components/profile/CniUpload.tsx:91-92 | The stored name is the side, '_', the time and the file's extension, never the placeholder |
| Cni.ClassifyStoredName | src/components/profile/CniUpload.tsx:49-92 | A stored file is classified as the side it was uploaded for |
| Cni.CniFiles | src/components/profile/CniUpload.tsx:46-52 | One entry per listed file, classified by its name |
| Cni.FindSide | src/components/profile/CniUpload.tsx:96 | Finds a file of the side exactly when there is one |
| Cni.IsComplete | src/components/profile/CniUpload.tsx:131-133 | Complete exactly when a front and a back exist |
| Cni.UploadCni | src/components/profile/CniUpload.tsx:66-108 | A refused file changes nothing; an upload stores the new name and adds nothing else |
| Cni.UploadReplacesSide | src/components/profile/CniUpload.tsx:95-101 | With at most one file per side before, the new file is then the only one of its side |
| Cni.DeleteCni | src/components/profile/CniUpload.tsx:118-128 | A done removal drops the file; a refused one changes nothing |
| Diplomas.Sanitize | src/components/profile/DiplomaUpload.tsx:72 | Same length, only allowed characters, and a character is kept exactly when allowed |
| Diplomas.SanitizeIdempotent | src/components/profile/DiplomaUpload.tsx:72 | Allowed names are kept, so sanitising twice is sanitising once |
| Diplomas.DiplomaName | src/components/profile/DiplomaUpload.tsx:72-73 | The time, '_', then the sanitised name, all allowed characters |
| Diplomas.StripTimestamp | src/components/profile/DiplomaUpload.tsx:103 | The result is the name less one leading run of digits and '_', or the name itself |
| Diplomas.DisplayNameRoundTrip | src/components/profile/DiplomaUpload.tsx:72-103 | A stored diploma is displayed under its sanitised original name |
| Diplomas.UploadDiploma | src/components/profile/DiplomaUpload.tsx:55-87 | A refused file or failed upload changes nothing; a done one adds the timestamped name |
| Diplomas.UploadedDiplomaShown | src/components/profile/DiplomaUpload.tsx:72-103 | An uploaded diploma is listed and shown under its sanitised name |
| Diplomas.DeleteDiploma | src/components/profile/DiplomaUpload.tsx:89-100 | A done removal drops the file; a refused one changes nothing |
| TutorDocuments.ShortenSide | src/components/profile/RepetiteurDocuments.tsx:53 | The name stays or becomes a shorter one starting with "recto." or "verso." |
| TutorDocuments.DisplayName | src/components/profile/RepetiteurDocuments.tsx:53 | The shown name is never longer than the stored one, and a name with neither a leading number nor a card prefix is shown as it is |
| TutorDocuments.CniDisplayName | src/components/profile/RepetiteurDocuments.tsx:53 | A stored card file is shown as its side, '.', and its extension |
| TutorDocuments.DiplomaDisplayName | src/components/profile/RepetiteurDocuments.tsx:53 | A stored diploma is shown under its sanitised name, unless that starts like a card file |
| TutorDocuments.CniLabel | src/components/profile/RepetiteurDocuments.tsx:121 | 'Recto' exactly for a front file, 'Verso' exactly for a back one |
| TutorDocuments.ViewDocuments | src/components/profile/RepetiteurDocuments.tsx:32-71 | No placeholder listed; the total is the sum of both lists; the empty message shows exactly when only placeholders exist |
| Avatar.CheckAvatar | src/components/profile/AvatarUpload.tsx:46-63 | A photo is refused if not an image, then if above 5 MiB; accepted exactly otherwise |
| Avatar.AvatarPath | src/components/profile/AvatarUpload.tsx:68-70 | The path is in the user's folder and ends with the file's extension |
| Avatar.PublicUrl | src/components/profile/AvatarUpload.tsx:88-90 | The public address is the base, "/avatars/", then the path |
| Avatar.OldPath | src/components/profile/AvatarUpload.tsx:73-78 | A previous path is found only in an address holding "/avatars/", and is non-empty and free of it |
| Avatar.OldPathOfPublicUrl | src/components/profile/AvatarUpload.tsx:73-90 | The path is read back from the address it was published under |
| Avatar.RemoveOld | src/components/profile/AvatarUpload.tsx:72-78 | At most the previous photo is removed |
| Avatar.SelectAvatar | src/components/profile/AvatarUpload.tsx:41-98 | A refused file changes nothing; a failed step keeps the address; success stores the photo and points the profile at it |
| Avatar.DeleteAvatar | src/components/profile/AvatarUpload.tsx:123-140 | No photo means no change; a done update clears the address; no file is ever added |
| Avatar.SelectThenDelete | src/components/profile/AvatarUpload.tsx:123-140 | Deleting right after a change removes exactly the photo just stored |
| Avatar.SelectReplacesOld | src/components/profile/AvatarUpload.tsx:72-98 | A successful change removes the previous photo unless stored under the same path |
| Avatar.FallbackInitials | src/components/profile/AvatarUpload.tsx:166 | At most two characters; "U" without a name |
| Avatar.AvatarButtons | src/components/profile/AvatarUpload.tsx:209-214 | 'Changer la photo' and the delete button show exactly when a photo is set |
| Dates.YearText | src/pages/parent/MesContrats.tsx:126 | A year up to 9999 is four digits reading back as the year; a later one is '+' and six digits, reading back as the year below a million |
| Dates.IsoDate | src/pages/parent/MesContrats.tsx:126 | A date is the year text, '-', month, '-', day with no 'T': ten characters with '-' at 4 and 7 up to 9999, thirteen starting with '+' after |
| Dates.ToIsoString | src/pages/parent/MesContrats.tsx:126 | The timestamp is 24 characters with 'T' at 10 and 'Z' at the end up to the year 9999, and 27 characters starting with '+' with 'T' at 13 after |
| Dates.Today | src/pages/parent/MesContrats.tsx:126 | The part before 'T' of the timestamp is the instant's date as `IsoDate` writes it |
| Dates.ParseIsoDate | src/pages/parent/MesContrats.tsx:126 | Only a ten-character digits-and-dashes text is read as a date |
| Dates.ParseIsoDateOfIsoDate | src/pages/parent/MesContrats.tsx:126 | Every valid date is read back from its text |
| Dates.IsoDateOfParseIsoDate | src/pages/parent/MesContrats.tsx:126 | Every text read as a date is that date's text |

## Left out

- Backend calls are not modelled as I/O: queries, inserts, updates, deletes, storage list, upload and remove, and sign-up and sign-in. Each is an in-memory table or set, and its answer is a `Reply` parameter. The store's own errors are codes.
- Row-level security is server side and not part of this model, nor are the AuthContext and ProtectedRoute components. `Routing.GuardOf` states what each route declares, not how the guard enforces it.
- The unique index on (offer, tutor) is modelled only as `TutorOfferDetails.InsertReply`: the insert's answer when the pair already exists.
- The offer and application form schemas are not part of this model. No budget ordering and no message length is assumed.
- Rendering, toasts, navigation side effects, loading flags and dialogs are left out. So are the sign-up steps of src/pages/Auth.tsx, the admin and tutor profile pages, the parent's offer list page (src/pages/parent/MesOffres.tsx) and the form components.
- Clock reads are parameters: `Date.now()` is a `nat` and `new Date()` an `Instant` record. Date formatting through date-fns and `toLocaleDateString` is left out.
- `Intl.NumberFormat` and `toLocaleString` digit grouping are left out. Numbers are written in plain decimal (`Jsx.IntText`), which keeps the single-amount versus range distinction.
- Case mapping is ASCII only (`Text.Lower`, `Text.Upper`), in place of Unicode `toLowerCase` and `toUpperCase`.
- The few regular expressions are hand-written predicates.
- Dates.YearText: a year above 999999 keeps only its last six digits. A JavaScript `Date` cannot hold a year above 275760, so no clock reading reaches that case.
- Strings are sequences of Unicode scalar values, not JavaScript's UTF-16 code units. They differ only on characters outside the Basic Multilingual Plane, which count twice in JavaScript. This affects the zod `min`/`max` length bounds (`Validations.ValidateSignUp`, `TutorProfile.SchemaIssues`: name, password, bio and localisation), the first character `n[0]` taken by the initials (`Initials.GetInitials`), and `Diplomas.Sanitize`.
- Diplomas.Sanitize: a character outside the Basic Multilingual Plane becomes one '_' here, but two ("__") in JavaScript, whose regular expression replaces each surrogate half separately.
- `Promise.all` fan-out and async interleaving are sequential.
- File contents and MIME detection are inputs: a file is a name, a MIME type and a size.
- Sorting by `created_at` is an insertion sort (`Seqs.SortNewest`). Its order among equal timestamps is not claimed to match the backend's.
- Maps built from profile rows take the first row per id (`Store.FindProfile`). `new Map` and `Object.fromEntries` take the last; the two agree whenever profile ids are unique.
- The upload and delete handlers of the card and diploma widgets start with a "no profile, do nothing" guard. That guard is left out: the folder given is the signed-in user's.
- Cards.OfferStatusColor: only states that every status has a non-empty colour class, not which class.
- Cni.UploadCni: the previous file of the side is removed without looking at the answer, as the code does. So a refused removal can leave two files of a side, and `Cni.UploadReplacesSide` assumes the removal succeeded.
- Avatar.RemoveOld: the previous photo's removal answer is ignored, as in the code. Its contract only bounds what may disappear.
- The parent contracts page renders the agreed rate with the same `tarif && …` guard as the tutor's page (src/pages/parent/MesContrats.tsx:244-248). Only the tutor's page is modelled (`TutorContracts.TarifLine`).

## Findings

| source | as written | input that shows it | evidently intended | confidence | as-written member | corrected member |
|---|---|---|---|---|---|---|
| src/components/offers/ApplicationCard.tsx:115-119 | `experience_annees && experience_annees > 0 && (…)` renders the number 0 as the text "0" when the experience is 0 | a card given a `repetiteur` with `experience_annees = 0`; no shown caller supplies that column (src/pages/parent/OffreDetails.tsx:102-104 selects only id, full_name, avatar_url and phone) | no experience line at all for 0 years | low, not executed: plausible only once a caller passes the column | Cards.ExperienceLineAsWritten, Cards.ExperienceLinesAgree | Cards.ExperienceLine |
| src/pages/repetiteur/MesContrats.tsx:181-185 | `tarif_convenu && (…)` renders "0" for an agreed rate of 0 | a contract row with tarif_convenu = 0 | the rate line when a rate is set, never a bare "0" | low, not executed: no shown code writes contracts, so a zero rate may never occur | TutorContracts.TarifLineAsWritten, TutorContracts.TarifLineZeroDiffers | TutorContracts.TarifLine |

=== FILE: admin_dashboard.dfy ===
/** The administrator's dashboard: user and role tallies, offer and application
    tallies, and the five most recently registered users with their role. */
module AdminDashboard {
  import opened Wrappers
  import opened Seqs
  import opened Constants
  import opened Store

  /** `roleCounts`, one counter per known role. */
  datatype RoleCounts = RoleCounts(superAdmin: nat, admin: nat, prestataire: nat, client: nat)

  function Bump(c: RoleCounts, r: Role): RoleCounts {
    match r
    case SuperAdmin => c.(superAdmin := c.superAdmin + 1)
    case Admin => c.(admin := c.admin + 1)
    case Prestataire => c.(prestataire := c.prestataire + 1)
    case Client => c.(client := c.client + 1)
  }

  /** One step of the `forEach`: a row whose role is one of the four bumps that counter;
      any other row is skipped. */
  function Step(c: RoleCounts, row: RoleRow): RoleCounts {
    match ParseRole(row.role)
    case Some(role) => Bump(c, role)
    case None => c
  }

  /** The `forEach` over role rows. */
  function CountRoles(c: RoleCounts, rows: seq<RoleRow>): (r: RoleCounts)
    ensures r.superAdmin >= c.superAdmin && r.admin >= c.admin
            && r.prestataire >= c.prestataire && r.client >= c.client
    ensures r.superAdmin + r.admin + r.prestataire + r.client
            <= c.superAdmin + c.admin + c.prestataire + c.client + |rows|
    decreases |rows|
  {
    if |rows| == 0 then c else CountRoles(Step(c, rows[0]), rows[1..])
  }

  function RoleRowIs(name: string): RoleRow -> bool {
    (r: RoleRow) => r.role == name
  }

  function Known(r: RoleRow): bool {
    ParseRole(r.role).Some?
  }

  /** Each counter is the number of rows naming its role; the counters together count
      exactly the rows with a known role. */
  lemma {:induction false} CountRolesIsFilterCount(c: RoleCounts, rows: seq<RoleRow>)
    ensures var r := CountRoles(c, rows);
            r.superAdmin == c.superAdmin + |Filter(rows, RoleRowIs("super_admin"))|
            && r.admin == c.admin + |Filter(rows, RoleRowIs("admin"))|
            && r.prestataire == c.prestataire + |Filter(rows, RoleRowIs("prestataire"))|
            && r.client == c.client + |Filter(rows, RoleRowIs("client"))|
    ensures var r := CountRoles(c, rows);
            r.superAdmin + r.admin + r.prestataire + r.client
              == c.superAdmin + c.admin + c.prestataire + c.client + |Filter(rows, Known)|
    decreases |rows|
  {
    if |rows| > 0 {
      CountRolesIsFilterCount(Step(c, rows[0]), rows[1..]);
      StepCounts(c, rows[0]);
      FilterHead(rows, RoleRowIs("super_admin"));
      FilterHead(rows, RoleRowIs("admin"));
      FilterHead(rows, RoleRowIs("prestataire"));
      FilterHead(rows, RoleRowIs("client"));
      FilterHead(rows, Known);
    }
  }

  /** One step bumps the counter the row names, if any. */
  lemma StepCounts(c: RoleCounts, row: RoleRow)
    ensures var n := Step(c, row);
            n.superAdmin == c.superAdmin + (if RoleRowIs("super_admin")(row) then 1 else 0)
            && n.admin == c.admin + (if RoleRowIs("admin")(row) then 1 else 0)
            && n.prestataire == c.prestataire + (if RoleRowIs("prestataire")(row) then 1 else 0)
            && n.client == c.client + (if RoleRowIs("client")(row) then 1 else 0)
            && n.superAdmin + n.admin + n.prestataire + n.client
                 == c.superAdmin + c.admin + c.prestataire + c.client + (if Known(row) then 1 else 0)
  {
  }

  /** The eight tiles of the dashboard. */
  datatype Stats = Stats(totalUsers: nat, prestataires: nat, clients: nat, admins: nat,
                         totalOffers: nat, openOffers: nat, totalApplications: nat, pendingApplications: nat)

  /** `setStats`: users are counted from profiles, not role rows; administrators are the
      admin and super_admin rows together. */
  function DashboardStats(db: Db): (st: Stats)
    ensures st.totalUsers == |db.profiles|
    ensures st.prestataires == |Filter(db.roles, RoleRowIs("prestataire"))|
    ensures st.clients == |Filter(db.roles, RoleRowIs("client"))|
    ensures st.admins == |Filter(db.roles, RoleRowIs("admin"))| + |Filter(db.roles, RoleRowIs("super_admin"))|
    ensures st.prestataires + st.clients + st.admins == |Filter(db.roles, Known)| <= |db.roles|
    ensures st.totalOffers == |db.offers| && st.openOffers == |Filter(db.offers, OfferStatusIs(Ouverte))|
    ensures st.totalApplications == |db.applications|
    ensures st.pendingApplications == |Filter(db.applications, AppStatusIs(EnAttente))|
    ensures st.openOffers <= st.totalOffers && st.pendingApplications <= st.totalApplications
  {
    var counts := CountRoles(RoleCounts(0, 0, 0, 0), db.roles);
    CountRolesIsFilterCount(RoleCounts(0, 0, 0, 0), db.roles);
    Stats(|db.profiles|, counts.prestataire, counts.client, counts.admin + counts.superAdmin,
          |db.offers|, |Filter(db.offers, OfferStatusIs(Ouverte))|,
          |db.applications|, |Filter(db.applications, AppStatusIs(EnAttente))|)
  }

  // ----- recent users -------------------------------------------------------

  datatype RecentUser = RecentUser(id: Id, fullName: string, phone: string, createdAt: int, role: string)

  function ToRecent(roles: seq<RoleRow>): Profile -> RecentUser {
    (p: Profile) => RecentUser(p.id, p.fullName, p.phone, p.createdAt, DisplayedRole(roles, p.id))
  }

  function RecentCreatedAt(u: RecentUser): int { u.createdAt }

  /** The five newest profiles, newest first, each with its displayed role. */
  function RecentUsers(db: Db): (r: seq<RecentUser>)
    ensures |r| == if |db.profiles| < 5 then |db.profiles| else 5
    ensures multiset(r) <= multiset(Map(db.profiles, ToRecent(db.roles)))
    ensures SortedDesc(r, RecentCreatedAt)
    ensures forall i :: 0 <= i < |r| ==> r[i].role == DisplayedRole(db.roles, r[i].id)
    ensures forall i :: 0 <= i < |r| && (forall k :: 0 <= k < |db.roles| ==> db.roles[k].userId != r[i].id) ==>
              r[i].role == "client"
  {
    var top := Newest(db.profiles, ProfileCreatedAt, 5);
    NewestMappedSorted(db.profiles, ProfileCreatedAt, 5, ToRecent(db.roles), RecentCreatedAt);
    RecentRoles(db.roles, top);
    Map(top, ToRecent(db.roles))
  }

  /** Every mapped row carries its profile's displayed role. */
  lemma RecentRoles(roles: seq<RoleRow>, top: seq<Profile>)
    ensures var r := Map(top, ToRecent(roles));
            forall i :: 0 <= i < |r| ==> r[i].role == DisplayedRole(roles, r[i].id)
    ensures var r := Map(top, ToRecent(roles));
            forall i :: 0 <= i < |r| && (forall k :: 0 <= k < |roles| ==> roles[k].userId != r[i].id) ==>
              r[i].role == "client"
  {
    var r := Map(top, ToRecent(roles));
    forall i | 0 <= i < |r| ensures r[i] == ToRecent(roles)(top[i]) { }
  }

  /** A profile left out of the recent list is no newer than any listed one, and fewer
      than five listed means every profile is listed. */
  lemma RecentUsersAreNewest(db: Db, p: Profile)
    requires p in db.profiles
    ensures ToRecent(db.roles)(p) in RecentUsers(db)
            || forall j :: 0 <= j < |RecentUsers(db)| ==> RecentUsers(db)[j].createdAt >= p.createdAt
    ensures |RecentUsers(db)| < 5 ==> ToRecent(db.roles)(p) in RecentUsers(db)
  {
    NewestMappedOrOlder(db.profiles, ProfileCreatedAt, 5, ToRecent(db.roles), RecentCreatedAt, p);
  }
}

=== FILE: admin_offers.dfy ===
/** The administrator's offers page: every offer newest first with its parent's
    name and its number of applications, status tallies, a search box, and the
    cascading delete (contracts, then applications, then the offer). */
module AdminOffers {
  import opened Wrappers
  import opened Seqs
  import opened Text
  import opened Constants
  import opened Store

  // ----- application counts -------------------------------------------------

  /** `appCountMap[id] || 0`. */
  function CountOf(m: map<Id, nat>, id: Id): nat {
    if id in m then m[id] else 0
  }

  /** The `forEach` building `appCountMap`: each application adds one to its offer's entry. */
  function CountApplications(m: map<Id, nat>, apps: seq<Application>): (r: map<Id, nat>)
    ensures forall id :: id in r ==> r[id] > 0 || (id in m && r[id] == m[id])
    decreases |apps|
  {
    if |apps| == 0 then m
    else
      var id := apps[0].offerId;
      CountApplications(m[id := CountOf(m, id) + 1], apps[1..])
  }

  /** The fold counts, for every offer, exactly the applications that reference it. */
  lemma {:induction false} CountApplicationsIsFilterCount(m: map<Id, nat>, apps: seq<Application>, id: Id)
    ensures CountOf(CountApplications(m, apps), id) == CountOf(m, id) + |Filter(apps, ForOffer(id))|
    decreases |apps|
  {
    if |apps| > 0 {
      var k := apps[0].offerId;
      CountApplicationsIsFilterCount(m[k := CountOf(m, k) + 1], apps[1..], id);
    }
  }

  /** An offer's `applications_count`: the number of applications with its id, 0 when none. */
  function ApplicationsCount(apps: seq<Application>, offerId: Id): (n: nat)
    ensures n == |Filter(apps, ForOffer(offerId))|
  {
    CountApplicationsIsFilterCount(map[], apps, offerId);
    CountOf(CountApplications(map[], apps), offerId)
  }

  // ----- the enriched list --------------------------------------------------

  /** `profileMap[parent_id] || '—'`: the parent's name, or a dash when the profile is
      missing or its name is empty. */
  function ParentName(profiles: seq<Profile>, parentId: Id): (name: string)
    ensures name != ""
    ensures FindProfile(profiles, parentId).Some? && FindProfile(profiles, parentId).value.fullName != "" ==>
              name == FindProfile(profiles, parentId).value.fullName
    ensures FindProfile(profiles, parentId).None? ==> name == "—"
    ensures FindProfile(profiles, parentId).Some? && FindProfile(profiles, parentId).value.fullName == "" ==>
              name == "—"
  {
    match FindProfile(profiles, parentId)
    case Some(p) => if p.fullName != "" then p.fullName else "—"
    case None => "—"
  }

  /** A row of the page: the offer, its parent's name and its application count. */
  datatype OfferRow = OfferRow(offer: Offer, parentName: string, applicationsCount: nat)

  function Enrich(db: Db): Offer -> OfferRow {
    (o: Offer) => OfferRow(o, ParentName(db.profiles, o.parentId), ApplicationsCount(db.applications, o.id))
  }

  function RowOffer(r: OfferRow): Offer { r.offer }

  /** Each enriched row carries its offer, that offer's application count and its parent's name. */
  lemma EnrichedRows(db: Db, offers: seq<Offer>)
    ensures var rows := Map(offers, Enrich(db));
            Map(rows, RowOffer) == offers
            && forall i :: 0 <= i < |rows| ==>
                 rows[i].offer == offers[i]
                 && rows[i].applicationsCount == |Filter(db.applications, ForOffer(offers[i].id))|
                 && rows[i].parentName == ParentName(db.profiles, offers[i].parentId)
  {
    var rows := Map(offers, Enrich(db));
    forall i | 0 <= i < |rows|
      ensures rows[i].offer == offers[i]
      ensures rows[i].applicationsCount == |Filter(db.applications, ForOffer(offers[i].id))|
    {
      assert rows[i] == Enrich(db)(offers[i]);
    }
  }

  /** `fetchOffres`: all offers newest first, each enriched; an empty table gives an empty list. */
  function OfferRows(db: Db): (rows: seq<OfferRow>)
    ensures multiset(Map(rows, RowOffer)) == multiset(db.offers)
    ensures forall i :: 0 <= i < |rows| ==>
              rows[i].offer in db.offers
              && rows[i].applicationsCount == |Filter(db.applications, ForOffer(rows[i].offer.id))|
              && rows[i].parentName == ParentName(db.profiles, rows[i].offer.parentId)
    ensures forall i, j :: 0 <= i < j < |rows| ==> rows[i].offer.createdAt >= rows[j].offer.createdAt
  {
    var sorted := SortNewest(db.offers, OfferCreatedAt);
    SortNewestPermutes(db.offers, OfferCreatedAt);
    EnrichedRows(db, sorted);
    Map(sorted, Enrich(db))
  }

  // ----- statistics ---------------------------------------------------------

  datatype Stats = Stats(total: nat, ouvertes: nat, enCours: nat, fermees: nat)

  function HasStatus(s: OfferStatus): OfferRow -> bool {
    (r: OfferRow) => r.offer.statut == s
  }

  /** The four tiles; every status is one of the three, so the tallies add up to the total. */
  function OfferStats(rows: seq<OfferRow>): (st: Stats)
    ensures st.total == |rows|
    ensures st.ouvertes == |Filter(rows, HasStatus(Ouverte))|
    ensures st.enCours == |Filter(rows, HasStatus(EnCours))|
    ensures st.fermees == |Filter(rows, HasStatus(Fermee))|
    ensures st.ouvertes + st.enCours + st.fermees == st.total
  {
    FilterSplit3(rows, HasStatus(Ouverte), HasStatus(EnCours), HasStatus(Fermee));
    Stats(|rows|, |Filter(rows, HasStatus(Ouverte))|, |Filter(rows, HasStatus(EnCours))|,
          |Filter(rows, HasStatus(Fermee))|)
  }

  // ----- search -------------------------------------------------------------

  /** A row matches when the term occurs, ignoring case, in the subject, the level,
      the parent's name or the address. */
  predicate RowMatches(r: OfferRow, term: string) {
    ContainsFolded(r.offer.matiere, term) || ContainsFolded(r.offer.niveau, term)
    || ContainsFolded(r.parentName, term) || ContainsFolded(r.offer.adresse, term)
  }

  function Matching(term: string): OfferRow -> bool {
    (r: OfferRow) => RowMatches(r, term)
  }

  /** `filteredOffres`: the matching rows, in list order. */
  function FilteredOffers(rows: seq<OfferRow>, term: string): (r: seq<OfferRow>)
    ensures forall i :: 0 <= i < |r| ==> r[i] in rows && RowMatches(r[i], term)
    ensures forall i :: 0 <= i < |rows| && RowMatches(rows[i], term) ==> rows[i] in r
    ensures IsSubsequence(r, rows)
    ensures term == "" ==> r == rows
  {
    FilterIsSubsequence(rows, Matching(term));
    forall i | 0 <= i < |rows| && term == "" ensures Matching(term)(rows[i]) {
      EmptyTermMatches(rows[i].offer.matiere);
    }
    if term == "" then
      FilterAll(rows, Matching(term));
      Filter(rows, Matching(term))
    else Filter(rows, Matching(term))
  }

  // ----- cascading delete ---------------------------------------------------

  /** The state after a handler that may have written before failing, and its error. */
  datatype Outcome = Outcome(db: Db, error: Option<Error>)

  /** `delete().eq(key, id)` when the backend accepts it; the table unchanged otherwise. */
  function DeleteIfDone<T(==)>(rows: seq<T>, key: T -> Id, id: Id, reply: Reply): (r: seq<T>)
    ensures reply.Rejected? ==> r == rows
    ensures reply == Done ==> forall i :: 0 <= i < |r| ==> key(r[i]) != id
    ensures reply == Done ==> r == Filter(rows, KeyIsNot(key, id)) && IsSubsequence(r, rows)
    ensures reply == Done ==> forall i :: 0 <= i < |rows| && key(rows[i]) != id ==> rows[i] in r
  {
    FilterIsSubsequence(rows, KeyIsNot(key, id));
    if reply == Done then DeleteWhere(rows, key, id) else rows
  }

  /** `handleDelete`: nothing without a target; otherwise the offer's contracts, then its
      applications, then the offer are deleted. Only the last reply is checked: a failed
      contract or application delete goes unnoticed. */
  function DeleteOffer(db: Db, target: Option<Offer>, contractsReply: Reply, applicationsReply: Reply,
                       offerReply: Reply): (out: Outcome)
    ensures target.None? ==> out == Outcome(db, Some(Ignored))
    ensures target.Some? ==> (out.error.None? <==> offerReply == Done)
    ensures target.Some? && offerReply.Rejected? ==> out.error == Some(StoreFailure(offerReply.code))
    ensures out.db.profiles == db.profiles && out.db.roles == db.roles
    ensures offerReply.Rejected? ==> out.db.offers == db.offers
    ensures contractsReply.Rejected? ==> out.db.contracts == db.contracts
    ensures applicationsReply.Rejected? ==> out.db.applications == db.applications
  {
    if target.None? then Outcome(db, Some(Ignored))
    else
      var id := target.value.id;
      var contracts := DeleteIfDone(db.contracts, ContractOfferOf, id, contractsReply);
      var applications := DeleteIfDone(db.applications, OfferOf, id, applicationsReply);
      var offers := DeleteIfDone(db.offers, OfferKey, id, offerReply);
      var db' := db.(contracts := contracts, applications := applications, offers := offers);
      if offerReply.Rejected? then Outcome(db', Some(StoreFailure(offerReply.code)))
      else Outcome(db', None)
  }

  /** When all three deletes succeed, nothing references the offer any more and every
      row of another offer is kept, in order. */
  lemma DeleteOfferComplete(db: Db, target: Offer)
    ensures var out := DeleteOffer(db, Some(target), Done, Done, Done);
            out.error.None?
            && (forall i :: 0 <= i < |out.db.offers| ==> out.db.offers[i].id != target.id)
            && (forall i :: 0 <= i < |out.db.applications| ==> out.db.applications[i].offerId != target.id)
            && (forall i :: 0 <= i < |out.db.contracts| ==> out.db.contracts[i].offerId != target.id)
            && out.db.offers == Filter(db.offers, KeyIsNot(OfferKey, target.id))
            && out.db.applications == Filter(db.applications, KeyIsNot(OfferOf, target.id))
            && out.db.contracts == Filter(db.contracts, KeyIsNot(ContractOfferOf, target.id))
            && IsSubsequence(out.db.offers, db.offers)
            && IsSubsequence(out.db.applications, db.applications)
            && IsSubsequence(out.db.contracts, db.contracts)
            && (forall i :: 0 <= i < |db.offers| && db.offers[i].id != target.id ==>
                  db.offers[i] in out.db.offers)
            && (forall i :: 0 <= i < |db.applications| && db.applications[i].offerId != target.id ==>
                  db.applications[i] in out.db.applications)
            && (forall i :: 0 <= i < |db.contracts| && db.contracts[i].offerId != target.id ==>
                  db.contracts[i] in out.db.contracts)
  {
  }

  /** A failed contract delete is not reported: the offer is gone, the page reports
      success, and its contracts still name it. */
  lemma OrphanedContractsUnreported(db: Db, target: Offer, code: string, k: nat)
    requires k < |db.contracts| && db.contracts[k].offerId == target.id
    ensures var out := DeleteOffer(db, Some(target), Rejected(code), Done, Done);
            out.error.None?
            && (forall i :: 0 <= i < |out.db.offers| ==> out.db.offers[i].id != target.id)
            && out.db.contracts[k].offerId == target.id
  {
  }
}

=== FILE: admin_tutors.dfy ===
/** The administrator's tutor list: the profiles holding a 'prestataire' role row,
    their active and inactive tallies, the search, and the active toggle. */
module AdminTutors {
  import opened Wrappers
  import opened Seqs
  import opened Text
  import opened Constants
  import opened Store

  /** The user has a role row naming 'prestataire'. */
  predicate IsTutor(roles: seq<RoleRow>, userId: Id) {
    exists i :: 0 <= i < |roles| && roles[i].userId == userId && roles[i].role == "prestataire"
  }

  function TutorProfile(roles: seq<RoleRow>): Profile -> bool {
    (p: Profile) => IsTutor(roles, p.id)
  }

  function TutorRow(r: RoleRow): bool {
    r.role == "prestataire"
  }

  /** `fetchPrestataires`: no 'prestataire' role row gives an empty list; otherwise the
      profiles whose id is among those rows' user ids (`.in('id', userIds)`), each once. */
  function TutorList(db: Db): (r: seq<Profile>)
    ensures forall p :: p in r <==> p in db.profiles && IsTutor(db.roles, p.id)
    ensures IsSubsequence(r, db.profiles)
  {
    var tutorRows := Filter(db.roles, TutorRow);
    FilterIsSubsequence(db.profiles, TutorProfile(db.roles));
    if |tutorRows| == 0 then
      assert forall i :: 0 <= i < |db.roles| ==> !TutorRow(db.roles[i]);
      []
    else
      assert forall p :: p in Filter(db.profiles, TutorProfile(db.roles)) ==> TutorProfile(db.roles)(p);
      Filter(db.profiles, TutorProfile(db.roles))
  }

  function IsActive(p: Profile): bool {
    p.isActive
  }

  function IsInactive(p: Profile): bool {
    !p.isActive
  }

  datatype Tallies = Tallies(total: nat, active: nat, inactive: nat)

  /** The three tiles: every tutor is active or inactive, never both. */
  function TutorTallies(users: seq<Profile>): (t: Tallies)
    ensures t.total == |users|
    ensures t.active == |Filter(users, IsActive)| && t.inactive == |Filter(users, IsInactive)|
    ensures t.active + t.inactive == t.total
  {
    FilterSplit(users, IsActive, IsInactive);
    Tallies(|users|, |Filter(users, IsActive)|, |Filter(users, IsInactive)|)
  }

  /** The search: the lower-cased name contains the lower-cased term, or the phone contains
      the term as typed. */
  predicate TutorSearchHit(p: Profile, term: string) {
    ContainsFolded(p.fullName, term) || Includes(p.phone, term)
  }

  function SearchFor(term: string): Profile -> bool {
    (p: Profile) => TutorSearchHit(p, term)
  }

  /** `filteredUsers`: the hits in list order; an empty term keeps everyone. */
  function FilteredTutors(users: seq<Profile>, term: string): (r: seq<Profile>)
    ensures forall p :: p in r <==> p in users && TutorSearchHit(p, term)
    ensures IsSubsequence(r, users)
    ensures term == "" ==> r == users
  {
    FilterIsSubsequence(users, SearchFor(term));
    forall i | 0 <= i < |users| && term == "" ensures SearchFor(term)(users[i]) {
      EmptyTermMatches(users[i].fullName);
    }
    assert forall p :: p in Filter(users, SearchFor(term)) ==> SearchFor(term)(p);
    if term == "" then
      FilterAll(users, SearchFor(term));
      Filter(users, SearchFor(term))
    else Filter(users, SearchFor(term))
  }

  /** `toggleUserStatus(userId, currentStatus)`: writes `!currentStatus` for that user. */
  function ToggleTutor(db: Db, userId: Id, currentStatus: bool, reply: Reply): (r: Result<Db, Error>)
    ensures reply.Rejected? ==> r == Failure(StoreFailure(reply.code))
    ensures reply == Done ==> r.Success?
    ensures r.Success? ==> r.value.(profiles := db.profiles) == db && |r.value.profiles| == |db.profiles|
    ensures r.Success? ==> forall i :: 0 <= i < |db.profiles| ==>
              if db.profiles[i].id == userId then r.value.profiles[i].isActive == !currentStatus
                 && r.value.profiles[i].(isActive := db.profiles[i].isActive) == db.profiles[i]
              else r.value.profiles[i] == db.profiles[i]
  {
    SetActive(db, userId, !currentStatus, reply)
  }

  /** The toggle changes no role row, so after the refresh the list holds the same tutors
      in the same order, the toggled one differing only in its flag. */
  lemma ToggleKeepsTutors(db: Db, userId: Id, currentStatus: bool)
    ensures var db1 := ToggleTutor(db, userId, currentStatus, Done).value;
            forall id :: IsTutor(db1.roles, id) <==> IsTutor(db.roles, id)
    ensures var db1 := ToggleTutor(db, userId, currentStatus, Done).value;
            |TutorList(db1)| == |TutorList(db)|
            && Map(TutorList(db1), ProfileKey) == Map(TutorList(db), ProfileKey)
    ensures var db1 := ToggleTutor(db, userId, currentStatus, Done).value;
            forall i :: 0 <= i < |TutorList(db)| ==>
              TutorList(db1)[i].(isActive := TutorList(db)[i].isActive) == TutorList(db)[i]
              && (TutorList(db)[i].id == userId ==> TutorList(db1)[i].isActive == !currentStatus)
              && (TutorList(db)[i].id != userId ==> TutorList(db1)[i] == TutorList(db)[i])
  {
    var f := Updater(ProfileKey, userId, WithActive(!currentStatus));
    ToggledList(db, userId, currentStatus);
    MapKeepsKeys(TutorList(db), f, ProfileKey);
  }

  /** After the toggle the list is the old list with the toggle applied to each row. */
  lemma ToggledList(db: Db, userId: Id, currentStatus: bool)
    ensures TutorList(ToggleTutor(db, userId, currentStatus, Done).value)
            == Map(TutorList(db), Updater(ProfileKey, userId, WithActive(!currentStatus)))
  {
    var db1 := ToggleTutor(db, userId, currentStatus, Done).value;
    var f := Updater(ProfileKey, userId, WithActive(!currentStatus));
    var p := TutorProfile(db.roles);
    assert db1.profiles == Map(db.profiles, f);
    forall x: Profile ensures p(f(x)) == p(x) {
      assert f(x).id == x.id;
    }
    FilterMap(db.profiles, p, f);
  }
}

=== FILE: admin_users.dfy ===
/** The administrator's user list: every profile newest first with the role of
    its first role row, the search and role filters, the active toggle and the
    role change a super administrator can make. */
module AdminUsers {
  import opened Wrappers
  import opened Seqs
  import opened Text
  import opened Constants
  import opened Store

  /** A listed user: the profile's columns and the displayed role (stored text). */
  datatype UserRow = UserRow(id: Id, fullName: string, phone: string, avatarUrl: Option<string>,
                             isActive: bool, createdAt: int, role: string)

  function ToRow(roles: seq<RoleRow>): Profile -> UserRow {
    (p: Profile) => UserRow(p.id, p.fullName, p.phone, p.avatarUrl, p.isActive, p.createdAt,
                            DisplayedRole(roles, p.id))
  }

  /** `fetchUsers`: all profiles newest first, each with the role of its first role row
      or 'client'. */
  function UserRows(db: Db): (rows: seq<UserRow>)
    ensures multiset(rows) == multiset(Map(db.profiles, ToRow(db.roles)))
    ensures forall i :: 0 <= i < |rows| ==> exists p :: p in db.profiles && rows[i] == ToRow(db.roles)(p)
    ensures forall i :: 0 <= i < |rows| ==> rows[i].role == DisplayedRole(db.roles, rows[i].id)
    ensures forall i, j :: 0 <= i < j < |rows| ==> rows[i].createdAt >= rows[j].createdAt
  {
    var sorted := SortNewest(db.profiles, ProfileCreatedAt);
    var rows := Map(sorted, ToRow(db.roles));
    forall i | 0 <= i < |rows| ensures sorted[i] in db.profiles && rows[i] == ToRow(db.roles)(sorted[i]) {
    }
    SortNewestPermutes(db.profiles, ProfileCreatedAt);
    MapMultiset(sorted, db.profiles, ToRow(db.roles));
    rows
  }

  // ----- the list filter ----------------------------------------------------

  /** The search: the lower-cased name, or the phone, contains the lower-cased query. */
  predicate SearchHit(u: UserRow, query: string) {
    Includes(Lower(u.fullName), Lower(query)) || Includes(u.phone, Lower(query))
  }

  /** A user is listed when the query is empty or hits, and the role filter is 'all' or
      equals the role. */
  predicate Listed(u: UserRow, query: string, roleFilter: string) {
    (query == "" || SearchHit(u, query)) && (roleFilter == "all" || u.role == roleFilter)
  }

  function SearchBy(query: string): UserRow -> bool {
    (u: UserRow) => SearchHit(u, query)
  }

  function RoleIs(roleFilter: string): UserRow -> bool {
    (u: UserRow) => u.role == roleFilter
  }

  function ListedBy(query: string, roleFilter: string): UserRow -> bool {
    (u: UserRow) => Listed(u, query, roleFilter)
  }

  /** The filter effect, in its two steps: the search when the query is not empty, then
      the role when the filter is not 'all'. */
  function FilterUsers(users: seq<UserRow>, query: string, roleFilter: string): (r: seq<UserRow>)
    ensures forall i :: 0 <= i < |r| ==> r[i] in users
  {
    var searched := if query != "" then Filter(users, SearchBy(query)) else users;
    if roleFilter != "all" then Filter(searched, RoleIs(roleFilter)) else searched
  }

  /** The two steps keep exactly the listed users, in list order. */
  lemma FilterUsersKeepsListed(users: seq<UserRow>, query: string, roleFilter: string)
    ensures FilterUsers(users, query, roleFilter) == Filter(users, ListedBy(query, roleFilter))
    ensures IsSubsequence(FilterUsers(users, query, roleFilter), users)
  {
    if query != "" && roleFilter != "all" {
      FilterCompose(users, SearchBy(query), RoleIs(roleFilter), ListedBy(query, roleFilter));
    } else if query != "" {
      FilterCongruent(users, SearchBy(query), ListedBy(query, roleFilter));
    } else if roleFilter != "all" {
      FilterCongruent(users, RoleIs(roleFilter), ListedBy(query, roleFilter));
    } else {
      FilterAll(users, ListedBy(query, roleFilter));
    }
    FilterIsSubsequence(users, ListedBy(query, roleFilter));
  }

  // ----- the active toggle --------------------------------------------------

  /** `handleToggleActive`: writes the negation of the flag the list shows for the user. */
  function ToggleActive(db: Db, listed: UserRow, reply: Reply): (r: Result<Db, Error>)
    ensures reply.Rejected? ==> r == Failure(StoreFailure(reply.code))
    ensures r.Success? ==> |r.value.profiles| == |db.profiles|
    ensures r.Success? ==> forall i :: 0 <= i < |db.profiles| ==>
              if db.profiles[i].id == listed.id
              then r.value.profiles[i] == db.profiles[i].(isActive := !listed.isActive)
              else r.value.profiles[i] == db.profiles[i]
    ensures r.Success? ==> r.value.(profiles := db.profiles) == db
  {
    SetActive(db, listed.id, !listed.isActive, reply)
  }

  /** Toggling from a fresh listing, then again from the refreshed listing, restores the
      table. */
  lemma ToggleTwiceRestores(db: Db, k: nat)
    requires UniqueProfileIds(db.profiles) && k < |db.profiles|
    ensures var p := db.profiles[k];
            var row := UserRow(p.id, p.fullName, p.phone, p.avatarUrl, p.isActive, p.createdAt, "");
            var db1 := ToggleActive(db, row, Done).value;
            var row1 := row.(isActive := db1.profiles[k].isActive);
            db1.profiles[k].isActive == !p.isActive
            && ToggleActive(db1, row1, Done) == Success(db)
  {
    var p := db.profiles[k];
    var row := UserRow(p.id, p.fullName, p.phone, p.avatarUrl, p.isActive, p.createdAt, "");
    ToggleOne(db, row, k);
    var db1 := db.(profiles := db.profiles[k := p.(isActive := !p.isActive)]);
    assert UniqueProfileIds(db1.profiles) by {
      assert forall i :: 0 <= i < |db.profiles| ==> db1.profiles[i].id == db.profiles[i].id;
    }
    var row1 := row.(isActive := !p.isActive);
    ToggleOne(db1, row1, k);
    assert db1.profiles[k := p] == db.profiles;
  }

  /** A toggle on a listed user changes that user's row only. */
  lemma ToggleOne(db: Db, listed: UserRow, k: nat)
    requires UniqueProfileIds(db.profiles) && k < |db.profiles| && listed.id == db.profiles[k].id
    ensures ToggleActive(db, listed, Done)
            == Success(db.(profiles := db.profiles[k := db.profiles[k].(isActive := !listed.isActive)]))
  {
    var r := ToggleActive(db, listed, Done).value;
    var want := db.profiles[k := db.profiles[k].(isActive := !listed.isActive)];
    forall i | 0 <= i < |db.profiles| ensures r.profiles[i] == want[i] {
      if i < k {
        assert db.profiles[i].id != listed.id;
      } else if i > k {
        assert db.profiles[k].id != db.profiles[i].id;
      }
    }
    assert r.profiles == want;
  }

  // ----- changing the role --------------------------------------------------

  /** The role section of the menu: for a super administrator, on anyone not super_admin. */
  predicate RoleMenuShown(viewerIsSuperAdmin: bool, u: UserRow) {
    viewerIsSuperAdmin && u.role != "super_admin"
  }

  function NotCurrent(current: string): Role -> bool {
    (r: Role) => RoleName(r) != current
  }

  /** The roles a super administrator can hand out. */
  const Assignable: seq<Role> := [Admin, Prestataire, Client]

  lemma AssignableRoles()
    ensures forall r :: r in Assignable <==> r != SuperAdmin
    ensures Distinct(Assignable)
  {
    assert Assignable[0] == Admin && Assignable[1] == Prestataire && Assignable[2] == Client;
  }

  /** `['admin', 'prestataire', 'client'].filter(r => r !== user.role)`. */
  function RoleOptions(current: string): (opts: seq<Role>)
    ensures forall r :: r in opts <==> r != SuperAdmin && RoleName(r) != current
    ensures Distinct(opts)
  {
    var opts := Filter(Assignable, NotCurrent(current));
    AssignableRoles();
    FilterMembers(Assignable, NotCurrent(current));
    FilterIsSubsequence(Assignable, NotCurrent(current));
    DistinctSubsequence(opts, Assignable);
    opts
  }

  /** One entry of a user's action menu. */
  datatype MenuAction = ViewProfile | SetActiveTo(active: bool) | ChangeRoleTo(role: Role)

  function ChangeTo(r: Role): MenuAction {
    ChangeRoleTo(r)
  }

  /** The menu: view, the toggle (for every user, whatever the role), then the role changes
      when the role section is shown. */
  function UserMenu(viewerIsSuperAdmin: bool, u: UserRow): (m: seq<MenuAction>)
    ensures |m| >= 2 && m[0] == ViewProfile && m[1] == SetActiveTo(!u.isActive)
    ensures forall r :: ChangeRoleTo(r) in m <==>
              RoleMenuShown(viewerIsSuperAdmin, u) && r != SuperAdmin && RoleName(r) != u.role
  {
    var changes := if RoleMenuShown(viewerIsSuperAdmin, u) then Map(RoleOptions(u.role), ChangeTo) else [];
    var m := [ViewProfile, SetActiveTo(!u.isActive)] + changes;
    ChangeEntries(RoleOptions(u.role));
    assert forall r :: ChangeRoleTo(r) in m <==> ChangeRoleTo(r) in changes;
    m
  }

  /** The role entries of the menu are those of the offered roles. */
  lemma ChangeEntries(opts: seq<Role>)
    ensures forall r :: ChangeRoleTo(r) in Map(opts, ChangeTo) <==> r in opts
  {
    var m := Map(opts, ChangeTo);
    forall r | r in opts ensures ChangeRoleTo(r) in m {
      var i :| 0 <= i < |opts| && opts[i] == r;
      assert m[i] == ChangeRoleTo(r);
    }
    forall r | ChangeRoleTo(r) in m ensures r in opts {
      var i :| 0 <= i < |m| && m[i] == ChangeRoleTo(r);
      assert opts[i] == r;
    }
  }

  /** `handleChangeRole`: every role row of the user gets the new role; a user without a
      row keeps having none. */
  function ChangeRole(db: Db, u: UserRow, newRole: Role, reply: Reply): (r: Result<Db, Error>)
    ensures reply.Rejected? ==> r == Failure(StoreFailure(reply.code))
    ensures reply == Done ==> r.Success?
    ensures r.Success? ==> r.value.(roles := db.roles) == db && |r.value.roles| == |db.roles|
    ensures r.Success? ==> forall i :: 0 <= i < |db.roles| ==>
              if db.roles[i].userId == u.id then r.value.roles[i] == RoleRow(u.id, RoleName(newRole))
              else r.value.roles[i] == db.roles[i]
  {
    if reply.Rejected? then Failure(StoreFailure(reply.code))
    else Success(db.(roles := UpdateWhere(db.roles, RoleUser, u.id, WithRoleName(RoleName(newRole)))))
  }

  /** After a role change the refreshed list shows the new role, provided the user had a
      role row; a user without one is still shown as 'client'. */
  lemma ChangeRoleDisplayed(db: Db, u: UserRow, newRole: Role)
    ensures var db1 := ChangeRole(db, u, newRole, Done).value;
            (exists i :: 0 <= i < |db.roles| && db.roles[i].userId == u.id) ==>
              DisplayedRole(db1.roles, u.id) == RoleName(newRole)
    ensures var db1 := ChangeRole(db, u, newRole, Done).value;
            (forall i :: 0 <= i < |db.roles| ==> db.roles[i].userId != u.id) ==>
              db1.roles == db.roles && DisplayedRole(db1.roles, u.id) == "client"
  {
    var db1 := ChangeRole(db, u, newRole, Done).value;
    if exists i :: 0 <= i < |db.roles| && db.roles[i].userId == u.id {
      var j :| 0 <= j < |db.roles| && db.roles[j].userId == u.id;
      NewRoleShown(db.roles, db1.roles, u.id, RoleName(newRole), j);
    } else {
      NoRowUnchanged(db.roles, db1.roles, u.id);
    }
  }

  /** Rewriting every row of a user that has one shows the new role. */
  lemma NewRoleShown(roles: seq<RoleRow>, roles1: seq<RoleRow>, id: Id, name: string, j: nat)
    requires |roles1| == |roles| && j < |roles| && roles[j].userId == id && name != ""
    requires forall i :: 0 <= i < |roles| ==>
               if roles[i].userId == id then roles1[i] == RoleRow(id, name) else roles1[i] == roles[i]
    ensures DisplayedRole(roles1, id) == name
  {
    assert roles1[j].userId == id;
    var i := FirstRowExists(roles1, id, 0, j);
    assert roles[i].userId == id;
  }

  /** Rewriting the rows of a user without any leaves the table as it was. */
  lemma NoRowUnchanged(roles: seq<RoleRow>, roles1: seq<RoleRow>, id: Id)
    requires |roles1| == |roles|
    requires forall i :: 0 <= i < |roles| ==> roles[i].userId != id
    requires forall i :: 0 <= i < |roles| && roles[i].userId != id ==> roles1[i] == roles[i]
    ensures roles1 == roles
  {
  }
}

=== FILE: available_offers.dfy ===
/** The tutor's list of available offers: the open offers newest first, the
    search and the subject and level filters, and the count label. */
module AvailableOffers {
  import opened Wrappers
  import opened Seqs
  import opened Text
  import opened Constants
  import opened Store
  import NewOffer

  /** `.eq('statut', 'ouverte').order('created_at', { ascending: false })`. */
  function OpenOffers(db: Db): (r: seq<Offer>)
    ensures forall o :: o in r <==> o in db.offers && o.statut == Ouverte
    ensures forall i, j :: 0 <= i < j < |r| ==> r[i].createdAt >= r[j].createdAt
    ensures multiset(r) == multiset(Filter(db.offers, OfferStatusIs(Ouverte)))
  {
    var open := Filter(db.offers, OfferStatusIs(Ouverte));
    var r := SortNewest(open, OfferCreatedAt);
    SortNewestPermutes(open, OfferCreatedAt);
    r
  }

  /** The page's three filters; 'all' switches a select off. */
  datatype Filters = Filters(search: string, matiere: string, niveau: string)

  const DefaultFilters: Filters := Filters("", "all", "all")

  predicate MatchesSearch(o: Offer, search: string) {
    search == "" || ContainsFolded(o.matiere, search) || ContainsFolded(o.niveau, search)
    || ContainsFolded(o.description, search) || ContainsFolded(o.adresse, search)
  }

  /** An offer is shown when it passes the search, the subject filter and the level filter. */
  predicate Shown(o: Offer, f: Filters) {
    MatchesSearch(o, f.search)
    && (f.matiere == "all" || o.matiere == f.matiere)
    && (f.niveau == "all" || o.niveau == f.niveau)
  }

  function ShownBy(f: Filters): Offer -> bool {
    (o: Offer) => Shown(o, f)
  }

  /** `filteredOffers`: the shown offers in list order. */
  function FilteredOffers(offers: seq<Offer>, f: Filters): (r: seq<Offer>)
    ensures forall o :: o in r <==> o in offers && Shown(o, f)
    ensures IsSubsequence(r, offers)
  {
    FilterIsSubsequence(offers, ShownBy(f));
    assert forall o :: o in Filter(offers, ShownBy(f)) ==> ShownBy(f)(o);
    Filter(offers, ShownBy(f))
  }

  /** The reset button is shown when any filter differs from its default. */
  function HasActiveFilters(f: Filters): (active: bool)
    ensures active <==> f != DefaultFilters
  {
    f.search != "" || f.matiere != "all" || f.niveau != "all"
  }

  /** `clearFilters`. */
  function ClearFilters(f: Filters): (g: Filters)
    ensures !HasActiveFilters(g)
  {
    DefaultFilters
  }

  /** With the filters cleared, every fetched offer is shown, in order. */
  lemma ClearedShowsAll(offers: seq<Offer>, f: Filters)
    ensures FilteredOffers(offers, ClearFilters(f)) == offers
  {
    FilterAll(offers, ShownBy(DefaultFilters));
  }

  /** A newly published offer is listed for tutors, whatever its creation time. */
  lemma CreatedOfferListed(db: Db, user: Id, input: NewOffer.OfferInput, newId: Id, now: int)
    requires NewOffer.CreateOffer(db, Some(user), input, newId, now, Done).Success?
    ensures var db1 := NewOffer.CreateOffer(db, Some(user), input, newId, now, Done).value;
            db1.offers[|db.offers|] in OpenOffers(db1)
            && db1.offers[|db.offers|] in FilteredOffers(OpenOffers(db1), DefaultFilters)
  {
    var db1 := NewOffer.CreateOffer(db, Some(user), input, newId, now, Done).value;
    ClearedShowsAll(OpenOffers(db1), DefaultFilters);
  }

  /** 's' when more than one offer is shown. */
  function Plural(n: nat): (s: string)
    ensures s == "s" <==> n > 1
    ensures s == "" <==> n <= 1
  {
    if n > 1 then "s" else ""
  }

  /** "`n` offre(s) disponible(s)". */
  function CountLabel(n: nat): (text: string)
    ensures StartsWith(text, NatToString(n))
    ensures EndsWith(text, "disponibles") <==> n > 1
  {
    var text := NatToString(n) + " offre" + Plural(n) + " disponible" + Plural(n);
    assert text[..|NatToString(n)|] == NatToString(n);
    assert n > 1 ==> text[|text| - 11..] == "disponibles";
    assert n <= 1 ==> text[|text| - 1] == 'e';
    text
  }
}

=== FILE: avatar.dfy ===
/** The profile photo: an image stored in the public avatars bucket under the
    user's folder, whose public address is written to the profile; replacing
    or deleting it removes the previous file, found again from that address. */
module Avatar {
  import opened Wrappers
  import opened Text
  import opened Store
  import opened Uploads
  import opened Initials

  const MaxAvatarBytes: nat := 5 * Mebibyte

  /** The photo checks: an image type first, then at most 5 MiB. */
  function CheckAvatar(f: FileInfo): (r: Option<Rejection>)
    ensures r.None? <==> StartsWith(f.mimeType, "image/") && f.size <= MaxAvatarBytes
    ensures r == Some(UnsupportedFormat) <==> !StartsWith(f.mimeType, "image/")
    ensures r == Some(TooLarge) <==> StartsWith(f.mimeType, "image/") && f.size > MaxAvatarBytes
  {
    if !StartsWith(f.mimeType, "image/") then Some(UnsupportedFormat)
    else if f.size > MaxAvatarBytes then Some(TooLarge)
    else None
  }

  /** `${user.id}/${Date.now()}.${ext}`. */
  function AvatarPath(userId: Id, now: nat, fileName: string): (path: string)
    ensures StartsWith(path, userId + "/")
    ensures EndsWith(path, "." + Extension(fileName))
    ensures |path| > 0
  {
    var path := userId + "/" + NatToString(now) + "." + Extension(fileName);
    assert path[..|userId| + 1] == userId + "/";
    assert path[|path| - |"." + Extension(fileName)|..] == "." + Extension(fileName);
    path
  }

  const AvatarsMarker: string := "/avatars/"

  /** The public address of a stored path: the bucket's public base, the bucket name, the path. */
  function PublicUrl(base: string, path: string): (url: string)
    ensures StartsWith(url, base + AvatarsMarker) && EndsWith(url, path)
  {
    var url := base + AvatarsMarker + path;
    assert url[..|base + AvatarsMarker|] == base + AvatarsMarker;
    assert url[|url| - |path|..] == path;
    url
  }

  /** `url.split('/avatars/')[1]`, kept only when it is a non-empty string. */
  function OldPath(url: string): (r: Option<string>)
    ensures r.Some? ==> |r.value| > 0 && !Includes(r.value, AvatarsMarker)
    ensures r.Some? ==> Includes(url, AvatarsMarker)
  {
    match SecondPart(url, AvatarsMarker)
    case None => None
    case Some(p) =>
      IncludesIffIndexOf(url, AvatarsMarker);
      if p == "" then None else Some(p)
  }

  /** The base of the public addresses must not already hold the marker, not even by
      running into the marker that follows it. */
  predicate GoodBase(base: string) {
    !Includes(base + "/avatars", AvatarsMarker)
  }

  /** The path is read back from the public address it was published under. */
  lemma {:induction false} OldPathOfPublicUrl(base: string, path: string)
    requires GoodBase(base) && |path| > 0 && !Includes(path, AvatarsMarker)
    ensures OldPath(PublicUrl(base, path)) == Some(path)
  {
    var url := PublicUrl(base, path);
    var n := |base|;
    assert url[n..][..|AvatarsMarker|] == AvatarsMarker;
    assert StartsWith(url[n..], AvatarsMarker);
    var idx := IndexOf(url, AvatarsMarker);
    assert idx.Some?;
    var i := idx.value;
    if i < n {
      var prefix := base + "/avatars";
      assert prefix[i..][..|AvatarsMarker|] == url[i..i + |AvatarsMarker|];
      IncludesAt(prefix, AvatarsMarker, i);
      assert false;
    }
    assert i == n;
    assert url[i + |AvatarsMarker|..] == path;
    IncludesIffIndexOf(path, AvatarsMarker);
  }

  /** What the storage holds and what the profile points to. */
  datatype AvatarState = AvatarState(folder: set<string>, avatarUrl: Option<string>)

  /** The state after a handler ran, and the error it reported, if any. */
  datatype Outcome = Outcome(state: AvatarState, error: Option<UploadError>)

  /** A set address is acted on only when it is a non-empty string. */
  predicate HasAvatar(st: AvatarState) {
    st.avatarUrl.Some? && st.avatarUrl.value != ""
  }

  /** The folder once the previous photo's removal has been asked for; its answer is not
      looked at, so a refused removal leaves the old file. */
  function RemoveOld(st: AvatarState, removeReply: Reply): (folder: set<string>)
    ensures folder <= st.folder
    ensures st.folder - folder <= (if HasAvatar(st) && OldPath(st.avatarUrl.value).Some?
                                   then {OldPath(st.avatarUrl.value).value} else {})
  {
    if HasAvatar(st) && removeReply == Done then
      match OldPath(st.avatarUrl.value)
      case Some(previous) => st.folder - {previous}
      case None => st.folder
    else st.folder
  }

  /** `handleFileSelect`: nothing without a signed-in user; a refused file changes nothing;
      otherwise the old photo is removed, the new one stored (overwriting), and the profile
      pointed at its public address, each storage step able to fail. */
  function SelectAvatar(user: Option<Id>, st: AvatarState, file: FileInfo, now: nat, base: string,
                        removeReply: Reply, uploadReply: Reply, updateReply: Reply): (r: Outcome)
    ensures user.None? ==> r == Outcome(st, None)
    ensures user.Some? && CheckAvatar(file).Some? ==>
              r == Outcome(st, Some(Refused(CheckAvatar(file).value)))
    ensures user.Some? && CheckAvatar(file).None? && uploadReply.Rejected? ==>
              r.error == Some(StorageFailure(uploadReply.code)) && r.state.avatarUrl == st.avatarUrl
    ensures user.Some? && CheckAvatar(file).None? && uploadReply == Done && updateReply.Rejected? ==>
              r.error == Some(StorageFailure(updateReply.code)) && r.state.avatarUrl == st.avatarUrl
              && AvatarPath(user.value, now, file.name) in r.state.folder
    ensures user.Some? && r.error.None? <==>
              user.Some? && CheckAvatar(file).None? && uploadReply == Done && updateReply == Done
    ensures user.Some? && r.error.None? ==>
              var path := AvatarPath(user.value, now, file.name);
              r.state.avatarUrl == Some(PublicUrl(base, path)) && path in r.state.folder
              && r.state.folder - {path} <= st.folder
  {
    if user.None? then Outcome(st, None)
    else match CheckAvatar(file)
      case Some(reason) => Outcome(st, Some(Refused(reason)))
      case None =>
        var path := AvatarPath(user.value, now, file.name);
        var kept := RemoveOld(st, removeReply);
        if uploadReply.Rejected? then
          Outcome(AvatarState(kept, st.avatarUrl), Some(StorageFailure(uploadReply.code)))
        else if updateReply.Rejected? then
          Outcome(AvatarState(kept + {path}, st.avatarUrl), Some(StorageFailure(updateReply.code)))
        else
          Outcome(AvatarState(kept + {path}, Some(PublicUrl(base, path))), None)
  }

  /** `handleDelete`: nothing without a user or a photo; otherwise the file is removed (its
      answer not looked at) and the profile's address cleared when the update succeeds. */
  function DeleteAvatar(user: Option<Id>, st: AvatarState, removeReply: Reply, updateReply: Reply): (r: Outcome)
    ensures user.None? || !HasAvatar(st) ==> r == Outcome(st, None)
    ensures user.Some? && HasAvatar(st) && updateReply.Rejected? ==>
              r.error == Some(StorageFailure(updateReply.code)) && r.state.avatarUrl == st.avatarUrl
    ensures user.Some? && HasAvatar(st) && updateReply == Done ==>
              r.error.None? && r.state.avatarUrl.None?
    ensures r.state.folder <= st.folder
  {
    if user.None? || !HasAvatar(st) then Outcome(st, None)
    else
      var kept := RemoveOld(st, removeReply);
      if updateReply.Rejected? then
        Outcome(AvatarState(kept, st.avatarUrl), Some(StorageFailure(updateReply.code)))
      else Outcome(AvatarState(kept, None), None)
  }

  /** Deleting right after a successful change removes exactly the photo just stored and
      clears the address: the address written by the upload leads back to its file. */
  lemma SelectThenDelete(userId: Id, st: AvatarState, file: FileInfo, now: nat, base: string, removeReply: Reply)
    requires CheckAvatar(file).None?
    requires GoodBase(base) && !Includes(AvatarPath(userId, now, file.name), AvatarsMarker)
    ensures var after := SelectAvatar(Some(userId), st, file, now, base, removeReply, Done, Done).state;
            var gone := DeleteAvatar(Some(userId), after, Done, Done);
            gone.error.None? && gone.state.avatarUrl.None?
            && gone.state.folder == after.folder - {AvatarPath(userId, now, file.name)}
  {
    var path := AvatarPath(userId, now, file.name);
    OldPathOfPublicUrl(base, path);
    assert |PublicUrl(base, path)| > 0;
  }

  /** A change whose removal succeeded no longer holds the previous photo, unless the new
      one was stored under the very same path. */
  lemma SelectReplacesOld(userId: Id, st: AvatarState, file: FileInfo, now: nat, base: string, oldPath: string)
    requires CheckAvatar(file).None?
    requires GoodBase(base) && |oldPath| > 0 && !Includes(oldPath, AvatarsMarker)
    requires st.avatarUrl == Some(PublicUrl(base, oldPath))
    ensures var r := SelectAvatar(Some(userId), st, file, now, base, Done, Done, Done);
            r.error.None? && (oldPath in r.state.folder <==> oldPath == AvatarPath(userId, now, file.name))
  {
    OldPathOfPublicUrl(base, oldPath);
    assert |PublicUrl(base, oldPath)| > 0;
  }

  /** The fallback shown without a photo: the initials of the full name, or of 'U'. */
  function FallbackInitials(fullName: Option<string>): (r: string)
    ensures |r| <= 2
    ensures fullName.None? || fullName == Some("") ==> r == "U"
  {
    var name := if fullName.None? || fullName.value == "" then "U" else fullName.value;
    SingleWordInitial("U");
    GetInitials(name)
  }

  /** The buttons: the main one says 'change' when a photo is set, 'add' otherwise, and the
      delete button shows only when a photo is set. */
  datatype Buttons = Buttons(mainTitle: string, deleteShown: bool)

  function AvatarButtons(avatarUrl: Option<string>): (b: Buttons)
    ensures b.deleteShown <==> b.mainTitle == "Changer la photo"
    ensures b.deleteShown <==> avatarUrl.Some? && avatarUrl.value != ""
  {
    if avatarUrl.Some? && avatarUrl.value != "" then Buttons("Changer la photo", true)
    else Buttons("Ajouter une photo", false)
  }
}

=== FILE: cards.dfy ===
/** The two cards the lists are made of: the application card (status badge,
    the tutor's details for a parent, the accept and refuse buttons) and the
    offer card (budget, status badge, application count, action button). */
module Cards {
  import opened Wrappers
  import opened Text
  import opened Constants
  import opened Store
  import opened TutorProfile
  import opened Jsx

  /** Which side of the marketplace the card is shown to. */
  datatype Variant = ParentView | TutorView

  // ----- application card: status badge ------------------------------------

  datatype StatusIcon = ClockIcon | CheckIcon | CrossIcon

  /** The badge of an application status: its colour classes, its icon and its label. */
  datatype Badge = Badge(color: string, icon: StatusIcon, text: string)

  function ApplicationBadge(s: ApplicationStatus): (b: Badge)
    ensures b.text == ApplicationStatusLabel(s)
    ensures b.icon == CheckIcon <==> s == Acceptee
    ensures b.icon == CrossIcon <==> s == Refusee
  {
    match s
    case EnAttente => Badge("bg-secondary text-secondary-foreground", ClockIcon, ApplicationStatusLabel(s))
    case Acceptee => Badge("bg-primary/10 text-primary", CheckIcon, ApplicationStatusLabel(s))
    case Refusee => Badge("bg-destructive/10 text-destructive", CrossIcon, ApplicationStatusLabel(s))
  }

  /** Every status has its own colour and its own icon. */
  lemma ApplicationBadgesDistinct(s: ApplicationStatus, t: ApplicationStatus)
    ensures s != t ==> ApplicationBadge(s).color != ApplicationBadge(t).color
    ensures ApplicationBadge(s).icon == ApplicationBadge(t).icon ==> s == t
  {
  }

  // ----- application card: the tutor's details -------------------------------

  /** A nullable text is truthy when it is set and not empty. */
  predicate TextSet(t: Option<string>) {
    t.Some? && t.value != ""
  }

  /** A nullable list passes `l && l.length > 0` when it is set and not empty. */
  predicate ListSet(l: Option<seq<string>>) {
    l.Some? && |l.value| > 0
  }

  /** A nullable number is truthy when it is set and not 0. */
  predicate NumberSet(n: Option<int>) {
    n.Some? && n.value != 0
  }

  /** `hasEnrichedProfile`: some detail beyond name and phone is there to unfold. The rate
      is not among the tested columns. */
  function HasEnrichedProfile(tutor: Option<TutorColumns>): (b: bool)
    ensures tutor.None? ==> !b
    ensures tutor.Some? ==> (b <==> TextSet(tutor.value.bio) || ListSet(tutor.value.matieres)
                                    || ListSet(tutor.value.niveaux) || TextSet(tutor.value.localisation)
                                    || NumberSet(tutor.value.experienceAnnees))
  {
    match tutor
    case None => false
    case Some(t) =>
      TextSet(t.bio) || ListSet(t.matieres) || ListSet(t.niveaux) || TextSet(t.localisation)
      || NumberSet(t.experienceAnnees)
  }

  /** For a profile saved from the form, the details unfold exactly when the form had a
      bio, a subject, a level, a location or a non-zero experience; a complete profile
      always unfolds. */
  lemma SavedProfileEnriched(f: ProfileForm)
    ensures HasEnrichedProfile(Some(Save(f))) <==>
              f.bio != "" || |f.matieres| > 0 || |f.niveaux| > 0 || f.localisation != ""
              || f.experienceAnnees != 0
    ensures ProfilComplet(f) ==> HasEnrichedProfile(Some(Save(f)))
  {
  }

  /** `{n} an{n > 1 ? 's' : ''} d'expérience`. */
  function ExperienceText(n: int): (t: string)
    ensures StartsWith(t, IntText(n))
    ensures n > 1 ==> EndsWith(t, " ans d'expérience")
    ensures n <= 1 ==> EndsWith(t, " an d'expérience")
  {
    var unit := if n > 1 then " ans d'expérience" else " an d'expérience";
    var t := IntText(n) + unit;
    assert t[..|IntText(n)|] == IntText(n);
    assert t[|t| - |unit|..] == unit;
    t
  }

  /** The experience line as written, `{exp && exp > 0 && (...)}`: a stored 0 is rendered
      as the text "0". */
  function ExperienceLineAsWritten(exp: Option<int>): (out: seq<string>)
    ensures exp == Some(0) ==> out == ["0"]
    ensures exp.Some? && exp.value > 0 ==> out == [ExperienceText(exp.value)]
    ensures exp.None? || (exp.Some? && exp.value < 0) ==> out == []
  {
    match exp
    case None => []
    case Some(n) => NumAndPositive(exp, [ExperienceText(n)])
  }

  /** The experience line as intended: shown for a positive number of years, nothing
      otherwise. */
  function ExperienceLine(exp: Option<int>): (out: seq<string>)
    ensures out != [] <==> exp.Some? && exp.value > 0
    ensures out != [] ==> out == [ExperienceText(exp.value)]
  {
    match exp
    case None => []
    case Some(n) => WhenPositive(exp, [ExperienceText(n)])
  }

  /** The two lines agree on every value but 0. */
  lemma ExperienceLinesAgree(exp: Option<int>)
    ensures exp != Some(0) <==> ExperienceLineAsWritten(exp) == ExperienceLine(exp)
  {
  }

  /** `{rate && rate > 0 && (...)}` with the rate followed by ' FCFA/h'. */
  function RateLine(rate: Option<int>): (out: seq<string>)
    ensures rate == Some(0) ==> out == ["0"]
    ensures rate.Some? && rate.value > 0 ==> out == [IntText(rate.value) + " FCFA/h"]
    ensures rate.None? || (rate.Some? && rate.value < 0) ==> out == []
  {
    match rate
    case None => []
    case Some(n) => NumAndPositive(rate, [IntText(n) + " FCFA/h"])
  }

  /** The rate line has the same guard as the experience line, but the form stores a zero
      rate as null, so for a saved profile it never shows a stray "0". */
  lemma SavedRateNeverLeaksZero(f: ProfileForm)
    ensures RateLine(Save(f).tarifHoraire) != ["0"]
    ensures RateLine(Save(f).tarifHoraire) != [] <==> f.tarifHoraire > 0
  {
    if f.tarifHoraire != 0 {
      assert Save(f).tarifHoraire == Some(f.tarifHoraire);
      assert |IntText(f.tarifHoraire) + " FCFA/h"| > 1;
    }
  }

  // ----- application card: buttons -----------------------------------------

  /** The refuse and accept buttons: for a parent, on a pending application, when the page
      gave both handlers. */
  function ShowDecisions(variant: Variant, statut: ApplicationStatus, hasAccept: bool, hasReject: bool): (b: bool)
    ensures b ==> statut == EnAttente && variant == ParentView
    ensures b ==> hasAccept && hasReject
    ensures variant == ParentView && statut == EnAttente && hasAccept && hasReject ==> b
  {
    variant == ParentView && statut == EnAttente && hasAccept && hasReject
  }

  /** A decided application never offers the buttons again, whatever the page passes. */
  lemma DecidedHasNoButtons(variant: Variant, statut: ApplicationStatus, hasAccept: bool, hasReject: bool)
    ensures statut != EnAttente ==> !ShowDecisions(variant, statut, hasAccept, hasReject)
    ensures ShowDecisions(variant, statut, hasAccept, hasReject) ==> !ShowDecisions(TutorView, statut, hasAccept, hasReject)
  {
  }

  /** The 'see the offer' button of a tutor's card, and the offer id it hands to the page. */
  function ViewOfferTarget(variant: Variant, hasHandler: bool, offerId: Option<Id>): (r: Option<Id>)
    ensures r.Some? <==> variant == TutorView && hasHandler && offerId.Some?
    ensures r.Some? ==> r == offerId
  {
    if variant == TutorView && hasHandler then offerId else None
  }

  /** A card never shows both the decision buttons and the offer button. */
  lemma ButtonsExclusive(variant: Variant, statut: ApplicationStatus, hasAccept: bool, hasReject: bool,
                         hasHandler: bool, offerId: Option<Id>)
    ensures !(ShowDecisions(variant, statut, hasAccept, hasReject) && ViewOfferTarget(variant, hasHandler, offerId).Some?)
  {
  }

  // ----- offer card ---------------------------------------------------------

  /** `formatBudget(min, max)`: one amount when both ends agree, a range otherwise. */
  function FormatBudget(min: int, max: int): (t: string)
    ensures StartsWith(t, IntText(min)) && EndsWith(t, " FCFA")
    ensures min != max ==> EndsWith(t, IntText(max) + " FCFA")
  {
    var t := if min == max then IntText(min) + " FCFA" else IntText(min) + " - " + IntText(max) + " FCFA";
    assert t[..|IntText(min)|] == IntText(min);
    assert t[|t| - |" FCFA"|..] == " FCFA";
    assert min != max ==> t[|t| - |IntText(max) + " FCFA"|..] == IntText(max) + " FCFA";
    t
  }

  /** The number of spaces in a text. */
  function Spaces(s: string): nat {
    |s| - |RemoveChar(s, ' ')|
  }

  /** A number's text holds no space. */
  lemma NoSpaceInNumber(n: int)
    ensures ' ' !in IntText(n)
  {
    var d := if n < 0 then NatToString(-n) else NatToString(n);
    assert forall i :: 0 <= i < |d| ==> IsDigit(d[i]);
    assert ' ' !in d;
  }

  lemma SpacesAppend(a: string, b: string)
    ensures Spaces(a + b) == Spaces(a) + Spaces(b)
  {
    RemoveCharAppend(a, b, ' ');
  }

  /** The budget shows a single amount (one space, before the currency) exactly when both
      ends are equal, and a range (three spaces) otherwise. */
  lemma BudgetSingleIffEqual(min: int, max: int)
    ensures Spaces(FormatBudget(min, max)) == (if min == max then 1 else 3)
  {
    NoSpaceInNumber(min);
    NoSpaceInNumber(max);
    assert RemoveChar(" FCFA", ' ') == "FCFA";
    assert RemoveChar(" - ", ' ') == "-";
    SpacesAppend(IntText(min), " FCFA");
    SpacesAppend(IntText(min), " - ");
    SpacesAppend(IntText(min) + " - ", IntText(max));
    SpacesAppend(IntText(min) + " - " + IntText(max), " FCFA");
  }

  /** The offer status badge's colour classes. */
  function OfferStatusColor(s: OfferStatus): (c: string)
    ensures |c| > 0
  {
    match s
    case Ouverte => "bg-green-100 text-green-800 dark:bg-green-900 dark:text-green-300"
    case EnCours => "bg-blue-100 text-blue-800 dark:bg-blue-900 dark:text-blue-300"
    case Fermee => "bg-gray-100 text-gray-800 dark:bg-gray-900 dark:text-gray-300"
  }

  /** The badge, when asked for: colour and label of the offer's status. */
  function OfferBadge(showStatus: bool, s: OfferStatus): (b: Option<(string, string)>)
    ensures b.Some? <==> showStatus
    ensures b.Some? ==> b.value.1 == OfferStatusLabel(s)
  {
    if showStatus then Some((OfferStatusColor(s), OfferStatusLabel(s))) else None
  }

  /** `{count} candidature{count > 1 ? 's' : ''}`: the count, the word, and the plural 's'
      exactly when there is more than one. */
  function CountText(n: int): (t: string)
    ensures StartsWith(t, IntText(n))
    ensures n > 1 ==> EndsWith(t, " candidatures")
    ensures n <= 1 ==> EndsWith(t, " candidature")
    ensures |t| > 0 && (t[|t| - 1] == 's' <==> n > 1)
  {
    var unit := if n > 1 then " candidatures" else " candidature";
    var t := IntText(n) + unit;
    assert t[..|IntText(n)|] == IntText(n);
    assert t[|t| - |unit|..] == unit;
    assert t[|t| - 1] == unit[|unit| - 1];
    t
  }

  /** The count line, shown when asked for and the count is known; a known count of 0 is
      shown as such. */
  function ApplicationsLine(show: bool, count: Option<int>): (out: seq<string>)
    ensures out != [] <==> show && count.Some?
    ensures out != [] ==> out == [CountText(count.value)]
  {
    if show && count.Some? then [CountText(count.value)] else []
  }

  /** The action button: shown with its label when the page gives a non-empty label and a
      handler; pressing it hands the offer's id to the handler. */
  function ActionButton(actionLabel: Option<string>, hasHandler: bool): (title: Option<string>)
    ensures title.Some? <==> actionLabel.Some? && actionLabel.value != "" && hasHandler
    ensures title.Some? ==> title == actionLabel
  {
    if actionLabel.Some? && actionLabel.value != "" && hasHandler then actionLabel else None
  }
}

=== FILE: cni.dfy ===
/** The identity-card upload: one file per side (front, back) in the user's
    folder, named after its side, replacing the side's previous file. */
module Cni {
  import opened Wrappers
  import opened Seqs
  import opened Text
  import opened Store
  import opened Uploads

  datatype Side = Recto | Verso

  function SideName(s: Side): (v: string)
    ensures |v| == 5
  {
    match s
    case Recto => "recto"
    case Verso => "verso"
  }

  /** A listed file is a front side when its name starts with 'recto', a back side otherwise. */
  function ClassifySide(name: string): (s: Side)
    ensures s == Recto <==> StartsWith(name, "recto")
  {
    if StartsWith(name, "recto") then Recto else Verso
  }

  /** `${side}_${Date.now()}.${ext}`, with `ext` the text after the last '.' of the chosen
      file's name. */
  function StoredName(side: Side, now: nat, fileName: string): (name: string)
    ensures StartsWith(name, SideName(side) + "_")
    ensures EndsWith(name, "." + Extension(fileName))
    ensures name != Placeholder
  {
    var name := SideName(side) + "_" + NatToString(now) + "." + Extension(fileName);
    assert name[..6] == SideName(side) + "_";
    assert name[|name| - |"." + Extension(fileName)|..] == "." + Extension(fileName);
    assert name[0] != '.';
    name
  }

  /** Classifying a stored name gives back the side it was stored for. */
  lemma ClassifyStoredName(side: Side, now: nat, fileName: string)
    ensures ClassifySide(StoredName(side, now, fileName)) == side
  {
    var name := StoredName(side, now, fileName);
    assert name[..5] == SideName(side);
  }

  datatype CniFile = CniFile(side: Side, name: string)

  function ToCniFile(name: string): CniFile {
    CniFile(ClassifySide(name), name)
  }

  /** `fetchCniFiles`: the listed names, each with its side. */
  function CniFiles(names: seq<string>): (r: seq<CniFile>)
    ensures |r| == |Listed(names)|
    ensures forall i :: 0 <= i < |r| ==>
              r[i].name in names && r[i].name != Placeholder && r[i].side == ClassifySide(r[i].name)
    ensures forall n :: n in names && n != Placeholder ==> exists i :: 0 <= i < |r| && r[i].name == n
  {
    var listed := Listed(names);
    var r := Map(listed, ToCniFile);
    forall n | n in names && n != Placeholder ensures exists i :: 0 <= i < |r| && r[i].name == n {
      var i :| 0 <= i < |listed| && listed[i] == n;
      assert r[i].name == n;
    }
    r
  }

  /** `cniFiles.find(f => f.side === side)`: the first file of that side. */
  function FindSide(files: seq<CniFile>, side: Side): (r: Option<CniFile>)
    ensures r.None? <==> forall i :: 0 <= i < |files| ==> files[i].side != side
    ensures r.Some? ==> r.value in files && r.value.side == side
    decreases |files|
  {
    if |files| == 0 then None
    else if files[0].side == side then Some(files[0])
    else
      assert forall i :: 1 <= i < |files| ==> files[i] == files[1..][i - 1];
      FindSide(files[1..], side)
  }

  /** Both sides are present. */
  function IsComplete(files: seq<CniFile>): (b: bool)
    ensures b <==> (exists i :: 0 <= i < |files| && files[i].side == Recto)
                   && (exists j :: 0 <= j < |files| && files[j].side == Verso)
  {
    FindSide(files, Recto).Some? && FindSide(files, Verso).Some?
  }

  // ----- uploading ---------------------------------------------------------

  /** The component's list reflects the folder: every stored file is listed, with its side,
      and every listed file is stored. */
  predicate Mirrors(files: seq<CniFile>, folder: set<string>) {
    (forall i :: 0 <= i < |files| ==>
       files[i].name in folder && files[i].name != Placeholder && files[i].side == ClassifySide(files[i].name))
    && (forall n :: n in folder && n != Placeholder ==> exists i :: 0 <= i < |files| && files[i].name == n)
  }

  /** At most one stored file per side. */
  predicate OnePerSide(folder: set<string>) {
    forall a, b :: (a in folder && b in folder && a != Placeholder && b != Placeholder
                    && ClassifySide(a) == ClassifySide(b)) ==> a == b
  }

  /** `handleUpload(side, file)`: refuse a file of another format or above 5 MiB; otherwise
      remove the side's listed file (the removal's answer is not looked at), then store the
      new file under its side's name. */
  function UploadCni(folder: set<string>, files: seq<CniFile>, side: Side, file: FileInfo, now: nat,
                     removeReply: Reply, uploadReply: Reply): (r: Stored)
    ensures CheckDocument(file, MaxCniBytes).Some? ==>
              r == Stored(folder, Some(Refused(CheckDocument(file, MaxCniBytes).value)))
    ensures uploadReply.Rejected? && CheckDocument(file, MaxCniBytes).None? ==>
              r.error == Some(StorageFailure(uploadReply.code))
    ensures r.error.None? ==> StoredName(side, now, file.name) in r.folder
    ensures r.error.None? ==> forall n :: n in r.folder && n != StoredName(side, now, file.name) ==> n in folder
    ensures r.folder <= folder + {StoredName(side, now, file.name)}
  {
    match CheckDocument(file, MaxCniBytes)
    case Some(reason) => Stored(folder, Some(Refused(reason)))
    case None =>
      var existing := FindSide(files, side);
      var kept := if existing.Some? && removeReply == Done then folder - {existing.value.name} else folder;
      if uploadReply.Rejected? then Stored(kept, Some(StorageFailure(uploadReply.code)))
      else Stored(kept + {StoredName(side, now, file.name)}, None)
  }

  /** With the list in step with the folder and the removal done, a successful upload leaves
      the new file as the only one of its side, and keeps at most one file per side. */
  lemma UploadReplacesSide(folder: set<string>, files: seq<CniFile>, side: Side, file: FileInfo, now: nat)
    requires Mirrors(files, folder) && OnePerSide(folder)
    requires CheckDocument(file, MaxCniBytes).None?
    ensures var r := UploadCni(folder, files, side, file, now, Done, Done);
            r.error.None?
            && (forall n :: n in r.folder && n != Placeholder && ClassifySide(n) == side ==>
                  n == StoredName(side, now, file.name))
            && OnePerSide(r.folder)
  {
    var newName := StoredName(side, now, file.name);
    ClassifyStoredName(side, now, file.name);
    var r := UploadCni(folder, files, side, file, now, Done, Done);
    var existing := FindSide(files, side);
    var kept := if existing.Some? then folder - {existing.value.name} else folder;
    assert r.folder == kept + {newName};
    assert existing.Some? ==>
             existing.value.name in folder && existing.value.name != Placeholder
             && ClassifySide(existing.value.name) == side;
    forall n | n in kept && n != Placeholder ensures ClassifySide(n) != side {
      var i :| 0 <= i < |files| && files[i].name == n;
      assert files[i].side == ClassifySide(n);
    }
  }

  /** `handleDelete(file)`: removes the file from the folder when storage accepts. */
  function DeleteCni(folder: set<string>, file: CniFile, reply: Reply): (r: Stored)
    ensures reply == Done ==> r == Stored(folder - {file.name}, None) && file.name !in r.folder
    ensures reply.Rejected? ==> r == Stored(folder, Some(StorageFailure(reply.code)))
  {
    if reply.Rejected? then Stored(folder, Some(StorageFailure(reply.code)))
    else Stored(folder - {file.name}, None)
  }
}

=== FILE: constants.dfy ===
/** The fixed vocabularies of the application: the database enumerations
    (offer, application and contract status, user role) and the value lists
    the forms offer (subjects, school levels, frequencies, availability slots). */
module Constants {
  import opened Wrappers
  import opened Seqs

  // ----- offer status -----------------------------------------------------

  datatype OfferStatus = Ouverte | EnCours | Fermee

  /** Parses a stored `statut` value; anything but the three keys is rejected. */
  function ParseOfferStatus(v: string): (r: Option<OfferStatus>)
    ensures r.Some? <==> v == "ouverte" || v == "en_cours" || v == "fermee"
    ensures r == Some(Ouverte) <==> v == "ouverte"
    ensures r == Some(EnCours) <==> v == "en_cours"
    ensures r == Some(Fermee) <==> v == "fermee"
  {
    if v == "ouverte" then Some(Ouverte)
    else if v == "en_cours" then Some(EnCours)
    else if v == "fermee" then Some(Fermee)
    else None
  }

  /** The value stored in the `statut` column; parsing it gives the status back. */
  function OfferStatusName(s: OfferStatus): (v: string)
    ensures ParseOfferStatus(v) == Some(s)
  {
    match s
    case Ouverte => "ouverte"
    case EnCours => "en_cours"
    case Fermee => "fermee"
  }

  /** `OFFER_STATUS_LABELS`: every status has a label, and distinct statuses have distinct labels. */
  function OfferStatusLabel(s: OfferStatus): (l: string)
    ensures l == "Ouverte" <==> s == Ouverte
    ensures l == "En cours" <==> s == EnCours
    ensures l == "Fermée" <==> s == Fermee
  {
    match s
    case Ouverte => "Ouverte"
    case EnCours => "En cours"
    case Fermee => "Fermée"
  }

  // ----- application status -----------------------------------------------

  datatype ApplicationStatus = EnAttente | Acceptee | Refusee

  function ParseApplicationStatus(v: string): (r: Option<ApplicationStatus>)
    ensures r.Some? <==> v == "en_attente" || v == "acceptee" || v == "refusee"
    ensures r == Some(EnAttente) <==> v == "en_attente"
    ensures r == Some(Acceptee) <==> v == "acceptee"
    ensures r == Some(Refusee) <==> v == "refusee"
  {
    if v == "en_attente" then Some(EnAttente)
    else if v == "acceptee" then Some(Acceptee)
    else if v == "refusee" then Some(Refusee)
    else None
  }

  function ApplicationStatusName(s: ApplicationStatus): (v: string)
    ensures ParseApplicationStatus(v) == Some(s)
  {
    match s
    case EnAttente => "en_attente"
    case Acceptee => "acceptee"
    case Refusee => "refusee"
  }

  /** `APPLICATION_STATUS_LABELS`, one distinct label per status. */
  function ApplicationStatusLabel(s: ApplicationStatus): (l: string)
    ensures l == "En attente" <==> s == EnAttente
    ensures l == "Acceptée" <==> s == Acceptee
    ensures l == "Refusée" <==> s == Refusee
  {
    match s
    case EnAttente => "En attente"
    case Acceptee => "Acceptée"
    case Refusee => "Refusée"
  }

  // ----- contract status --------------------------------------------------

  datatype ContractStatus = Actif | Termine | Annule

  function ParseContractStatus(v: string): (r: Option<ContractStatus>)
    ensures r.Some? <==> v == "actif" || v == "termine" || v == "annule"
    ensures r == Some(Actif) <==> v == "actif"
    ensures r == Some(Termine) <==> v == "termine"
    ensures r == Some(Annule) <==> v == "annule"
  {
    if v == "actif" then Some(Actif)
    else if v == "termine" then Some(Termine)
    else if v == "annule" then Some(Annule)
    else None
  }

  function ContractStatusName(s: ContractStatus): (v: string)
    ensures ParseContractStatus(v) == Some(s)
  {
    match s
    case Actif => "actif"
    case Termine => "termine"
    case Annule => "annule"
  }

  /** `CONTRACT_STATUS_LABELS` of the parent contract page. */
  function ContractStatusLabel(s: ContractStatus): (l: string)
    ensures l == "Actif" <==> s == Actif
    ensures l == "Terminé" <==> s == Termine
    ensures l == "Annulé" <==> s == Annule
  {
    match s
    case Actif => "Actif"
    case Termine => "Terminé"
    case Annule => "Annulé"
  }

  // ----- roles ------------------------------------------------------------

  /** `app_role`: the four roles a `user_roles` row can name. */
  datatype Role = SuperAdmin | Admin | Prestataire | Client

  /** The role a stored `user_roles.role` value names, if it is one of the four. */
  function ParseRole(v: string): (r: Option<Role>)
    ensures r.Some? <==> v == "super_admin" || v == "admin" || v == "prestataire" || v == "client"
    ensures r == Some(SuperAdmin) <==> v == "super_admin"
    ensures r == Some(Admin) <==> v == "admin"
    ensures r == Some(Prestataire) <==> v == "prestataire"
    ensures r == Some(Client) <==> v == "client"
  {
    if v == "super_admin" then Some(SuperAdmin)
    else if v == "admin" then Some(Admin)
    else if v == "prestataire" then Some(Prestataire)
    else if v == "client" then Some(Client)
    else None
  }

  function RoleName(r: Role): (v: string)
    ensures ParseRole(v) == Some(r)
  {
    match r
    case SuperAdmin => "super_admin"
    case Admin => "admin"
    case Prestataire => "prestataire"
    case Client => "client"
  }

  // ----- value lists ------------------------------------------------------

  /** `MATIERES`. */
  const Matieres: seq<string> := [
    "Mathématiques", "Français", "Anglais", "Physique-Chimie", "SVT",
    "Histoire-Géographie", "Philosophie", "Économie", "Espagnol", "Allemand",
    "Informatique", "Dessin", "Musique", "Éducation physique"
  ]

  /** `NIVEAUX`. */
  const Niveaux: seq<string> := [
    "CP", "CE1", "CE2", "CM1", "CM2", "6ème", "5ème", "4ème", "3ème",
    "2nde", "1ère", "Terminale", "Université", "Formation professionnelle"
  ]

  /** `FREQUENCES`. */
  const Frequences: seq<string> := [
    "1 fois par semaine", "2 fois par semaine", "3 fois par semaine",
    "Tous les jours", "Week-end uniquement", "À la demande"
  ]

  /** `DISPONIBILITES`, as written out in the constants file. */
  const Disponibilites: seq<string> := [
    "Lundi matin", "Lundi après-midi", "Lundi soir",
    "Mardi matin", "Mardi après-midi", "Mardi soir",
    "Mercredi matin", "Mercredi après-midi", "Mercredi soir",
    "Jeudi matin", "Jeudi après-midi", "Jeudi soir",
    "Vendredi matin", "Vendredi après-midi", "Vendredi soir",
    "Samedi matin", "Samedi après-midi",
    "Dimanche matin", "Dimanche après-midi"
  ]

  lemma ValueListsDistinct()
    ensures |Matieres| == 14 && Distinct(Matieres)
    ensures |Niveaux| == 14 && Distinct(Niveaux)
    ensures |Frequences| == 6 && Distinct(Frequences)
  {
  }

  // ----- availability slots, structurally --------------------------------

  datatype Day = Lundi | Mardi | Mercredi | Jeudi | Vendredi | Samedi | Dimanche
  datatype Period = Matin | ApresMidi | Soir

  function DayName(d: Day): string {
    match d
    case Lundi => "Lundi"
    case Mardi => "Mardi"
    case Mercredi => "Mercredi"
    case Jeudi => "Jeudi"
    case Vendredi => "Vendredi"
    case Samedi => "Samedi"
    case Dimanche => "Dimanche"
  }

  function PeriodName(p: Period): string {
    match p
    case Matin => "matin"
    case ApresMidi => "après-midi"
    case Soir => "soir"
  }

  function SlotLabel(d: Day, p: Period): string {
    DayName(d) + " " + PeriodName(p)
  }

  predicate IsWeekend(d: Day) {
    d == Samedi || d == Dimanche
  }

  /** The slots a tutor may offer: every period on weekdays, no evening at the weekend. */
  predicate OfferedSlot(d: Day, p: Period) {
    !(IsWeekend(d) && p == Soir)
  }

  /** The slots of one day, in the order morning, afternoon, evening. */
  function DaySlots(d: Day): (r: seq<string>)
    ensures |r| == (if IsWeekend(d) then 2 else 3)
    ensures forall p: Period :: OfferedSlot(d, p) <==> SlotLabel(d, p) in r
  {
    var r := [SlotLabel(d, Matin), SlotLabel(d, ApresMidi)];
    if IsWeekend(d) then
      assert SlotLabel(d, Soir)[|DayName(d)| + 1..] == "soir";
      assert SlotLabel(d, Matin)[|DayName(d)| + 1..] == "matin";
      assert SlotLabel(d, ApresMidi)[|DayName(d)| + 1..] == "après-midi";
      r
    else r + [SlotLabel(d, Soir)]
  }

  /** All offered slots, day by day, in week order. */
  function WeekSlots(): seq<string> {
    DaySlots(Lundi) + DaySlots(Mardi) + DaySlots(Mercredi) + DaySlots(Jeudi)
      + DaySlots(Vendredi) + DaySlots(Samedi) + DaySlots(Dimanche)
  }

  /** `DISPONIBILITES` lists 19 distinct slots. */
  lemma DisponibilitesDistinct()
    ensures |Disponibilites| == 19 && Distinct(Disponibilites)
  {
  }

  /** `DISPONIBILITES` is exactly the week's slots, day by day, weekends without the evening. */
  lemma DisponibilitesAreWeekSlots()
    ensures Disponibilites == WeekSlots()
  {
    var d := Disponibilites;
    LundiSection();
    MardiSection();
    PrefixSplit(d, 3, 6);
    MercrediSection();
    PrefixSplit(d, 6, 9);
    JeudiSection();
    PrefixSplit(d, 9, 12);
    VendrediSection();
    PrefixSplit(d, 12, 15);
    SamediSection();
    PrefixSplit(d, 15, 17);
    DimancheSection();
    PrefixSplit(d, 17, 19);
    assert d[0..3] == d[..3] && d[..19] == d;
  }

  /** A prefix is a shorter prefix followed by the section between them. */
  lemma PrefixSplit(s: seq<string>, k: nat, m: nat)
    requires k <= m <= |s|
    ensures s[..m] == s[..k] + s[k..m]
  {
  }

  lemma LundiSection()
    ensures Disponibilites[0..3] == DaySlots(Lundi)
  {
    LundiSlots();
  }

  lemma MardiSection()
    ensures Disponibilites[3..6] == DaySlots(Mardi)
  {
    MardiSlots();
  }

  lemma MercrediSection()
    ensures Disponibilites[6..9] == DaySlots(Mercredi)
  {
    MercrediSlots();
  }

  lemma JeudiSection()
    ensures Disponibilites[9..12] == DaySlots(Jeudi)
  {
    JeudiSlots();
  }

  lemma VendrediSection()
    ensures Disponibilites[12..15] == DaySlots(Vendredi)
  {
    VendrediSlots();
  }

  lemma SamediSection()
    ensures Disponibilites[15..17] == DaySlots(Samedi)
  {
    SamediSlots();
  }

  lemma DimancheSection()
    ensures Disponibilites[17..19] == DaySlots(Dimanche)
  {
    DimancheSlots();
  }

  lemma LundiSlots()
    ensures DaySlots(Lundi) == ["Lundi matin", "Lundi après-midi", "Lundi soir"]
  {
    assert SlotLabel(Lundi, Matin) == "Lundi matin";
    assert SlotLabel(Lundi, ApresMidi) == "Lundi après-midi";
    assert SlotLabel(Lundi, Soir) == "Lundi soir";
  }

  lemma MardiSlots()
    ensures DaySlots(Mardi) == ["Mardi matin", "Mardi après-midi", "Mardi soir"]
  {
    assert SlotLabel(Mardi, Matin) == "Mardi matin";
    assert SlotLabel(Mardi, ApresMidi) == "Mardi après-midi";
    assert SlotLabel(Mardi, Soir) == "Mardi soir";
  }

  lemma MercrediSlots()
    ensures DaySlots(Mercredi) == ["Mercredi matin", "Mercredi après-midi", "Mercredi soir"]
  {
    assert SlotLabel(Mercredi, Matin) == "Mercredi matin";
    assert SlotLabel(Mercredi, ApresMidi) == "Mercredi après-midi";
    assert SlotLabel(Mercredi, Soir) == "Mercredi soir";
  }

  lemma JeudiSlots()
    ensures DaySlots(Jeudi) == ["Jeudi matin", "Jeudi après-midi", "Jeudi soir"]
  {
    assert SlotLabel(Jeudi, Matin) == "Jeudi matin";
    assert SlotLabel(Jeudi, ApresMidi) == "Jeudi après-midi";
    assert SlotLabel(Jeudi, Soir) == "Jeudi soir";
  }

  lemma VendrediSlots()
    ensures DaySlots(Vendredi) == ["Vendredi matin", "Vendredi après-midi", "Vendredi soir"]
  {
    assert SlotLabel(Vendredi, Matin) == "Vendredi matin";
    assert SlotLabel(Vendredi, ApresMidi) == "Vendredi après-midi";
    assert SlotLabel(Vendredi, Soir) == "Vendredi soir";
  }

  lemma SamediSlots()
    ensures DaySlots(Samedi) == ["Samedi matin", "Samedi après-midi"]
  {
    assert SlotLabel(Samedi, Matin) == "Samedi matin";
    assert SlotLabel(Samedi, ApresMidi) == "Samedi après-midi";
  }

  lemma DimancheSlots()
    ensures DaySlots(Dimanche) == ["Dimanche matin", "Dimanche après-midi"]
  {
    assert SlotLabel(Dimanche, Matin) == "Dimanche matin";
    assert SlotLabel(Dimanche, ApresMidi) == "Dimanche après-midi";
  }

  /** A slot label is never among another day's slots. */
  lemma NotInOtherDay(d: Day, p: Period, e: Day)
    requires d != e
    ensures SlotLabel(d, p) !in DaySlots(e)
  {
    SlotLabelsDiffer(d, p, e, Matin);
    SlotLabelsDiffer(d, p, e, ApresMidi);
    SlotLabelsDiffer(d, p, e, Soir);
  }

  /** A slot label is listed iff the slot is offered. */
  lemma SlotListedIffOffered(d: Day, p: Period)
    ensures SlotLabel(d, p) in Disponibilites <==> OfferedSlot(d, p)
  {
    DisponibilitesAreWeekSlots();
    var x := SlotLabel(d, p);
    forall e: Day | e != d
      ensures x !in DaySlots(e)
    {
      NotInOtherDay(d, p, e);
    }
    assert x in WeekSlots() <==> x in DaySlots(d);
  }

  /** Slot labels of different days differ. */
  lemma SlotLabelsDiffer(d: Day, p: Period, e: Day, q: Period)
    requires d != e
    ensures SlotLabel(d, p) != SlotLabel(e, q)
  {
    var a := SlotLabel(d, p);
    var b := SlotLabel(e, q);
    assert a[0] != b[0] || a[1] != b[1];
  }
}

=== FILE: dates.dfy ===
/** Calendar dates as `Date.prototype.toISOString` writes them: the end date of
    a contract is the date part (before the 'T') of the current instant in
    ISO 8601 form, `YYYY-MM-DD`. The clock itself is an input. */
module Dates {
  import opened Wrappers
  import opened Text

  /** A UTC instant, broken into its fields. */
  datatype Instant = Instant(year: nat, month: nat, day: nat, hour: nat, minute: nat, second: nat, millis: nat)

  datatype Date = Date(year: nat, month: nat, day: nat)

  /** Field ranges of a date whose year `toISOString` writes with four digits. */
  predicate ValidDate(d: Date) {
    d.year <= 9999 && 1 <= d.month <= 12 && 1 <= d.day <= 31
  }

  /** The year as `toISOString` writes it: four digits up to 9999, otherwise the
      extended form, '+' and six digits. */
  function YearText(y: nat): (s: string)
    ensures y <= 9999 ==> |s| == 4 && AllDigits(s) && DigitsValue(s) == y
    ensures y > 9999 ==> |s| == 7 && s[0] == '+' && AllDigits(s[1..])
    ensures 9999 < y < 1000000 ==> DigitsValue(s[1..]) == y
  {
    if y <= 9999 then
      FixedDigitsValue(y, 4);
      FixedDigits(y, 4)
    else
      var digits := FixedDigits(y, 6);
      assert ("+" + digits)[1..] == digits;
      SixDigitsValue(y);
      "+" + digits
  }

  /** A number below a million reads back from its six digits. */
  lemma SixDigitsValue(y: nat)
    ensures y < 1000000 ==> DigitsValue(FixedDigits(y, 6)) == y
  {
    if y < 1000000 {
      assert Pow10(6) == 1000000 by {
        assert Pow10(3) == 1000;
      }
      FixedDigitsValue(y, 6);
    }
  }

  /** `YYYY-MM-DD`, or `+YYYYYY-MM-DD` past the year 9999. */
  function IsoDate(d: Date): (s: string)
    ensures |s| == |YearText(d.year)| + 6 && s[|s| - 6] == '-' && s[|s| - 3] == '-'
    ensures d.year <= 9999 ==> |s| == 10 && s[4] == '-' && s[7] == '-'
    ensures d.year > 9999 ==> |s| == 13 && s[0] == '+'
    ensures 'T' !in s
  {
    var y := YearText(d.year);
    var s := y + "-" + FixedDigits(d.month, 2) + "-" + FixedDigits(d.day, 2);
    assert forall i :: 0 <= i < |y| ==> IsDigit(y[i]) || y[i] == '+';
    assert forall i :: 0 <= i < |s| ==> IsDigit(s[i]) || s[i] == '-' || s[i] == '+';
    s
  }

  /** `toISOString()`: `YYYY-MM-DDTHH:mm:ss.sssZ`, with the extended year past 9999. */
  function ToIsoString(t: Instant): (s: string)
    ensures t.year <= 9999 ==> |s| == 24 && s[10] == 'T' && s[23] == 'Z'
    ensures t.year > 9999 ==> |s| == 27 && s[0] == '+' && s[13] == 'T' && s[26] == 'Z'
  {
    IsoDate(Date(t.year, t.month, t.day)) + "T"
      + FixedDigits(t.hour, 2) + ":" + FixedDigits(t.minute, 2) + ":"
      + FixedDigits(t.second, 2) + "." + FixedDigits(t.millis, 3) + "Z"
  }

  /** `new Date().toISOString().split('T')[0]`: the calendar date of the instant. */
  function Today(t: Instant): (d: string)
    ensures d == IsoDate(Date(t.year, t.month, t.day))
  {
    var date := IsoDate(Date(t.year, t.month, t.day));
    var rest := FixedDigits(t.hour, 2) + ":" + FixedDigits(t.minute, 2) + ":"
      + FixedDigits(t.second, 2) + "." + FixedDigits(t.millis, 3) + "Z";
    assert ToIsoString(t) == date + ['T'] + rest;
    SplitFirst(date, 'T', rest);
    Split(ToIsoString(t), 'T')[0]
  }

  /** The first part of a split is the text before the first separator. */
  lemma {:induction false} SplitFirst(a: string, sep: char, b: string)
    requires sep !in a
    ensures Split(a + [sep] + b, sep)[0] == a
    decreases |a|
  {
    if |a| == 0 {
      assert a + [sep] + b == [sep] + b;
    } else {
      assert (a + [sep] + b)[1..] == a[1..] + [sep] + b;
      SplitFirst(a[1..], sep, b);
    }
  }

  /** Reads `YYYY-MM-DD` back; `None` for any other shape. */
  function ParseIsoDate(s: string): (r: Option<Date>)
    ensures r.Some? ==> |s| == 10
  {
    if |s| == 10 && s[4] == '-' && s[7] == '-'
       && AllDigits(s[..4]) && AllDigits(s[5..7]) && AllDigits(s[8..])
    then Some(Date(DigitsValue(s[..4]), DigitsValue(s[5..7]), DigitsValue(s[8..])))
    else None
  }

  /** A digit string of width `w` reads as a number below `10^w`. */
  lemma {:induction false} DigitsValueBelow(s: string)
    requires AllDigits(s)
    ensures DigitsValue(s) < Pow10(|s|)
    decreases |s|
  {
    if |s| > 0 {
      var init := s[..|s| - 1];
      DigitsValueBelow(init);
      AppendDigit(DigitsValue(init), DigitValue(s[|s| - 1]), Pow10(|s| - 1));
    }
  }

  /** A digit string of width `|s|` is rewritten exactly by `FixedDigits`. */
  lemma {:induction false} FixedDigitsOfValue(s: string)
    requires AllDigits(s)
    ensures FixedDigits(DigitsValue(s), |s|) == s
    decreases |s|
  {
    if |s| > 0 {
      var init := s[..|s| - 1];
      FixedDigitsOfValue(init);
      DigitsValueBelow(init);
      var a, d := DigitsValue(init), DigitValue(s[|s| - 1]);
      AppendDigit(a, d, Pow10(|s| - 1));
      assert FixedDigits(a * 10 + d, |s|) == init + [DigitChar(d)];
      assert s == init + [s[|s| - 1]];
    }
  }

  /** Writing then reading a valid date gives it back. */
  lemma ParseIsoDateOfIsoDate(d: Date)
    requires ValidDate(d)
    ensures ParseIsoDate(IsoDate(d)) == Some(d)
  {
    var s := IsoDate(d);
    assert s[..4] == FixedDigits(d.year, 4);
    assert s[5..7] == FixedDigits(d.month, 2);
    assert s[8..] == FixedDigits(d.day, 2);
    FixedDigitsValue(d.year, 4);
    FixedDigitsValue(d.month, 2);
    FixedDigitsValue(d.day, 2);
  }

  /** Reading then writing a date string gives it back. */
  lemma IsoDateOfParseIsoDate(s: string)
    requires ParseIsoDate(s).Some?
    ensures IsoDate(ParseIsoDate(s).value) == s
  {
    DigitsValueBelow(s[..4]);
    FixedDigitsOfValue(s[..4]);
    FixedDigitsOfValue(s[5..7]);
    FixedDigitsOfValue(s[8..]);
    assert s == s[..4] + "-" + s[5..7] + "-" + s[8..];
  }
}

=== FILE: diplomas.dfy ===
/** The diploma upload: files stored under a timestamp prefix and a sanitised
    copy of the original name, shown without the prefix. */
module Diplomas {
  import opened Wrappers
  import opened Text
  import opened Store
  import opened Uploads

  /** The characters `[a-zA-Z0-9._-]` a stored name may keep. */
  predicate AllowedChar(c: char) {
    ('a' <= c <= 'z') || ('A' <= c <= 'Z') || ('0' <= c <= '9') || c == '.' || c == '_' || c == '-'
  }

  predicate AllAllowed(s: string) {
    forall i :: 0 <= i < |s| ==> AllowedChar(s[i])
  }

  function SanitizeChar(c: char): char {
    if AllowedChar(c) then c else '_'
  }

  /** `name.replace(/[^a-zA-Z0-9._-]/g, '_')`: each other character becomes '_'. */
  function Sanitize(s: string): (r: string)
    ensures |r| == |s|
    ensures AllAllowed(r)
    ensures forall i :: 0 <= i < |s| ==> (r[i] == s[i] <==> AllowedChar(s[i]) || s[i] == '_')
  {
    seq(|s|, i requires 0 <= i < |s| => SanitizeChar(s[i]))
  }

  /** A name made only of allowed characters is left as it is; so sanitising twice is
      sanitising once. */
  lemma SanitizeIdempotent(s: string)
    ensures AllAllowed(s) ==> Sanitize(s) == s
    ensures Sanitize(Sanitize(s)) == Sanitize(s)
  {
  }

  /** `${Date.now()}_${sanitised name}`. */
  function DiplomaName(now: nat, original: string): (name: string)
    ensures StartsWith(name, NatToString(now) + "_")
    ensures EndsWith(name, Sanitize(original))
    ensures AllAllowed(name)
  {
    var name := NatToString(now) + "_" + Sanitize(original);
    assert name[..|NatToString(now)| + 1] == NatToString(now) + "_";
    assert name[|name| - |Sanitize(original)|..] == Sanitize(original);
    forall i | 0 <= i < |name| ensures AllowedChar(name[i]) {
      if i < |NatToString(now)| {
        assert IsDigit(NatToString(now)[i]);
      } else if i > |NatToString(now)| {
        assert name[i] == Sanitize(original)[i - |NatToString(now)| - 1];
      }
    }
    name
  }

  /** `name.replace(/^\d+_/, '')`: drops one leading run of digits followed by '_'. */
  function StripTimestamp(name: string): (r: string)
    ensures EndsWith(name, r)
    ensures r != name ==> |r| < |name| && name[|name| - |r| - 1] == '_'
                          && AllDigits(name[..|name| - |r| - 1]) && |name| - |r| - 1 > 0
  {
    var k := LeadingDigits(name);
    if 0 < k < |name| && name[k] == '_' then
      assert name[|name| - |name[k + 1..]|..] == name[k + 1..];
      name[k + 1..]
    else
      assert name[|name| - |name|..] == name;
      name
  }

  /** The displayed name of a stored diploma is the sanitised original name. */
  lemma DisplayNameRoundTrip(now: nat, original: string)
    ensures StripTimestamp(DiplomaName(now, original)) == Sanitize(original)
  {
    var d := NatToString(now);
    LeadingDigitsOfDigits(d, "_" + Sanitize(original));
    assert DiplomaName(now, original) == d + ("_" + Sanitize(original));
    assert DiplomaName(now, original)[|d| + 1..] == Sanitize(original);
  }

  /** `handleUpload(file)`: refuse a file of another format or above 10 MiB; otherwise store
      it under its timestamped name. */
  function UploadDiploma(folder: set<string>, file: FileInfo, now: nat, reply: Reply): (r: Stored)
    ensures CheckDocument(file, MaxDiplomaBytes).Some? ==>
              r == Stored(folder, Some(Refused(CheckDocument(file, MaxDiplomaBytes).value)))
    ensures CheckDocument(file, MaxDiplomaBytes).None? && reply.Rejected? ==>
              r == Stored(folder, Some(StorageFailure(reply.code)))
    ensures r.error.None? <==> CheckDocument(file, MaxDiplomaBytes).None? && reply == Done
    ensures r.error.None? ==> r.folder == folder + {DiplomaName(now, file.name)}
  {
    match CheckDocument(file, MaxDiplomaBytes)
    case Some(reason) => Stored(folder, Some(Refused(reason)))
    case None =>
      if reply.Rejected? then Stored(folder, Some(StorageFailure(reply.code)))
      else Stored(folder + {DiplomaName(now, file.name)}, None)
  }

  /** After an upload the new diploma is listed, shown under its sanitised name. */
  lemma UploadedDiplomaShown(folder: set<string>, file: FileInfo, now: nat)
    requires CheckDocument(file, MaxDiplomaBytes).None?
    ensures var name := DiplomaName(now, file.name);
            name in UploadDiploma(folder, file, now, Done).folder && name != Placeholder
            && StripTimestamp(name) == Sanitize(file.name)
  {
    DisplayNameRoundTrip(now, file.name);
    assert DiplomaName(now, file.name)[0] != '.';
  }

  /** `handleDelete(name)`. */
  function DeleteDiploma(folder: set<string>, name: string, reply: Reply): (r: Stored)
    ensures reply == Done ==> r == Stored(folder - {name}, None) && name !in r.folder
    ensures reply.Rejected? ==> r == Stored(folder, Some(StorageFailure(reply.code)))
  {
    if reply.Rejected? then Stored(folder, Some(StorageFailure(reply.code)))
    else Stored(folder - {name}, None)
  }
}

=== FILE: initials.dfy ===
/** The avatar fallback of the application card and the avatar upload:
    `name.split(' ').map(n => n[0]).join('').toUpperCase().slice(0, 2)`. */
module Initials {
  import opened Seqs
  import opened Text

  function NonEmptyWord(w: string): bool {
    |w| > 0
  }

  /** The first character of each word; an empty word (two spaces in a row, or a leading
      or trailing space) has none, and `join` turns its `undefined` into ''. */
  function FirstLetters(words: seq<string>): (r: string)
    ensures |r| == |Filter(words, NonEmptyWord)|
    ensures forall i :: 0 <= i < |r| ==> r[i] == Filter(words, NonEmptyWord)[i][0]
    decreases |words|
  {
    if |words| == 0 then ""
    else if |words[0]| > 0 then [words[0][0]] + FirstLetters(words[1..])
    else FirstLetters(words[1..])
  }

  /** `getInitials(name)`. */
  function GetInitials(name: string): (r: string)
    ensures |r| <= 2
  {
    Take(Upper(FirstLetters(Split(name, ' '))), 2)
  }

  /** The initials are the upper-cased first letters of the first two non-empty words:
      as many as there are such words, up to two. */
  lemma InitialsOfWords(name: string)
    ensures var words := Filter(Split(name, ' '), NonEmptyWord);
            var r := GetInitials(name);
            (|r| == 2 <==> |words| >= 2) && (|r| == |words| || |r| == 2)
            && forall i :: 0 <= i < |r| ==> r[i] == UpperChar(words[i][0])
  {
    var letters := FirstLetters(Split(name, ' '));
    var up := Upper(letters);
    assert forall i :: 0 <= i < |up| ==> up[i] == UpperChar(letters[i]);
  }

  /** A name without spaces gives its upper-cased first character alone. */
  lemma SingleWordInitial(name: string)
    requires |name| > 0 && ' ' !in name
    ensures GetInitials(name) == [UpperChar(name[0])]
  {
    if |Split(name, ' ')| > 1 {
      SplitManyHasSep(name, ' ');
    }
    SplitOneIsWhole(name, ' ');
    assert Split(name, ' ') == [name];
    assert Filter([name], NonEmptyWord) == [name];
    InitialsOfWords(name);
  }
}

=== FILE: jsx.dfy ===
/** What a JSX child expression renders when its condition is a nullable number.
    React renders nothing for `null`, `undefined` and `false`, but renders the
    number itself for `0`; so `{n && node}` shows the text "0" when `n` is 0.
    A rendering is the sequence of text pieces it contributes. */
module Jsx {
  import opened Wrappers
  import opened Text

  /** `String(n)` for an integer. */
  function IntText(n: int): (s: string)
    ensures n >= 0 ==> s == NatToString(n)
    ensures n < 0 ==> s == "-" + NatToString(-n)
  {
    if n < 0 then "-" + NatToString(-n) else NatToString(n)
  }

  /** `{n && node}` for `n: number | null`: the node for a non-zero number, the text of
      the number for 0, nothing for null. */
  function NumAnd(n: Option<int>, node: seq<string>): (out: seq<string>)
    ensures n.None? ==> out == []
    ensures n == Some(0) ==> out == ["0"]
    ensures n.Some? && n.value != 0 ==> out == node
  {
    match n
    case None => []
    case Some(v) => if v == 0 then [IntText(0)] else node
  }

  /** `{n && n > 0 && node}`: as `NumAnd`, except that a negative number gives `false`,
      which renders nothing. */
  function NumAndPositive(n: Option<int>, node: seq<string>): (out: seq<string>)
    ensures n.None? ==> out == []
    ensures n == Some(0) ==> out == ["0"]
    ensures n.Some? && n.value < 0 ==> out == []
    ensures n.Some? && n.value > 0 ==> out == node
  {
    match n
    case None => []
    case Some(v) => if v == 0 then [IntText(0)] else if v > 0 then node else []
  }

  /** `{n != null && n > 0 && node}`: the node for a positive number, nothing otherwise. */
  function WhenPositive(n: Option<int>, node: seq<string>): (out: seq<string>)
    ensures out == node <==> (n.Some? && n.value > 0) || node == []
    ensures out != node ==> out == []
  {
    if n.Some? && n.value > 0 then node else []
  }

  /** The two renderings differ only on 0, where the unguarded one leaks the text "0". */
  lemma NumAndPositiveLeaksZero(n: Option<int>, node: seq<string>)
    ensures n != Some(0) ==> NumAndPositive(n, node) == WhenPositive(n, node)
    ensures NumAndPositive(Some(0), node) == ["0"] && WhenPositive(Some(0), node) == []
  {
  }
}

=== FILE: new_offer.dfy ===
/** Publishing an offer: the parent's form values become a new `offers` row
    that belongs to the parent and starts open. */
module NewOffer {
  import opened Wrappers
  import opened Constants
  import opened Store

  /** The validated offer form. Its schema is not part of this model. */
  datatype OfferInput = OfferInput(
    matiere: string,
    niveau: string,
    description: string,
    adresse: string,
    frequence: string,
    budgetMin: int,
    budgetMax: int)

  /** The form fields an offer row carries. */
  predicate CopiesInput(o: Offer, input: OfferInput) {
    o.matiere == input.matiere && o.niveau == input.niveau
    && o.description == input.description && o.adresse == input.adresse
    && o.frequence == input.frequence
    && o.budgetMin == input.budgetMin && o.budgetMax == input.budgetMax
  }

  /** `handleSubmit`: nothing without a signed-in user; otherwise one new row owned by
      the user, copying the form, with status 'ouverte'. The backend assigns `newId`
      and `now`. */
  function CreateOffer(db: Db, user: Option<Id>, input: OfferInput, newId: Id, now: int, reply: Reply)
    : (r: Result<Db, Error>)
    ensures user.None? ==> r == Failure(Ignored)
    ensures user.Some? && reply.Rejected? ==> r == Failure(StoreFailure(reply.code))
    ensures user.Some? && reply == Done ==> r.Success?
    ensures r.Success? ==> r.value.(offers := db.offers) == db
    ensures r.Success? ==>
      var offers := r.value.offers;
      |offers| == |db.offers| + 1 && offers[..|db.offers|] == db.offers
      && var o := offers[|db.offers|];
         o.id == newId && o.parentId == user.value && o.statut == Ouverte
         && o.createdAt == now && CopiesInput(o, input)
  {
    if user.None? then Failure(Ignored)
    else if reply.Rejected? then Failure(StoreFailure(reply.code))
    else
      var o := Offer(newId, user.value, input.matiere, input.niveau, input.description,
                     input.adresse, input.frequence, input.budgetMin, input.budgetMax,
                     Ouverte, now);
      Success(db.(offers := db.offers + [o]))
  }
}

=== FILE: parent_contracts.dfy ===
/** The parent's contracts page: the parent's contracts newest first, each with
    its tutor, and the status control that ends or cancels an active contract,
    stamping its end date with the current day. */
module ParentContracts {
  import opened Wrappers
  import opened Seqs
  import opened Constants
  import opened Store
  import opened Dates

  // ----- the list -----------------------------------------------------------

  function OfParent(user: Id): Contract -> bool {
    (c: Contract) => c.parentId == user
  }

  /** `.eq('parent_id', user).order('created_at', { ascending: false })`. */
  function ParentContractList(db: Db, user: Id): (r: seq<Contract>)
    ensures forall i :: 0 <= i < |r| ==> r[i].parentId == user && r[i] in db.contracts
    ensures forall i :: 0 <= i < |db.contracts| && db.contracts[i].parentId == user ==>
              db.contracts[i] in r
    ensures SortedDesc(r, ContractCreatedAt)
    ensures multiset(r) == multiset(Filter(db.contracts, OfParent(user)))
  {
    var mine := Filter(db.contracts, OfParent(user));
    var r := SortNewest(mine, ContractCreatedAt);
    SortNewestPermutes(mine, ContractCreatedAt);
    forall i | 0 <= i < |r| ensures r[i].parentId == user && r[i] in db.contracts {
      assert r[i] in mine;
    }
    forall i | 0 <= i < |db.contracts| && db.contracts[i].parentId == user ensures db.contracts[i] in r {
      assert db.contracts[i] in mine;
    }
    r
  }

  /** The tutor shown on a contract card, or a placeholder named 'Inconnu'. */
  function ContractTutor(db: Db, c: Contract): (t: PersonSummary)
    ensures t.id == c.repetiteurId
    ensures FindProfile(db.profiles, c.repetiteurId).None? ==> t.fullName == "Inconnu"
    ensures FindProfile(db.profiles, c.repetiteurId).Some? ==>
              t.fullName == FindProfile(db.profiles, c.repetiteurId).value.fullName
  {
    SummaryOr(db.profiles, c.repetiteurId, "Inconnu")
  }

  /** The status control is rendered only on an active contract. */
  predicate StatusControlShown(c: Contract) {
    c.statut == Actif
  }

  // ----- changing the status ------------------------------------------------

  /** Whether the new status stamps an end date. */
  predicate Ends(s: ContractStatus) {
    s == Termine || s == Annule
  }

  /** `updateData.date_fin`: today's date for an ending status, absent otherwise. */
  function EndDateWritten(s: ContractStatus, now: Instant): (d: Option<string>)
    ensures d.Some? <==> Ends(s)
    ensures d.Some? ==> d.value == IsoDate(Date(now.year, now.month, now.day))
    ensures d.Some? ==> |d.value| == if now.year <= 9999 then 10 else 13
  {
    if Ends(s) then Some(Today(now)) else None
  }

  /** The row change `update(updateData)` makes: `statut`, and `date_fin` when written. */
  function StoredChange(s: ContractStatus, now: Instant): Contract -> Contract {
    (c: Contract) =>
      c.(statut := s, dateFin := if EndDateWritten(s, now).Some? then EndDateWritten(s, now) else c.dateFin)
  }

  /** `handleStatusChange`: writes the status, and for 'termine' or 'annule' the end date,
      of the contract with this id. */
  function SetContractStatus(db: Db, contractId: Id, s: ContractStatus, now: Instant, reply: Reply)
    : (r: Result<Db, Error>)
    ensures reply.Rejected? ==> r == Failure(StoreFailure(reply.code))
    ensures reply == Done ==> r.Success?
    ensures r.Success? ==> r.value.(contracts := db.contracts) == db
    ensures r.Success? ==> |r.value.contracts| == |db.contracts|
    ensures r.Success? ==> forall i :: 0 <= i < |db.contracts| ==>
              var c := db.contracts[i];
              var c' := r.value.contracts[i];
              if c.id == contractId then
                c'.statut == s
                && (Ends(s) ==> c'.dateFin == Some(IsoDate(Date(now.year, now.month, now.day))))
                && (!Ends(s) ==> c'.dateFin == c.dateFin)
                && c'.(statut := c.statut, dateFin := c.dateFin) == c
              else c' == c
  {
    if reply.Rejected? then Failure(StoreFailure(reply.code))
    else Success(db.(contracts := UpdateWhere(db.contracts, ContractKey, contractId, StoredChange(s, now))))
  }

  /** JavaScript `a || b` on optional text: `a` unless it is null or empty. */
  function OrElse(a: Option<string>, b: Option<string>): (r: Option<string>)
    ensures a.Some? && a.value != "" ==> r == a
    ensures a.None? || a.value == "" ==> r == b
  {
    if a.Some? && a.value != "" then a else b
  }

  /** The page's own update of one card: `{ ...c, statut, date_fin: updateData.date_fin || c.date_fin }`. */
  function LocalChange(contractId: Id, s: ContractStatus, now: Instant): Contract -> Contract {
    (c: Contract) =>
      if c.id == contractId then c.(statut := s, dateFin := OrElse(EndDateWritten(s, now), c.dateFin)) else c
  }

  /** The page's list after a change: updated only when the backend accepted. */
  function LocalContractsAfter(view: seq<Contract>, contractId: Id, s: ContractStatus, now: Instant,
                               r: Result<Db, Error>): (v: seq<Contract>)
    ensures r.Failure? ==> v == view
    ensures |v| == |view|
    ensures r.Success? ==> forall i :: 0 <= i < |view| && view[i].id != contractId ==> v[i] == view[i]
  {
    if r.Success? then Map(view, LocalChange(contractId, s, now)) else view
  }

  /** The page's list stays what a reload would show: the local `||` fallback never
      differs from the stored update, since a written end date is never empty. */
  lemma LocalContractsMirrorStore(db: Db, user: Id, contractId: Id, s: ContractStatus, now: Instant)
    ensures var r := SetContractStatus(db, contractId, s, now, Done);
            LocalContractsAfter(ParentContractList(db, user), contractId, s, now, r)
              == ParentContractList(r.value, user)
  {
    var f := Updater(ContractKey, contractId, StoredChange(s, now));
    var g := LocalChange(contractId, s, now);
    var p := OfParent(user);
    ChangesAgree(user, contractId, s, now);
    var view := ParentContractList(db, user);
    assert Map(view, g) == Map(view, f);
    FilterMap(db.contracts, p, f);
    SortMap(Filter(db.contracts, p), ContractCreatedAt, f);
  }

  /** The page's own change is the stored one, and it keeps the owner and the creation time. */
  lemma ChangesAgree(user: Id, contractId: Id, s: ContractStatus, now: Instant)
    ensures var f := Updater(ContractKey, contractId, StoredChange(s, now));
            forall x: Contract :: LocalChange(contractId, s, now)(x) == f(x)
              && OfParent(user)(f(x)) == OfParent(user)(x) && ContractCreatedAt(f(x)) == ContractCreatedAt(x)
  {
    forall x: Contract ensures LocalChange(contractId, s, now)(x) == Updater(ContractKey, contractId, StoredChange(s, now))(x) {
      ChangeAgreesAt(contractId, s, now, x);
    }
  }

  /** `ChangesAgree` for one row: a written end date is never empty, so `||` keeps it. */
  lemma ChangeAgreesAt(contractId: Id, s: ContractStatus, now: Instant, x: Contract)
    ensures LocalChange(contractId, s, now)(x) == Updater(ContractKey, contractId, StoredChange(s, now))(x)
  {
    var e := EndDateWritten(s, now);
    assert e.Some? ==> e.value != "" by {
      if e.Some? { assert |e.value| >= 10; }
    }
    assert OrElse(e, x.dateFin) == if e.Some? then e else x.dateFin;
  }

  /** Once ended or cancelled, a contract has no control on this page any more, so it
      cannot be changed again here. */
  lemma EndedHasNoControl(db: Db, contractId: Id, s: ContractStatus, now: Instant)
    requires Ends(s)
    ensures var db1 := SetContractStatus(db, contractId, s, now, Done).value;
            forall i :: 0 <= i < |db1.contracts| && db1.contracts[i].id == contractId ==>
              !StatusControlShown(db1.contracts[i])
  {
  }

  /** Terminating stamps the day; choosing 'actif' again afterwards keeps that day. */
  lemma EndDateKept(db: Db, contractId: Id, now: Instant, later: Instant)
    ensures var db1 := SetContractStatus(db, contractId, Termine, now, Done).value;
            var db2 := SetContractStatus(db1, contractId, Actif, later, Done).value;
            forall i :: 0 <= i < |db.contracts| && db.contracts[i].id == contractId ==>
              db2.contracts[i].dateFin == Some(IsoDate(Date(now.year, now.month, now.day)))
              && db2.contracts[i].statut == Actif
  {
    var db1 := SetContractStatus(db, contractId, Termine, now, Done).value;
    forall i | 0 <= i < |db.contracts| && db.contracts[i].id == contractId
      ensures db1.contracts[i].id == contractId
    {
      var c := db.contracts[i];
      assert db1.contracts[i].(statut := c.statut, dateFin := c.dateFin) == c;
    }
  }
}

=== FILE: parent_dashboard.dfy ===
/** The parent's dashboard: tallies of the parent's offers and of the
    applications on them, and the five newest of those applications. */
module ParentDashboard {
  import opened Wrappers
  import opened Seqs
  import opened Constants
  import opened Store

  function OwnedBy(user: Id): Offer -> bool {
    (o: Offer) => o.parentId == user
  }

  /** The offer ids of the parent's offers. */
  function OfferIds(offers: seq<Offer>): (ids: seq<Id>)
    ensures |ids| == |offers|
    ensures forall i :: 0 <= i < |offers| ==> ids[i] == offers[i].id
  {
    Map(offers, OfferKey)
  }

  function OnOffers(ids: seq<Id>): Application -> bool {
    (a: Application) => a.offerId in ids
  }

  /** A recent application as the panel shows it. */
  datatype RecentApplication = RecentApplication(
    id: Id, message: string, statut: ApplicationStatus, createdAt: int,
    tutorName: string, offerId: Id, matiere: string, niveau: string)

  /** `full_name || 'Inconnu'`, and the offer's subject and level or ''. */
  function ToRecent(db: Db, own: seq<Offer>): Application -> RecentApplication {
    (a: Application) =>
      var p := FindProfile(db.profiles, a.repetiteurId);
      var o := FindOffer(own, a.offerId);
      RecentApplication(a.id, a.message, a.statut, a.createdAt,
                        if p.Some? && p.value.fullName != "" then p.value.fullName else "Inconnu",
                        a.offerId,
                        if o.Some? then o.value.matiere else "",
                        if o.Some? then o.value.niveau else "")
  }

  datatype Dashboard = Dashboard(totalOffers: nat, openOffers: nat, pendingApplications: nat,
                                 acceptedApplications: nat, recent: seq<RecentApplication>)

  /** The application is on one of the parent's offers. */
  predicate OnParentOffer(db: Db, user: Id, a: Application) {
    exists o :: o in db.offers && o.parentId == user && o.id == a.offerId
  }

  /** The ids of the parent's offers are exactly the ids of offers the parent owns. */
  lemma OwnIdsExact(db: Db, user: Id, id: Id)
    ensures id in OfferIds(Filter(db.offers, OwnedBy(user))) <==>
            exists o :: o in db.offers && o.parentId == user && o.id == id
  {
    var own := Filter(db.offers, OwnedBy(user));
    var ids := OfferIds(own);
    FilterMembers(db.offers, OwnedBy(user));
    if id in ids {
      var k :| 0 <= k < |ids| && ids[k] == id;
      assert own[k] in own;
    }
    forall o | o in own && o.id == id ensures id in ids {
      var k :| 0 <= k < |own| && own[k] == o;
      assert ids[k] == id;
    }
  }

  /** `.in('offer_id', offerIds).order('created_at', { ascending: false })`: the applications on
      the parent's offers, newest first. */
  function OwnApplications(db: Db, user: Id): (apps: seq<Application>)
    ensures forall i :: 0 <= i < |apps| ==> apps[i] in db.applications && OnParentOffer(db, user, apps[i])
    ensures forall a :: a in db.applications && OnParentOffer(db, user, a) ==> a in apps
    ensures forall i, j :: 0 <= i < j < |apps| ==> apps[i].createdAt >= apps[j].createdAt
    ensures multiset(apps) == multiset(Filter(db.applications, OnOffers(OfferIds(Filter(db.offers, OwnedBy(user))))))
  {
    var ids := OfferIds(Filter(db.offers, OwnedBy(user)));
    var mine := Filter(db.applications, OnOffers(ids));
    var apps := SortNewest(mine, AppCreatedAt);
    SortNewestPermutes(mine, AppCreatedAt);
    FilterMembers(db.applications, OnOffers(ids));
    forall a ensures a in mine <==> a in db.applications && OnParentOffer(db, user, a) {
      OwnIdsExact(db, user, a.offerId);
    }
    apps
  }

  /** `fetchData`: the parent's offers and their tallies; without offers the application
      tallies stay 0 and the panel is empty. */
  function ParentDashboardData(db: Db, user: Id): (d: Dashboard)
    ensures d.totalOffers == |Filter(db.offers, OwnedBy(user))|
    ensures d.openOffers == |Filter(Filter(db.offers, OwnedBy(user)), OfferStatusIs(Ouverte))|
    ensures d.openOffers <= d.totalOffers
    ensures d.totalOffers == 0 ==> d.pendingApplications == 0 && d.acceptedApplications == 0 && d.recent == []
    ensures d.totalOffers > 0 ==>
              d.pendingApplications == |Filter(OwnApplications(db, user), AppStatusIs(EnAttente))|
              && d.acceptedApplications == |Filter(OwnApplications(db, user), AppStatusIs(Acceptee))|
    ensures d.pendingApplications + d.acceptedApplications <= |OwnApplications(db, user)|
    ensures d.totalOffers > 0 ==>
              |d.recent| == if |OwnApplications(db, user)| < 5 then |OwnApplications(db, user)| else 5
    ensures forall i :: 0 <= i < |d.recent| ==> d.recent[i].id == OwnApplications(db, user)[i].id
  {
    Summarize(Filter(db.offers, OwnedBy(user)), OwnApplications(db, user), ToRecent(db, Filter(db.offers, OwnedBy(user))))
  }

  /** The tallies of the parent's offers and of the applications on them, and the panel. */
  function Summarize(own: seq<Offer>, apps: seq<Application>, toRecent: Application -> RecentApplication): (d: Dashboard)
    requires forall a :: toRecent(a).id == a.id
    ensures d.totalOffers == |own|
    ensures d.openOffers == |Filter(own, OfferStatusIs(Ouverte))| && d.openOffers <= d.totalOffers
    ensures d.totalOffers == 0 ==> d.pendingApplications == 0 && d.acceptedApplications == 0 && d.recent == []
    ensures d.totalOffers > 0 ==>
              d.pendingApplications == |Filter(apps, AppStatusIs(EnAttente))|
              && d.acceptedApplications == |Filter(apps, AppStatusIs(Acceptee))|
    ensures d.pendingApplications + d.acceptedApplications <= |apps|
    ensures |own| > 0 ==> |d.recent| == if |apps| < 5 then |apps| else 5
    ensures forall i :: 0 <= i < |d.recent| ==> d.recent[i].id == apps[i].id
  {
    var open := |Filter(own, OfferStatusIs(Ouverte))|;
    AppStatusesPartition(apps);
    if |own| == 0 then
      Dashboard(0, open, 0, 0, [])
    else
      Dashboard(|own|, open, |Filter(apps, AppStatusIs(EnAttente))|, |Filter(apps, AppStatusIs(Acceptee))|,
                Map(Take(apps, 5), toRecent))
  }

  /** The tutor named on a recent application is the profile's name, or 'Inconnu' when the
      profile is missing. */
  lemma RecentTutorName(db: Db, user: Id, i: nat)
    requires i < |ParentDashboardData(db, user).recent|
    ensures var a := OwnApplications(db, user)[i];
            var name := ParentDashboardData(db, user).recent[i].tutorName;
            (FindProfile(db.profiles, a.repetiteurId).None? ==> name == "Inconnu")
            && (FindProfile(db.profiles, a.repetiteurId).Some?
                && FindProfile(db.profiles, a.repetiteurId).value.fullName != "" ==>
                name == FindProfile(db.profiles, a.repetiteurId).value.fullName)
  {
  }
}

=== FILE: parent_offer_details.dfy ===
/** The parent's page for one of their offers: loading it (only if it is
    theirs), listing its applications newest first, changing the offer's
    status, and accepting or rejecting an application. */
module ParentOfferDetails {
  import opened Wrappers
  import opened Seqs
  import opened Constants
  import opened Store

  // ----- loading ------------------------------------------------------------

  /** The rows `.eq('id', offerId).eq('parent_id', user)` selects. */
  function OwnedWithId(offerId: Id, user: Id): Offer -> bool {
    (o: Offer) => o.id == offerId && o.parentId == user
  }

  /** The offer load with `.single()`: an error unless exactly one row matches. */
  function LoadOwnOffer(db: Db, offerId: Id, user: Id): (r: Result<Offer, Error>)
    ensures r.Success? ==> r.value in db.offers && r.value.id == offerId && r.value.parentId == user
    ensures r.Failure? ==> r.error == NotFound
  {
    var matches := Filter(db.offers, OwnedWithId(offerId, user));
    if |matches| == 1 then Success(matches[0]) else Failure(NotFound)
  }

  /** With unique offer ids, the parent's own offer is found. */
  lemma LoadOwnOfferFound(db: Db, offerId: Id, user: Id, k: nat)
    requires UniqueOfferIds(db.offers)
    requires k < |db.offers| && db.offers[k].id == offerId && db.offers[k].parentId == user
    ensures LoadOwnOffer(db, offerId, user) == Success(db.offers[k])
  {
    FilterSingle(db.offers, OwnedWithId(offerId, user), k);
  }

  /** Another parent's offer is never loaded: the page reports an error and leaves. */
  lemma LoadOthersOfferFails(db: Db, offerId: Id, user: Id, k: nat)
    requires UniqueOfferIds(db.offers)
    requires k < |db.offers| && db.offers[k].id == offerId && db.offers[k].parentId != user
    ensures LoadOwnOffer(db, offerId, user) == Failure(NotFound)
  {
    FilterNone(db.offers, OwnedWithId(offerId, user));
  }

  // ----- the applications list ----------------------------------------------

  /** The applications of an offer, newest first. */
  function OfferApplications(db: Db, offerId: Id): (r: seq<Application>)
    ensures forall i :: 0 <= i < |r| ==> r[i].offerId == offerId && r[i] in db.applications
    ensures SortedDesc(r, AppCreatedAt)
    ensures multiset(r) == multiset(Filter(db.applications, ForOffer(offerId)))
  {
    var mine := Filter(db.applications, ForOffer(offerId));
    var r := SortNewest(mine, AppCreatedAt);
    SortNewestPermutes(mine, AppCreatedAt);
    forall i | 0 <= i < |r| ensures r[i].offerId == offerId && r[i] in db.applications {
      assert r[i] in mine;
    }
    r
  }

  /** The tutor's profile, or a placeholder named 'Utilisateur inconnu'. */
  function Applicant(db: Db, a: Application): (t: PersonSummary)
    ensures t.id == a.repetiteurId
    ensures FindProfile(db.profiles, a.repetiteurId).None? ==> t.fullName == "Utilisateur inconnu"
    ensures FindProfile(db.profiles, a.repetiteurId).Some? ==>
              t.fullName == FindProfile(db.profiles, a.repetiteurId).value.fullName
  {
    SummaryOr(db.profiles, a.repetiteurId, "Utilisateur inconnu")
  }

  // ----- changing the offer status ------------------------------------------

  /** The choices of the status select: all three statuses, whatever the current one. */
  const StatusChoices: seq<OfferStatus> := [Ouverte, EnCours, Fermee]

  function WithOfferStatus(s: OfferStatus): Offer -> Offer {
    (o: Offer) => o.(statut := s)
  }

  /** `handleStatusChange`: nothing without a loaded offer; otherwise only `statut` of
      the offer's row is written. */
  function SetOfferStatus(db: Db, loaded: Option<Offer>, s: OfferStatus, reply: Reply)
    : (r: Result<Db, Error>)
    ensures loaded.None? ==> r == Failure(Ignored)
    ensures loaded.Some? && reply.Rejected? ==> r == Failure(StoreFailure(reply.code))
    ensures loaded.Some? && reply == Done ==> r.Success?
    ensures r.Success? ==> r.value.(offers := db.offers) == db && |r.value.offers| == |db.offers|
    ensures r.Success? ==> forall i :: 0 <= i < |db.offers| ==>
              if db.offers[i].id == loaded.value.id
              then r.value.offers[i] == db.offers[i].(statut := s)
              else r.value.offers[i] == db.offers[i]
  {
    if loaded.None? then Failure(Ignored)
    else if reply.Rejected? then Failure(StoreFailure(reply.code))
    else Success(db.(offers := UpdateWhere(db.offers, OfferKey, loaded.value.id, WithOfferStatus(s))))
  }

  /** The page's own copy after the change: updated only when the backend accepted. */
  function LocalOfferAfter(loaded: Offer, s: OfferStatus, r: Result<Db, Error>): (o: Offer)
    ensures r.Success? ==> o == loaded.(statut := s)
    ensures r.Failure? ==> o == loaded
  {
    if r.Success? then loaded.(statut := s) else loaded
  }

  /** There is no transition rule: from any status, any of the three can be chosen
      and is written. */
  lemma AnyStatusToAny(db: Db, o: Offer, s: OfferStatus)
    ensures s in StatusChoices
    ensures SetOfferStatus(db, Some(o), s, Done).Success?
    ensures forall i :: 0 <= i < |db.offers| && db.offers[i].id == o.id ==>
              SetOfferStatus(db, Some(o), s, Done).value.offers[i].statut == s
  {
  }

  /** Changing the status and changing it back restores the table when the offer's
      rows held the original status. */
  lemma StatusChangeReversible(db: Db, o: Offer, s: OfferStatus)
    requires forall i :: 0 <= i < |db.offers| && db.offers[i].id == o.id ==> db.offers[i].statut == o.statut
    ensures var db1 := SetOfferStatus(db, Some(o), s, Done).value;
            SetOfferStatus(db1, Some(o), o.statut, Done) == Success(db)
  {
    var db1 := SetOfferStatus(db, Some(o), s, Done).value;
    var db2 := SetOfferStatus(db1, Some(o), o.statut, Done).value;
    assert db2.offers == db.offers;
  }

  // ----- deciding on an application -----------------------------------------

  /** The two decisions a parent can take. */
  datatype Decision = Accept | Reject

  function DecisionStatus(d: Decision): (s: ApplicationStatus)
    ensures s != EnAttente
  {
    match d
    case Accept => Acceptee
    case Reject => Refusee
  }

  function WithApplicationStatus(s: ApplicationStatus): Application -> Application {
    (a: Application) => a.(statut := s)
  }

  /** `handleApplicationAction`: only `statut` of the targeted application is written;
      no other table is touched, so in particular no contract is created and the offer
      keeps its status. */
  function DecideApplication(db: Db, appId: Id, d: Decision, reply: Reply): (r: Result<Db, Error>)
    ensures reply.Rejected? ==> r == Failure(StoreFailure(reply.code))
    ensures reply == Done ==> r.Success?
    ensures r.Success? ==> r.value.(applications := db.applications) == db
    ensures r.Success? ==> |r.value.applications| == |db.applications|
    ensures r.Success? ==> forall i :: 0 <= i < |db.applications| ==>
              if db.applications[i].id == appId
              then r.value.applications[i] == db.applications[i].(statut := DecisionStatus(d))
              else r.value.applications[i] == db.applications[i]
  {
    if reply.Rejected? then Failure(StoreFailure(reply.code))
    else Success(db.(applications := UpdateWhere(db.applications, AppId, appId,
                                                 WithApplicationStatus(DecisionStatus(d)))))
  }

  /** The page's list after a decision: the targeted entry changes only when the
      backend accepted. */
  function LocalApplicationsAfter(view: seq<Application>, appId: Id, d: Decision, r: Result<Db, Error>)
    : (v: seq<Application>)
    ensures r.Failure? ==> v == view
    ensures |v| == |view|
    ensures r.Success? ==>
              forall i :: 0 <= i < |view| ==>
                v[i] == if view[i].id == appId then view[i].(statut := DecisionStatus(d)) else view[i]
  {
    if r.Success? then UpdateWhere(view, AppId, appId, WithApplicationStatus(DecisionStatus(d)))
    else view
  }

  /** The page's list stays what a reload would show: updating the loaded list in
      place equals listing the offer's applications from the updated table. */
  lemma LocalDecisionMirrorsStore(db: Db, offerId: Id, appId: Id, d: Decision)
    ensures var r := DecideApplication(db, appId, d, Done);
            LocalApplicationsAfter(OfferApplications(db, offerId), appId, d, r)
              == OfferApplications(r.value, offerId)
  {
    var f := Updater(AppId, appId, WithApplicationStatus(DecisionStatus(d)));
    var p := ForOffer(offerId);
    forall x: Application ensures p(f(x)) == p(x) && AppCreatedAt(f(x)) == AppCreatedAt(x) {
      assert f(x) == if x.id == appId then x.(statut := DecisionStatus(d)) else x;
    }
    FilterMap(db.applications, p, f);
    SortMap(Filter(db.applications, p), AppCreatedAt, f);
  }
}

=== FILE: routing.dfy ===
/** Where the application sends a visitor: the role-based redirects of the home
    and sign-in routes, the role lists the routes declare, and the sidebar's
    navigation filtered by the user's roles. */
module Routing {
  import opened Wrappers
  import opened Seqs
  import opened Constants

  /** What the session context exposes: whether it is still loading, the signed-in
      user if any, and that user's roles. */
  datatype Session = Session(loading: bool, user: Option<string>, roles: seq<Role>)

  /** What a redirect component renders. */
  datatype Screen = Spinner | Navigate(to: string) | AuthPage

  const AdminHome: string := "/admin/dashboard"
  const ParentHome: string := "/parent/dashboard"
  const TutorHome: string := "/repetiteur/dashboard"
  const AuthPath: string := "/auth"

  predicate IsStaff(roles: seq<Role>) {
    SuperAdmin in roles || Admin in roles
  }

  /** The dashboard of the first role in the order administrator, parent, tutor that the
      user holds; none when the user holds none of them. */
  function RoleHome(roles: seq<Role>): (home: Option<string>)
    ensures home == Some(AdminHome) <==> IsStaff(roles)
    ensures home == Some(ParentHome) <==> !IsStaff(roles) && Client in roles
    ensures home == Some(TutorHome) <==> !IsStaff(roles) && Client !in roles && Prestataire in roles
    ensures home.None? <==> |roles| == 0
  {
    if |roles| == 0 then None
    else if IsStaff(roles) then Some(AdminHome)
    else if Client in roles then Some(ParentHome)
    else
      assert roles[0] in roles;
      assert roles[0] != SuperAdmin && roles[0] != Admin && roles[0] != Client;
      assert roles[0] == Prestataire;
      Some(TutorHome)
  }

  /** `HomeRedirect`, mounted on '/' and '/dashboard'. */
  function HomeRedirect(s: Session): (screen: Screen)
    ensures s.loading <==> screen == Spinner
    ensures !s.loading && s.user.None? ==> screen == Navigate(AuthPath)
    ensures !s.loading && s.user.Some? && RoleHome(s.roles).Some? ==> screen == Navigate(RoleHome(s.roles).value)
    ensures !s.loading && s.user.Some? && |s.roles| == 0 ==> screen == Navigate(AuthPath)
    ensures screen != AuthPage
  {
    if s.loading then Spinner
    else if s.user.None? then Navigate(AuthPath)
    else match RoleHome(s.roles)
      case Some(home) => Navigate(home)
      case None => Navigate(AuthPath)
  }

  /** `AuthRedirect`, mounted on '/auth': a signed-in user with a role is sent to that role's
      dashboard; everyone else gets the sign-in page. */
  function AuthRedirect(s: Session): (screen: Screen)
    ensures s.loading <==> screen == Spinner
    ensures !s.loading && (s.user.None? || |s.roles| == 0) ==> screen == AuthPage
    ensures !s.loading && s.user.Some? && RoleHome(s.roles).Some? ==> screen == Navigate(RoleHome(s.roles).value)
  {
    if s.loading then Spinner
    else if s.user.Some? && RoleHome(s.roles).Some? then Navigate(RoleHome(s.roles).value)
    else AuthPage
  }

  /** A user holding both the parent and the tutor role lands on the parent dashboard. */
  lemma ParentBeforeTutor(s: Session)
    requires !s.loading && s.user.Some? && !IsStaff(s.roles)
    requires Client in s.roles && Prestataire in s.roles
    ensures HomeRedirect(s) == Navigate(ParentHome) && AuthRedirect(s) == Navigate(ParentHome)
  {
  }

  /** Both redirects agree for a signed-in user with a role. A signed-in user without one
      is sent to '/auth' by the home route, where the sign-in page is shown, and stays there. */
  lemma RedirectsAgree(s: Session)
    requires !s.loading && s.user.Some?
    ensures |s.roles| > 0 ==> HomeRedirect(s) == AuthRedirect(s) && HomeRedirect(s).to != AuthPath
    ensures |s.roles| == 0 ==> HomeRedirect(s) == Navigate(AuthPath) && AuthRedirect(s) == AuthPage
  {
  }

  // ----- the route table -------------------------------------------------------

  /** How a route is guarded: not at all, by a signed-in user only, or by a role list. */
  datatype Guard = Public | SignedIn | Roles(required: seq<Role>)

  datatype Route = Route(path: string, guard: Guard)

  const StaffOnly: Guard := Roles([SuperAdmin, Admin])
  const ParentOnly: Guard := Roles([Client])
  const TutorOnly: Guard := Roles([Prestataire])

  /** The routes in declaration order; the catch-all '*' is left out. */
  const RouteTable: seq<Route> := [
    Route("/auth", Public),
    Route("/", Public),
    Route("/admin/dashboard", StaffOnly),
    Route("/dashboard", Public),
    Route("/users", StaffOnly),
    Route("/prestataires", StaffOnly),
    Route("/clients", StaffOnly),
    Route("/admin/offres", StaffOnly),
    Route("/profile", SignedIn),
    Route("/parent/dashboard", ParentOnly),
    Route("/mes-offres", ParentOnly),
    Route("/mes-offres/nouvelle", ParentOnly),
    Route("/mes-offres/:id", ParentOnly),
    Route("/mes-contrats", ParentOnly),
    Route("/repetiteur/dashboard", TutorOnly),
    Route("/offres", TutorOnly),
    Route("/offres/:id", TutorOnly),
    Route("/mes-candidatures", TutorOnly),
    Route("/repetiteur/profil", TutorOnly),
    Route("/repetiteur/contrats", TutorOnly)
  ]

  /** The guard declared for a path, when one of the routes has exactly that path. */
  function GuardOf(path: string): (g: Option<Guard>)
    ensures g.Some? <==> exists i :: 0 <= i < |RouteTable| && RouteTable[i].path == path
    ensures g.Some? ==> exists i :: 0 <= i < |RouteTable| && RouteTable[i] == Route(path, g.value)
  {
    FirstGuard(RouteTable, path)
  }

  function FirstGuard(routes: seq<Route>, path: string): (g: Option<Guard>)
    ensures g.Some? <==> exists i :: 0 <= i < |routes| && routes[i].path == path
    ensures g.Some? ==> exists i :: 0 <= i < |routes| && routes[i] == Route(path, g.value)
    decreases |routes|
  {
    if |routes| == 0 then None
    else if routes[0].path == path then Some(routes[0].guard)
    else
      var g := FirstGuard(routes[1..], path);
      assert forall i :: 1 <= i < |routes| ==> routes[i] == routes[1..][i - 1];
      assert g.Some? ==> exists i :: 0 <= i < |routes| - 1 && routes[1..][i] == Route(path, g.value);
      g
  }

  /** The paths are pairwise distinct, so each path has one guard. */
  lemma RoutePathsDistinct()
    ensures forall i, j :: 0 <= i < j < |RouteTable| ==> RouteTable[i].path != RouteTable[j].path
  {
  }

  /** The role dashboards declare the role that leads to them: each redirect sends a user
      to a route whose role list contains a role the user holds. */
  lemma LandingAdmitsUser(roles: seq<Role>)
    requires RoleHome(roles).Some?
    ensures var g := GuardOf(RoleHome(roles).value);
            g.Some? && g.value.Roles? && exists r :: r in g.value.required && r in roles
  {
    HomeGuards();
    if IsStaff(roles) {
      if SuperAdmin in roles {
        assert SuperAdmin in StaffOnly.required;
      } else {
        assert Admin in StaffOnly.required;
      }
    } else if Client in roles {
      assert Client in ParentOnly.required;
    } else {
      assert Prestataire in TutorOnly.required;
    }
  }

  /** The guards of the three dashboards. */
  lemma HomeGuards()
    ensures GuardOf(AdminHome) == Some(StaffOnly)
    ensures GuardOf(ParentHome) == Some(ParentOnly)
    ensures GuardOf(TutorHome) == Some(TutorOnly)
  {
    AdminHomeGuard();
    ParentHomeGuard();
    TutorHomeGuard();
  }

  lemma AdminHomeGuard()
    ensures GuardOf(AdminHome) == Some(StaffOnly)
  {
    assert RouteTable[2] == Route(AdminHome, StaffOnly);
    GuardAt(2);
  }

  lemma ParentHomeGuard()
    ensures GuardOf(ParentHome) == Some(ParentOnly)
  {
    assert RouteTable[9] == Route(ParentHome, ParentOnly);
    GuardAt(9);
  }

  lemma TutorHomeGuard()
    ensures GuardOf(TutorHome) == Some(TutorOnly)
  {
    assert RouteTable[14] == Route(TutorHome, TutorOnly);
    GuardAt(14);
  }

  /** The guard found for a route's path is that route's own guard. */
  lemma GuardAt(k: nat)
    requires k < |RouteTable|
    ensures GuardOf(RouteTable[k].path) == Some(RouteTable[k].guard)
  {
    RoutePathsDistinct();
    var g := GuardOf(RouteTable[k].path);
    var i :| 0 <= i < |RouteTable| && RouteTable[i] == Route(RouteTable[k].path, g.value);
    assert i == k;
  }

  // ----- the sidebar ----------------------------------------------------------

  datatype NavItem = NavItem(title: string, href: string, roles: Option<seq<Role>>)

  const NavItems: seq<NavItem> := [
    NavItem("Tableau de bord", "/dashboard", None),
    NavItem("Utilisateurs", "/users", Some([SuperAdmin, Admin])),
    NavItem("Répétiteurs", "/prestataires", Some([SuperAdmin, Admin])),
    NavItem("Parents", "/clients", Some([SuperAdmin, Admin]))
  ]

  /** An item without a role list is always shown; one with a list is shown when the
      user holds at least one of its roles. */
  predicate ItemVisible(item: NavItem, roles: seq<Role>) {
    item.roles.None? || exists r :: r in item.roles.value && r in roles
  }

  function VisibleTo(roles: seq<Role>): NavItem -> bool {
    (item: NavItem) => ItemVisible(item, roles)
  }

  /** `filteredNavItems`: the visible items in declaration order. */
  function FilteredNavItems(roles: seq<Role>): (items: seq<NavItem>)
    ensures forall item :: item in items <==> item in NavItems && ItemVisible(item, roles)
    ensures IsSubsequence(items, NavItems)
    ensures NavItems[0] in items
  {
    FilterIsSubsequence(NavItems, VisibleTo(roles));
    assert forall item :: item in Filter(NavItems, VisibleTo(roles)) ==> VisibleTo(roles)(item);
    assert VisibleTo(roles)(NavItems[0]);
    Filter(NavItems, VisibleTo(roles))
  }

  /** A user who is neither administrator nor super administrator sees only the dashboard
      entry; an administrator sees every entry. */
  lemma NavForRoles(roles: seq<Role>)
    ensures !IsStaff(roles) ==> FilteredNavItems(roles) == [NavItems[0]]
    ensures IsStaff(roles) ==> FilteredNavItems(roles) == NavItems
  {
    var p := VisibleTo(roles);
    var items := NavItems;
    if IsStaff(roles) {
      var r := if SuperAdmin in roles then SuperAdmin else Admin;
      assert r in [SuperAdmin, Admin] && r in roles;
      forall i | 0 <= i < |items| ensures p(items[i]) {
        if i > 0 {
          assert items[i].roles == Some([SuperAdmin, Admin]);
        }
      }
      FilterAll(items, p);
    } else {
      assert !p(items[1]) && !p(items[2]) && !p(items[3]);
      assert Filter(items, p) == [items[0]] + Filter(items[1..], p);
      FilterNone(items[1..], p);
    }
  }

  /** `isActive`: the current path equals the item's href exactly. */
  predicate IsActiveItem(pathname: string, item: NavItem) {
    pathname == item.href
  }

  /** The sidebar's entries are all different, and so are their hrefs. */
  lemma NavItemsDistinct()
    ensures Distinct(NavItems)
    ensures forall x, y :: x in NavItems && y in NavItems && x != y ==> x.href != y.href
  {
    assert forall z :: z in NavItems ==> z == NavItems[0] || z == NavItems[1] || z == NavItems[2] || z == NavItems[3];
  }

  /** At most one entry of the sidebar is highlighted, and none on a nested path such as
      '/users/x'. */
  lemma AtMostOneActive(roles: seq<Role>, pathname: string)
    ensures forall i, j :: 0 <= i < j < |FilteredNavItems(roles)| ==>
              !(IsActiveItem(pathname, FilteredNavItems(roles)[i]) && IsActiveItem(pathname, FilteredNavItems(roles)[j]))
  {
    var items := FilteredNavItems(roles);
    NavItemsDistinct();
    DistinctSubsequence(items, NavItems);
    forall i, j | 0 <= i < j < |items| ensures items[i].href != items[j].href {
      assert items[i] in items && items[j] in items;
      assert items[i] != items[j];
    }
  }
}

=== FILE: seqs.dfy ===
/** Sequence operations shared by the read-side pages: `Array.prototype.filter`,
    `slice(0, n)`, and the "newest first" ordering the backend applies with
    `.order('created_at', { ascending: false })`. */
module Seqs {

  /** `s.filter(p)`. */
  function Filter<T(==)>(s: seq<T>, p: T -> bool): (r: seq<T>)
    ensures |r| <= |s|
    ensures forall i :: 0 <= i < |r| ==> r[i] in s && p(r[i])
    ensures forall i :: 0 <= i < |s| && p(s[i]) ==> s[i] in r
    decreases |s|
  {
    if |s| == 0 then []
    else
      var rest := Filter(s[1..], p);
      assert forall i :: 1 <= i < |s| ==> s[i] == s[1..][i - 1];
      if p(s[0]) then [s[0]] + rest else rest
  }

  /** The filter of a non-empty sequence: the head when it passes, then the tail's filter. */
  lemma FilterHead<T>(s: seq<T>, p: T -> bool)
    requires |s| > 0
    ensures |Filter(s, p)| == (if p(s[0]) then 1 else 0) + |Filter(s[1..], p)|
  {
  }

  /** An element is kept by the filter exactly when it occurs and passes. */
  lemma FilterMembers<T>(s: seq<T>, p: T -> bool)
    ensures forall x :: x in Filter(s, p) <==> x in s && p(x)
  {
    var r := Filter(s, p);
    forall x | x in r ensures x in s && p(x) {
      var i :| 0 <= i < |r| && r[i] == x;
    }
  }

  /** `a` can be obtained from `b` by deleting elements: the order of `a` is the order in `b`. */
  predicate IsSubsequence<T(==)>(a: seq<T>, b: seq<T>)
    decreases |b|
  {
    if |a| == 0 then true
    else if |b| == 0 then false
    else if a[0] == b[0] then IsSubsequence(a[1..], b[1..])
    else IsSubsequence(a, b[1..])
  }

  /** Filtering keeps the original relative order. */
  lemma {:induction false} FilterIsSubsequence<T>(s: seq<T>, p: T -> bool)
    ensures IsSubsequence(Filter(s, p), s)
    decreases |s|
  {
    if |s| > 0 {
      FilterIsSubsequence(s[1..], p);
      var rest := Filter(s[1..], p);
      if !p(s[0]) {
        SkipHead(rest, s);
      }
    }
  }

  /** A subsequence of the tail is a subsequence of the whole. */
  lemma {:induction false} SkipHead<T>(a: seq<T>, b: seq<T>)
    requires |b| > 0 && IsSubsequence(a, b[1..])
    ensures IsSubsequence(a, b)
    decreases |a| + |b|, 1
  {
    if |a| > 0 && a[0] == b[0] {
      DropFirst(a, b[1..]);
    }
  }

  /** Dropping the first element of a subsequence leaves a subsequence. */
  lemma {:induction false} DropFirst<T>(a: seq<T>, t: seq<T>)
    requires |a| > 0 && IsSubsequence(a, t)
    ensures IsSubsequence(a[1..], t)
    decreases |a| + |t| + 1, 0
  {
    assert |t| > 0;
    if a[0] == t[0] {
      SkipHead(a[1..], t);
    } else {
      DropFirst(a, t[1..]);
      SkipHead(a[1..], t);
    }
  }

  /** Pairwise distinct entries. */
  predicate Distinct<T(==)>(s: seq<T>) {
    forall i, j :: 0 <= i < j < |s| ==> s[i] != s[j]
  }

  /** A subsequence of a duplicate-free list is duplicate-free. */
  lemma {:induction false} DistinctSubsequence<T>(a: seq<T>, b: seq<T>)
    requires IsSubsequence(a, b) && Distinct(b)
    ensures Distinct(a)
    decreases |b|
  {
    if |a| > 0 {
      assert |b| > 0;
      if a[0] == b[0] {
        DistinctSubsequence(a[1..], b[1..]);
        SubsequenceMembers(a[1..], b[1..]);
        assert forall j :: 0 < j < |a| ==> a[j] in b[1..];
        assert forall j :: 0 < j < |b| ==> b[j] != b[0];
      } else {
        DistinctSubsequence(a, b[1..]);
      }
    }
  }

  /** Every element of a subsequence is an element of the whole. */
  lemma {:induction false} SubsequenceMembers<T>(a: seq<T>, b: seq<T>)
    requires IsSubsequence(a, b)
    ensures forall i :: 0 <= i < |a| ==> a[i] in b
    decreases |b|
  {
    if |a| > 0 {
      if a[0] == b[0] {
        SubsequenceMembers(a[1..], b[1..]);
        assert forall i :: 1 <= i < |a| ==> a[i] == a[1..][i - 1];
      } else {
        SubsequenceMembers(a, b[1..]);
      }
    }
  }

  /** Two complementary filters split a sequence: their sizes add up to its length. */
  lemma {:induction false} FilterSplit<T>(s: seq<T>, p: T -> bool, q: T -> bool)
    requires forall x :: q(x) <==> !p(x)
    ensures |Filter(s, p)| + |Filter(s, q)| == |s|
    decreases |s|
  {
    if |s| > 0 {
      FilterSplit(s[1..], p, q);
    }
  }

  /** Three mutually exclusive, exhaustive filters split a sequence. */
  lemma {:induction false} FilterSplit3<T>(s: seq<T>, p: T -> bool, q: T -> bool, r: T -> bool)
    requires forall x :: (p(x) && !q(x) && !r(x)) || (!p(x) && q(x) && !r(x)) || (!p(x) && !q(x) && r(x))
    ensures |Filter(s, p)| + |Filter(s, q)| + |Filter(s, r)| == |s|
    decreases |s|
  {
    if |s| > 0 {
      FilterSplit3(s[1..], p, q, r);
    }
  }

  /** When `p` implies `q`, the `p`-filter is no longer than the `q`-filter. */
  lemma {:induction false} FilterMonotone<T>(s: seq<T>, p: T -> bool, q: T -> bool)
    requires forall x :: p(x) ==> q(x)
    ensures |Filter(s, p)| <= |Filter(s, q)|
    decreases |s|
  {
    if |s| > 0 {
      FilterMonotone(s[1..], p, q);
    }
  }

  /** Filters that agree on every element of `s` give the same result. */
  lemma {:induction false} FilterCongruent<T>(s: seq<T>, p: T -> bool, q: T -> bool)
    requires forall i :: 0 <= i < |s| ==> (p(s[i]) <==> q(s[i]))
    ensures Filter(s, p) == Filter(s, q)
    decreases |s|
  {
    if |s| > 0 {
      FilterCongruent(s[1..], p, q);
    }
  }

  /** Filtering twice is filtering once by both conditions. */
  lemma {:induction false} FilterCompose<T>(s: seq<T>, p: T -> bool, q: T -> bool, pq: T -> bool)
    requires forall x :: pq(x) == (p(x) && q(x))
    ensures Filter(Filter(s, p), q) == Filter(s, pq)
    decreases |s|
  {
    if |s| > 0 {
      FilterCompose(s[1..], p, q, pq);
      if p(s[0]) {
        assert ([s[0]] + Filter(s[1..], p))[1..] == Filter(s[1..], p);
      }
    }
  }

  /** A filter that keeps everything is the identity. */
  lemma {:induction false} FilterAll<T>(s: seq<T>, p: T -> bool)
    requires forall i :: 0 <= i < |s| ==> p(s[i])
    ensures Filter(s, p) == s
    decreases |s|
  {
    if |s| > 0 {
      FilterAll(s[1..], p);
    }
  }

  /** A filter that keeps nothing gives the empty list. */
  lemma {:induction false} FilterNone<T>(s: seq<T>, p: T -> bool)
    requires forall i :: 0 <= i < |s| ==> !p(s[i])
    ensures Filter(s, p) == []
    decreases |s|
  {
    if |s| > 0 {
      FilterNone(s[1..], p);
    }
  }

  /** A filter that keeps exactly the element at `k` gives that element alone. */
  lemma {:induction false} FilterSingle<T>(s: seq<T>, p: T -> bool, k: nat)
    requires k < |s| && p(s[k])
    requires forall i :: 0 <= i < |s| && i != k ==> !p(s[i])
    ensures Filter(s, p) == [s[k]]
    decreases |s|
  {
    if k == 0 {
      FilterNone(s[1..], p);
    } else {
      FilterSingle(s[1..], p, k - 1);
    }
  }

  /** `s.slice(0, n)`. */
  function Take<T>(s: seq<T>, n: nat): (r: seq<T>)
    ensures |r| == if |s| < n then |s| else n
    ensures |s| <= n ==> r == s
    ensures r == s[..|r|]
  {
    if |s| <= n then s else s[..n]
  }

  // ----- newest first ----------------------------------------------------

  predicate SortedDesc<T>(s: seq<T>, key: T -> int) {
    forall i, j :: 0 <= i < j < |s| ==> key(s[i]) >= key(s[j])
  }

  /** Inserts `x` before the first element whose key is not larger than its own. */
  function InsertDesc<T(==)>(x: T, s: seq<T>, key: T -> int): (r: seq<T>)
    requires SortedDesc(s, key)
    ensures |r| == |s| + 1
    ensures SortedDesc(r, key)
    ensures x in r && forall i :: 0 <= i < |s| ==> s[i] in r
    ensures forall i :: 0 <= i < |r| ==> r[i] == x || r[i] in s
    ensures r[0] == x || (|s| > 0 && r[0] == s[0])
    decreases |s|
  {
    if |s| == 0 || key(s[0]) <= key(x) then
      SortedCons(x, s, key);
      [x] + s
    else
      SortedTail(s, key);
      var rest := InsertDesc(x, s[1..], key);
      SortedCons(s[0], rest, key);
      assert forall i :: 1 <= i < |s| ==> s[i] == s[1..][i - 1];
      [s[0]] + rest
  }

  /** The tail of a sorted list is sorted, and its head is no newer than the first. */
  lemma SortedTail<T>(s: seq<T>, key: T -> int)
    requires |s| > 0 && SortedDesc(s, key)
    ensures SortedDesc(s[1..], key)
    ensures |s| > 1 ==> key(s[0]) >= key(s[1])
  {
    assert forall i :: 0 <= i < |s| - 1 ==> s[1..][i] == s[i + 1];
  }

  /** A head no newer than the first of a sorted list keeps it sorted. */
  lemma SortedCons<T>(h: T, s: seq<T>, key: T -> int)
    requires SortedDesc(s, key) && (|s| > 0 ==> key(h) >= key(s[0]))
    ensures SortedDesc([h] + s, key)
  {
    var r := [h] + s;
    forall i, j | 0 <= i < j < |r| ensures key(r[i]) >= key(r[j]) {
      assert r[j] == s[j - 1];
      if i > 0 {
        assert r[i] == s[i - 1];
      }
    }
  }

  /** The rows ordered by descending `key` (created_at), as the backend returns them. */
  function SortNewest<T(==)>(s: seq<T>, key: T -> int): (r: seq<T>)
    ensures |r| == |s|
    ensures SortedDesc(r, key)
    ensures forall i :: 0 <= i < |r| ==> r[i] in s
    ensures forall i :: 0 <= i < |s| ==> s[i] in r
    decreases |s|
  {
    if |s| == 0 then []
    else
      assert forall i :: 1 <= i < |s| ==> s[i] == s[1..][i - 1];
      InsertDesc(s[0], SortNewest(s[1..], key), key)
  }

  /** Inserting adds exactly one occurrence of the element. */
  lemma {:induction false} InsertDescPermutes<T>(x: T, s: seq<T>, key: T -> int)
    requires SortedDesc(s, key)
    ensures multiset(InsertDesc(x, s, key)) == multiset(s) + multiset{x}
    decreases |s|
  {
    if |s| > 0 && key(s[0]) > key(x) {
      SortedTail(s, key);
      InsertDescPermutes(x, s[1..], key);
      MultisetCons(s);
    }
  }

  /** Ordering is a permutation: every row keeps its number of occurrences. */
  lemma {:induction false} SortNewestPermutes<T>(s: seq<T>, key: T -> int)
    ensures multiset(SortNewest(s, key)) == multiset(s)
    decreases |s|
  {
    if |s| > 0 {
      var rest := SortNewest(s[1..], key);
      SortNewestPermutes(s[1..], key);
      InsertDescPermutes(s[0], rest, key);
      assert SortNewest(s, key) == InsertDesc(s[0], rest, key);
      MultisetCons(s);
    }
  }

  lemma MultisetCons<T>(s: seq<T>)
    requires |s| > 0
    ensures multiset(s) == multiset(s[1..]) + multiset{s[0]}
  {
    assert s == [s[0]] + s[1..];
  }

  /** The `n` newest rows: every row of `s` is among them or no newer than any of them. */
  lemma TopOrOlder<T>(s: seq<T>, key: T -> int, n: nat, x: T)
    requires x in s
    ensures var top := Take(SortNewest(s, key), n);
            x in top || forall j :: 0 <= j < |top| ==> key(top[j]) >= key(x)
    ensures |Take(SortNewest(s, key), n)| < n ==> x in Take(SortNewest(s, key), n)
  {
    var sorted := SortNewest(s, key);
    var top := Take(sorted, n);
    var m :| 0 <= m < |sorted| && sorted[m] == x;
    if m < |top| {
      assert top[m] == x;
    }
  }

  lemma PrefixSubmultiset<T>(s: seq<T>, k: nat)
    requires k <= |s|
    ensures multiset(s[..k]) <= multiset(s)
  {
    assert s == s[..k] + s[k..];
  }

  /** The `n` newest rows are rows of `s`, each taken at most as often as it occurs. */
  lemma TopIsSubmultiset<T>(s: seq<T>, key: T -> int, n: nat)
    ensures multiset(Take(SortNewest(s, key), n)) <= multiset(s)
  {
    var sorted := SortNewest(s, key);
    SortNewestPermutes(s, key);
    PrefixSubmultiset(sorted, |Take(sorted, n)|);
  }

  /** `.order(key, { ascending: false }).limit(n)`: the `n` newest rows, newest first. */
  function Newest<T(==)>(s: seq<T>, key: T -> int, n: nat): (top: seq<T>)
    ensures |top| == if |s| < n then |s| else n
    ensures multiset(top) <= multiset(s)
    ensures SortedDesc(top, key)
    ensures forall i :: 0 <= i < |top| ==> top[i] in s
  {
    var sorted := SortNewest(s, key);
    TopIsSubmultiset(s, key, n);
    PrefixSorted(sorted, key, |Take(sorted, n)|);
    Take(sorted, n)
  }

  lemma PrefixSorted<T>(s: seq<T>, key: T -> int, k: nat)
    requires k <= |s| && SortedDesc(s, key)
    ensures SortedDesc(s[..k], key)
  {
    assert forall i :: 0 <= i < k ==> s[..k][i] == s[i];
  }

  // ----- element-wise updates -------------------------------------------

  /** `s.map(f)`. */
  function Map<T, U>(s: seq<T>, f: T -> U): (r: seq<U>)
    ensures |r| == |s|
    ensures forall i :: 0 <= i < |s| ==> r[i] == f(s[i])
    decreases |s|
  {
    if |s| == 0 then [] else [f(s[0])] + Map(s[1..], f)
  }

  /** Mapping a concatenation maps each part. */
  lemma {:induction false} MapConcat<T, U>(a: seq<T>, b: seq<T>, f: T -> U)
    ensures Map(a + b, f) == Map(a, f) + Map(b, f)
    decreases |a|
  {
    if |a| == 0 {
      assert a + b == b;
    } else {
      assert (a + b)[1..] == a[1..] + b;
      MapConcat(a[1..], b, f);
    }
  }

  /** Taking out the element at `k` takes one occurrence of it out of the multiset. */
  lemma RemoveAt<T>(t: seq<T>, k: nat)
    requires k < |t|
    ensures multiset(t) == multiset(t[..k] + t[k + 1..]) + multiset{t[k]}
  {
    assert t == t[..k] + [t[k]] + t[k + 1..];
  }

  lemma MultisetCancel<T>(a: multiset<T>, b: multiset<T>, x: T)
    requires a + multiset{x} == b + multiset{x}
    ensures a == b
  {
    forall y ensures a[y] == b[y] {
      assert (a + multiset{x})[y] == a[y] + multiset{x}[y];
      assert (b + multiset{x})[y] == b[y] + multiset{x}[y];
    }
  }

  /** The multiset of images of a concatenation is the sum of the two parts' images. */
  lemma MapConcatMultiset<T, U>(a: seq<T>, b: seq<T>, f: T -> U)
    ensures multiset(Map(a + b, f)) == multiset(Map(a, f)) + multiset(Map(b, f))
  {
    MapConcat(a, b, f);
  }

  /** Mapping after taking out the element at `k` takes its image out. */
  lemma MapRemoveAt<T, U>(t: seq<T>, k: nat, f: T -> U)
    requires k < |t|
    ensures multiset(Map(t, f)) == multiset(Map(t[..k] + t[k + 1..], f)) + multiset{f(t[k])}
  {
    var left, right := t[..k], t[k + 1..];
    assert t == left + ([t[k]] + right);
    MapConcatMultiset(left, [t[k]] + right, f);
    MapConcatMultiset([t[k]], right, f);
    MapConcatMultiset(left, right, f);
    assert Map([t[k]], f) == [f(t[k])];
  }

  /** Mapping two orderings of the same rows gives two orderings of the same results. */
  lemma {:induction false} MapMultiset<T, U>(s: seq<T>, t: seq<T>, f: T -> U)
    requires multiset(s) == multiset(t)
    ensures multiset(Map(s, f)) == multiset(Map(t, f))
    decreases |s|
  {
    if |s| == 0 {
      assert |t| == |multiset(t)| == 0;
    } else {
      var x := s[0];
      assert x in multiset(t);
      var k :| 0 <= k < |t| && t[k] == x;
      var rest := t[..k] + t[k + 1..];
      RemoveAt(t, k);
      MultisetCons(s);
      MultisetCancel(multiset(s[1..]), multiset(rest), x);
      MapMultiset(s[1..], rest, f);
      MapRemoveAt(t, k, f);
      assert Map(s, f) == [f(x)] + Map(s[1..], f);
    }
  }

  /** The images of the `n` newest rows are images of rows of `s`, none taken too often. */
  lemma NewestMapped<T, U>(s: seq<T>, key: T -> int, n: nat, f: T -> U)
    ensures multiset(Map(Newest(s, key, n), f)) <= multiset(Map(s, f))
  {
    var sorted := SortNewest(s, key);
    var top := Newest(s, key, n);
    assert sorted == top + sorted[|top|..];
    MapConcat(top, sorted[|top|..], f);
    SortNewestPermutes(s, key);
    MapMultiset(sorted, s, f);
  }

  /** Mapping the `n` newest rows by a function that keeps the key keeps them newest first. */
  lemma NewestMappedSorted<T, U>(s: seq<T>, key: T -> int, n: nat, f: T -> U, keyU: U -> int)
    requires forall x :: keyU(f(x)) == key(x)
    ensures var r := Map(Newest(s, key, n), f);
            multiset(r) <= multiset(Map(s, f)) && SortedDesc(r, keyU)
  {
    NewestMapped(s, key, n, f);
    var top := Newest(s, key, n);
    var r := Map(top, f);
    forall i, j | 0 <= i < j < |r| ensures keyU(r[i]) >= keyU(r[j]) {
      assert r[i] == f(top[i]) && r[j] == f(top[j]);
    }
  }

  /** A row whose image is missing from the mapped `n` newest is no newer than any of
      them, and fewer than `n` mapped rows means every image is there. */
  lemma NewestMappedOrOlder<T, U>(s: seq<T>, key: T -> int, n: nat, f: T -> U, keyU: U -> int, x: T)
    requires forall y :: keyU(f(y)) == key(y)
    requires x in s
    ensures var r := Map(Newest(s, key, n), f);
            f(x) in r || forall j :: 0 <= j < |r| ==> keyU(r[j]) >= key(x)
    ensures var r := Map(Newest(s, key, n), f);
            |r| < n ==> f(x) in r
  {
    var top := Newest(s, key, n);
    TopOrOlder(s, key, n, x);
    var r := Map(top, f);
    if x in top {
      var m :| 0 <= m < |top| && top[m] == x;
      assert r[m] == f(x);
    }
  }

  /** Filtering commutes with an update the filter cannot see. */
  lemma {:induction false} FilterMap<T>(s: seq<T>, p: T -> bool, f: T -> T)
    requires forall x :: p(f(x)) == p(x)
    ensures Filter(Map(s, f), p) == Map(Filter(s, p), f)
    decreases |s|
  {
    if |s| > 0 {
      assert Map(s, f)[1..] == Map(s[1..], f);
      FilterMap(s[1..], p, f);
    }
  }

  /** An update that keeps every key keeps the sequence of keys. */
  lemma MapKeepsKeys<T, K>(s: seq<T>, f: T -> T, key: T -> K)
    requires forall x :: key(f(x)) == key(x)
    ensures Map(Map(s, f), key) == Map(s, key)
  {
    var a, b := Map(Map(s, f), key), Map(s, key);
    forall i | 0 <= i < |a| ensures a[i] == b[i] {
      assert Map(s, f)[i] == f(s[i]);
    }
  }

  /** An update that keeps every key keeps a sorted list sorted. */
  lemma MapSorted<T>(s: seq<T>, key: T -> int, f: T -> T)
    requires forall x :: key(f(x)) == key(x)
    requires SortedDesc(s, key)
    ensures SortedDesc(Map(s, f), key)
  {
  }

  /** Inserting the updated element into the updated list is updating after inserting. */
  lemma {:induction false} InsertMap<T>(x: T, s: seq<T>, key: T -> int, f: T -> T)
    requires forall y :: key(f(y)) == key(y)
    requires SortedDesc(s, key)
    ensures SortedDesc(Map(s, f), key)
    ensures InsertDesc(f(x), Map(s, f), key) == Map(InsertDesc(x, s, key), f)
    decreases |s|
  {
    MapSorted(s, key, f);
    var ms := Map(s, f);
    if |s| == 0 || key(s[0]) <= key(x) {
      MapCons(x, s, f);
    } else {
      SortedTail(s, key);
      MapCons(s[0], s[1..], f);
      assert s == [s[0]] + s[1..];
      InsertMap(x, s[1..], key, f);
      MapCons(s[0], InsertDesc(x, s[1..], key), f);
    }
  }

  lemma MapCons<T, U>(x: T, s: seq<T>, f: T -> U)
    ensures Map([x] + s, f) == [f(x)] + Map(s, f)
  {
    assert ([x] + s)[1..] == s;
  }

  /** Ordering newest first commutes with an update that keeps every key. */
  lemma {:induction false} SortMap<T>(s: seq<T>, key: T -> int, f: T -> T)
    requires forall y :: key(f(y)) == key(y)
    ensures SortNewest(Map(s, f), key) == Map(SortNewest(s, key), f)
    decreases |s|
  {
    if |s| > 0 {
      assert Map(s, f)[1..] == Map(s[1..], f);
      SortMap(s[1..], key, f);
      InsertMap(s[0], SortNewest(s[1..], key), key, f);
    }
  }
}

=== FILE: store.dfy ===
/** The backend tables as an immutable value: offers, applications,
    contracts, profiles and role rows, each a sequence of records keyed by
    `id`. Every backend call of a handler is replaced by a pure update of
    this value, and the backend's answer is an explicit `Reply` input. */
module Store {
  import opened Wrappers
  import opened Seqs
  import opened Constants

  type Id = string

  datatype Offer = Offer(
    id: Id,
    parentId: Id,
    matiere: string,
    niveau: string,
    description: string,
    adresse: string,
    frequence: string,
    budgetMin: int,
    budgetMax: int,
    statut: OfferStatus,
    createdAt: int)

  datatype Application = Application(
    id: Id,
    offerId: Id,
    repetiteurId: Id,
    message: string,
    statut: ApplicationStatus,
    createdAt: int)

  datatype Contract = Contract(
    id: Id,
    offerId: Id,
    parentId: Id,
    repetiteurId: Id,
    matiere: string,
    niveau: string,
    frequence: string,
    adresse: string,
    tarifConvenu: Option<int>,
    dateDebut: string,
    dateFin: Option<string>,
    statut: ContractStatus,
    createdAt: int)

  datatype Profile = Profile(
    id: Id,
    fullName: string,
    phone: string,
    avatarUrl: Option<string>,
    isActive: bool,
    documentsValides: Option<bool>,
    createdAt: int,
    tutor: TutorColumns)

  /** The tutor columns of a `profiles` row; `None` is SQL null. */
  datatype TutorColumns = TutorColumns(
    bio: Option<string>,
    matieres: Option<seq<string>>,
    niveaux: Option<seq<string>>,
    disponibilites: Option<seq<string>>,
    localisation: Option<string>,
    tarifHoraire: Option<int>,
    experienceAnnees: Option<int>,
    profilComplet: bool)

  /** A `user_roles` row; the role is kept as the stored text. */
  datatype RoleRow = RoleRow(userId: Id, role: string)

  datatype Db = Db(
    offers: seq<Offer>,
    applications: seq<Application>,
    contracts: seq<Contract>,
    profiles: seq<Profile>,
    roles: seq<RoleRow>)

  /** The backend's answer to one write: success, or an error with its SQL state code. */
  datatype Reply = Done | Rejected(code: string)

  /** Why a handler did not complete. `Ignored` is the silent early `return`. */
  datatype Error = Ignored | NotFound | AlreadyApplied | Invalid | StoreFailure(code: string)

  /** The SQL state of a unique-constraint violation. */
  const UniqueViolation: string := "23505"

  // ----- keys and invariants ------------------------------------------------

  function OfferKey(o: Offer): Id { o.id }
  function AppId(a: Application): Id { a.id }
  function ContractKey(c: Contract): Id { c.id }
  function ProfileKey(p: Profile): Id { p.id }
  function OfferOf(a: Application): Id { a.offerId }
  function ContractOfferOf(c: Contract): Id { c.offerId }

  /** The `created_at` of each table, the key of every newest-first listing. */
  function OfferCreatedAt(o: Offer): int { o.createdAt }
  function AppCreatedAt(a: Application): int { a.createdAt }
  function ContractCreatedAt(c: Contract): int { c.createdAt }
  function ProfileCreatedAt(p: Profile): int { p.createdAt }

  function OfferStatusIs(s: OfferStatus): Offer -> bool {
    (o: Offer) => o.statut == s
  }

  function AppStatusIs(s: ApplicationStatus): Application -> bool {
    (a: Application) => a.statut == s
  }

  /** The applications with each of the three statuses together make up the list. */
  lemma AppStatusesPartition(apps: seq<Application>)
    ensures |Filter(apps, AppStatusIs(EnAttente))| + |Filter(apps, AppStatusIs(Acceptee))|
            + |Filter(apps, AppStatusIs(Refusee))| == |apps|
  {
    FilterSplit3(apps, AppStatusIs(EnAttente), AppStatusIs(Acceptee), AppStatusIs(Refusee));
  }

  /** The applications `.eq('offer_id', offerId)` selects. */
  function ForOffer(offerId: Id): Application -> bool {
    (a: Application) => a.offerId == offerId
  }

  /** No two applications share an (offer, tutor) pair: the backend's unique index. */
  predicate UniquePairs(apps: seq<Application>) {
    forall i, j :: 0 <= i < j < |apps| ==>
      !(apps[i].offerId == apps[j].offerId && apps[i].repetiteurId == apps[j].repetiteurId)
  }

  /** Some application of `tutor` for `offerId` exists. */
  predicate HasApplied(db: Db, offerId: Id, tutor: Id) {
    exists i :: 0 <= i < |db.applications| &&
      db.applications[i].offerId == offerId && db.applications[i].repetiteurId == tutor
  }

  predicate UniqueProfileIds(profiles: seq<Profile>) {
    forall i, j :: 0 <= i < j < |profiles| ==> profiles[i].id != profiles[j].id
  }

  predicate UniqueOfferIds(offers: seq<Offer>) {
    forall i, j :: 0 <= i < j < |offers| ==> offers[i].id != offers[j].id
  }

  // ----- reading ------------------------------------------------------------

  /** The profile with this id, when there is one. */
  function FindProfile(profiles: seq<Profile>, id: Id): (r: Option<Profile>)
    ensures r.Some? ==> r.value in profiles && r.value.id == id
    ensures r.None? ==> forall i :: 0 <= i < |profiles| ==> profiles[i].id != id
    decreases |profiles|
  {
    if |profiles| == 0 then None
    else if profiles[0].id == id then Some(profiles[0])
    else FindProfile(profiles[1..], id)
  }

  /** The person shown on a card: a profile's public columns. */
  datatype PersonSummary = PersonSummary(id: Id, fullName: string, avatarUrl: Option<string>, phone: string)

  /** The profile of `id` as `profilesMap.get(id) || placeholder`: a missing profile is
      replaced by one carrying the id, the placeholder name, no avatar and no phone. */
  function SummaryOr(profiles: seq<Profile>, id: Id, placeholder: string): (t: PersonSummary)
    ensures t.id == id
    ensures FindProfile(profiles, id).None? ==> t == PersonSummary(id, placeholder, None, "")
    ensures FindProfile(profiles, id).Some? ==>
              var p := FindProfile(profiles, id).value;
              t == PersonSummary(id, p.fullName, p.avatarUrl, p.phone)
  {
    match FindProfile(profiles, id)
    case Some(p) => PersonSummary(p.id, p.fullName, p.avatarUrl, p.phone)
    case None => PersonSummary(id, placeholder, None, "")
  }

  function RoleUser(r: RoleRow): Id { r.userId }

  function WithRoleName(role: string): RoleRow -> RoleRow {
    (r: RoleRow) => r.(role := role)
  }

  function WithActive(active: bool): Profile -> Profile {
    (p: Profile) => p.(isActive := active)
  }

  /** `update({ is_active }).eq('id', userId)` on `profiles`: only that user's flag changes. */
  function SetActive(db: Db, userId: Id, active: bool, reply: Reply): (r: Result<Db, Error>)
    ensures reply.Rejected? ==> r == Failure(StoreFailure(reply.code))
    ensures reply == Done ==> r.Success?
    ensures r.Success? ==> r.value.(profiles := db.profiles) == db && |r.value.profiles| == |db.profiles|
    ensures r.Success? ==> forall i :: 0 <= i < |db.profiles| ==>
              if db.profiles[i].id == userId then r.value.profiles[i] == db.profiles[i].(isActive := active)
              else r.value.profiles[i] == db.profiles[i]
  {
    if reply.Rejected? then Failure(StoreFailure(reply.code))
    else Success(db.(profiles := UpdateWhere(db.profiles, ProfileKey, userId, WithActive(active))))
  }

  /** The offer with this id, when there is one. */
  function FindOffer(offers: seq<Offer>, id: Id): (r: Option<Offer>)
    ensures r.Some? ==> r.value in offers && r.value.id == id
    ensures r.None? ==> forall i :: 0 <= i < |offers| ==> offers[i].id != id
    decreases |offers|
  {
    if |offers| == 0 then None
    else if offers[0].id == id then Some(offers[0])
    else FindOffer(offers[1..], id)
  }

  /** Row `i` is the user's first role row. */
  predicate IsFirstRow(roles: seq<RoleRow>, userId: Id, i: int) {
    0 <= i < |roles| && roles[i].userId == userId
    && forall k :: 0 <= k < i ==> roles[k].userId != userId
  }

  /** The first role row of a user, as `Array.prototype.find` returns it. */
  function FirstRoleRow(roles: seq<RoleRow>, userId: Id): (r: Option<RoleRow>)
    ensures r.Some? ==> r.value in roles && r.value.userId == userId
    ensures r.None? <==> forall i :: 0 <= i < |roles| ==> roles[i].userId != userId
    decreases |roles|
  {
    if |roles| == 0 then None
    else if roles[0].userId == userId then Some(roles[0])
    else FirstRoleRow(roles[1..], userId)
  }

  /** The first matching row is the one at the first matching index. */
  lemma {:induction false} FirstRoleRowIsFirst(roles: seq<RoleRow>, userId: Id, i: int)
    requires IsFirstRow(roles, userId, i)
    ensures FirstRoleRow(roles, userId) == Some(roles[i])
    decreases |roles|
  {
    if i > 0 {
      assert IsFirstRow(roles[1..], userId, i - 1) by {
        assert forall k :: 0 <= k < i - 1 ==> roles[1..][k] == roles[k + 1];
      }
      FirstRoleRowIsFirst(roles[1..], userId, i - 1);
    }
  }

  /** A user with some role row has a first one. */
  lemma {:induction false} FirstRowExists(roles: seq<RoleRow>, userId: Id, from: nat, j: nat) returns (i: nat)
    requires from <= j < |roles| && roles[j].userId == userId
    requires forall k :: 0 <= k < from ==> roles[k].userId != userId
    ensures IsFirstRow(roles, userId, i)
    decreases j - from
  {
    if roles[from].userId == userId {
      i := from;
    } else {
      i := FirstRowExists(roles, userId, from + 1, j);
    }
  }

  /** The role shown for a user: the first role row's role, or 'client' when there is
      no row (or its role is empty). */
  function DisplayedRole(roles: seq<RoleRow>, userId: Id): (role: string)
    ensures role != ""
    ensures (forall i :: 0 <= i < |roles| ==> roles[i].userId != userId) ==> role == "client"
    ensures forall i :: IsFirstRow(roles, userId, i) ==>
              role == (if roles[i].role == "" then "client" else roles[i].role)
  {
    var row := FirstRoleRow(roles, userId);
    forall i | IsFirstRow(roles, userId, i) ensures row == Some(roles[i]) {
      FirstRoleRowIsFirst(roles, userId, i);
    }
    if row.Some? && row.value.role != "" then row.value.role else "client"
  }

  // ----- writing ------------------------------------------------------------

  /** The row update of `update(..).eq(key, id)`: `change` on a selected row, identity otherwise. */
  function Updater<T>(key: T -> Id, id: Id, change: T -> T): T -> T {
    (x: T) => if key(x) == id then change(x) else x
  }

  /** Applies `change` to every row the filter `key == id` selects, as `update(..).eq(key, id)`. */
  function UpdateWhere<T>(rows: seq<T>, key: T -> Id, id: Id, change: T -> T): (r: seq<T>)
    ensures |r| == |rows|
    ensures forall i :: 0 <= i < |rows| && key(rows[i]) == id ==> r[i] == change(rows[i])
    ensures forall i :: 0 <= i < |rows| && key(rows[i]) != id ==> r[i] == rows[i]
  {
    Map(rows, Updater(key, id, change))
  }

  /** The rows a `delete().eq(key, id)` keeps. */
  function KeyIsNot<T>(key: T -> Id, id: Id): T -> bool {
    (x: T) => key(x) != id
  }

  /** Removes every row the filter `key == id` selects, as `delete().eq(key, id)`. */
  function DeleteWhere<T(==)>(rows: seq<T>, key: T -> Id, id: Id): (r: seq<T>)
    ensures forall i :: 0 <= i < |r| ==> key(r[i]) != id && r[i] in rows
    ensures forall i :: 0 <= i < |rows| && key(rows[i]) != id ==> rows[i] in r
  {
    Filter(rows, KeyIsNot(key, id))
  }
}

=== FILE: text.dfy ===
/** String helpers standing in for the JavaScript string methods the source
    uses (`startsWith`, `includes`, `split`, `replace`, `toLowerCase`, ...).
    Strings are sequences of characters; case mapping is ASCII only. */
module Text {
  import opened Wrappers

  predicate IsDigit(c: char) {
    '0' <= c <= '9'
  }

  predicate AllDigits(s: string) {
    forall i :: 0 <= i < |s| ==> IsDigit(s[i])
  }

  predicate StartsWith(s: string, prefix: string) {
    |prefix| <= |s| && s[..|prefix|] == prefix
  }

  predicate EndsWith(s: string, suffix: string) {
    |suffix| <= |s| && s[|s| - |suffix|..] == suffix
  }

  /** `hay.includes(needle)`: some suffix of `hay` starts with `needle`. */
  predicate Includes(hay: string, needle: string)
    decreases |hay|
  {
    StartsWith(hay, needle) || (|hay| > 0 && Includes(hay[1..], needle))
  }

  /** `hay.indexOf(needle)`, with `None` for -1. */
  function IndexOf(hay: string, needle: string): (r: Option<nat>)
    ensures r.Some? ==> r.value + |needle| <= |hay| && hay[r.value..r.value + |needle|] == needle
    ensures r.Some? ==> forall k :: 0 <= k < r.value ==> !StartsWith(hay[k..], needle)
    ensures r.None? ==> forall k :: 0 <= k <= |hay| ==> !StartsWith(hay[k..], needle)
    decreases |hay|
  {
    if StartsWith(hay, needle) then Some(0)
    else if |hay| == 0 then None
    else
      match IndexOf(hay[1..], needle)
      case Some(i) =>
        forall k | 1 <= k <= i ensures !StartsWith(hay[k..], needle) {
          assert hay[k..] == hay[1..][k - 1..];
        }
        assert hay[i + 1..i + 1 + |needle|] == hay[1..][i..i + |needle|];
        Some(i + 1)
      case None =>
        forall k | 1 <= k <= |hay| ensures !StartsWith(hay[k..], needle) {
          assert hay[k..] == hay[1..][k - 1..];
        }
        None
  }

  /** A string starting at some position of `hay` is included in `hay`. */
  lemma {:induction false} IncludesAt(hay: string, needle: string, k: nat)
    requires k <= |hay| && StartsWith(hay[k..], needle)
    ensures Includes(hay, needle)
    decreases k
  {
    if k == 0 {
      assert hay[k..] == hay;
    } else {
      assert hay[1..][k - 1..] == hay[k..];
      IncludesAt(hay[1..], needle, k - 1);
    }
  }

  /** `includes` and `indexOf` agree: a string is found iff it has a first position. */
  lemma {:induction false} IncludesIffIndexOf(hay: string, needle: string)
    ensures Includes(hay, needle) <==> IndexOf(hay, needle).Some?
    decreases |hay|
  {
    if !StartsWith(hay, needle) && |hay| > 0 {
      IncludesIffIndexOf(hay[1..], needle);
    }
  }

  // ----- ASCII case mapping -------------------------------------------------

  function LowerChar(c: char): char {
    if 'A' <= c <= 'Z' then (c as int - 'A' as int + 'a' as int) as char else c
  }

  function UpperChar(c: char): char {
    if 'a' <= c <= 'z' then (c as int - 'a' as int + 'A' as int) as char else c
  }

  function Lower(s: string): (r: string)
    ensures |r| == |s|
  {
    seq(|s|, i requires 0 <= i < |s| => LowerChar(s[i]))
  }

  function Upper(s: string): (r: string)
    ensures |r| == |s|
  {
    seq(|s|, i requires 0 <= i < |s| => UpperChar(s[i]))
  }

  /** Lower-casing is idempotent, so searching with an already lower-cased term is the same search. */
  lemma LowerIdempotent(s: string)
    ensures Lower(Lower(s)) == Lower(s)
  {
    assert forall i :: 0 <= i < |s| ==> LowerChar(LowerChar(s[i])) == LowerChar(s[i]);
  }

  /** `hay.toLowerCase().includes(needle.toLowerCase())`: the case-insensitive search of the list pages. */
  predicate ContainsFolded(hay: string, needle: string) {
    Includes(Lower(hay), Lower(needle))
  }

  /** An empty search term is found in every text. */
  lemma EmptyTermMatches(hay: string)
    ensures ContainsFolded(hay, "")
  {
    assert Lower("") == "";
    assert StartsWith(Lower(hay), "");
  }

  // ----- decimal digits ------------------------------------------------------

  function DigitChar(d: nat): (c: char)
    requires d < 10
    ensures IsDigit(c)
  {
    ('0' as int + d) as char
  }

  function DigitValue(c: char): nat
    requires IsDigit(c)
  {
    c as int - '0' as int
  }

  /** Value of a digit string read left to right; the empty string reads as 0. */
  function DigitsValue(s: string): nat
    requires AllDigits(s)
    decreases |s|
  {
    if |s| == 0 then 0 else DigitsValue(s[..|s| - 1]) * 10 + DigitValue(s[|s| - 1])
  }

  /** `String(n)` for a non-negative integer, such as `Date.now()`. */
  function NatToString(n: nat): (r: string)
    ensures 1 <= |r| && AllDigits(r)
    decreases n
  {
    if n < 10 then [DigitChar(n)] else NatToString(n / 10) + [DigitChar(n % 10)]
  }

  lemma {:induction false} NatToStringValue(n: nat)
    ensures DigitsValue(NatToString(n)) == n
    decreases n
  {
    if n >= 10 {
      NatToStringValue(n / 10);
      var s := NatToString(n);
      assert s[..|s| - 1] == NatToString(n / 10);
    }
  }

  function Pow10(w: nat): (r: nat)
    ensures r >= 1
  {
    if w == 0 then 1 else 10 * Pow10(w - 1)
  }

  /** The last `w` decimal digits of `n`, zero-padded on the left to exactly `w` characters. */
  function FixedDigits(n: nat, w: nat): (r: string)
    ensures |r| == w && AllDigits(r)
  {
    if w == 0 then "" else FixedDigits(n / 10, w - 1) + [DigitChar(n % 10)]
  }

  /** A number is its quotient by ten, shifted back, plus its last digit. */
  lemma SplitLastDigit(n: nat, p: nat)
    requires n < 10 * p
    ensures n == n / 10 * 10 + n % 10 && n % 10 < 10 && n / 10 < p
  {
  }

  /** Appending the digit `d` to the number `a` is undone by division by ten. */
  lemma AppendDigit(a: nat, d: nat, p: nat)
    requires d < 10 && a < p
    ensures (a * 10 + d) / 10 == a && (a * 10 + d) % 10 == d
    ensures a * 10 + d < 10 * p
  {
    assert a * 10 + d < (a + 1) * 10 <= p * 10;
  }

  lemma {:induction false} FixedDigitsValue(n: nat, w: nat)
    requires n < Pow10(w)
    ensures DigitsValue(FixedDigits(n, w)) == n
  {
    if w > 0 {
      SplitLastDigit(n, Pow10(w - 1));
      FixedDigitsValue(n / 10, w - 1);
      var s := FixedDigits(n, w);
      assert s[..|s| - 1] == FixedDigits(n / 10, w - 1);
    }
  }

  /** The length of the run of digits at the start of `s`. */
  function LeadingDigits(s: string): (k: nat)
    ensures k <= |s| && AllDigits(s[..k])
    ensures k < |s| ==> !IsDigit(s[k])
    ensures k > 0 ==> IsDigit(s[0])
    decreases |s|
  {
    if |s| > 0 && IsDigit(s[0]) then
      var k := 1 + LeadingDigits(s[1..]);
      assert s[..k] == [s[0]] + s[1..][..k - 1];
      k
    else 0
  }

  lemma {:induction false} LeadingDigitsOfDigits(d: string, rest: string)
    requires AllDigits(d)
    requires |rest| > 0 && !IsDigit(rest[0])
    ensures LeadingDigits(d + rest) == |d|
    decreases |d|
  {
    if |d| > 0 {
      assert (d + rest)[1..] == d[1..] + rest;
      LeadingDigitsOfDigits(d[1..], rest);
    } else {
      assert d + rest == rest;
    }
  }

  // ----- character filters (the `/g` replacements) --------------------------

  /** `s.replace(/\D/g, '')`: only the digits, in order. */
  function KeepDigits(s: string): (r: string)
    ensures AllDigits(r) && |r| <= |s|
    ensures AllDigits(s) ==> r == s
    decreases |s|
  {
    if |s| == 0 then ""
    else if IsDigit(s[0]) then [s[0]] + KeepDigits(s[1..])
    else KeepDigits(s[1..])
  }

  /** `s.replace(/c/g, '')` for a single character `c`. */
  function RemoveChar(s: string, c: char): (r: string)
    ensures c !in r && |r| <= |s|
    ensures c !in s ==> r == s
    decreases |s|
  {
    if |s| == 0 then ""
    else if s[0] == c then RemoveChar(s[1..], c)
    else [s[0]] + RemoveChar(s[1..], c)
  }

  lemma {:induction false} RemoveCharAppend(a: string, b: string, c: char)
    ensures RemoveChar(a + b, c) == RemoveChar(a, c) + RemoveChar(b, c)
    decreases |a|
  {
    if |a| > 0 {
      var ab := a + b;
      assert ab[0] == a[0] && ab[1..] == a[1..] + b;
      RemoveCharAppend(a[1..], b, c);
      var tail := RemoveChar(a[1..], c) + RemoveChar(b, c);
      assert RemoveChar(ab, c) == if a[0] == c then tail else [a[0]] + tail;
      assert RemoveChar(a, c) == if a[0] == c then RemoveChar(a[1..], c) else [a[0]] + RemoveChar(a[1..], c);
    } else {
      assert a + b == b;
    }
  }

  // ----- split / join ------------------------------------------------------

  /** `s.split(sep)` for a one-character separator: never empty, no part holds `sep`. */
  function Split(s: string, sep: char): (r: seq<string>)
    ensures |r| >= 1
    ensures forall i :: 0 <= i < |r| ==> sep !in r[i]
    decreases |s|
  {
    if |s| == 0 then [""]
    else
      var rest := Split(s[1..], sep);
      if s[0] == sep then [""] + rest
      else [[s[0]] + rest[0]] + rest[1..]
  }

  /** `parts.join(sep)`. */
  function Join(parts: seq<string>, sep: char): string
    decreases |parts|
  {
    if |parts| == 0 then ""
    else if |parts| == 1 then parts[0]
    else parts[0] + [sep] + Join(parts[1..], sep)
  }

  /** Splitting then joining with the same separator gives back the string. */
  lemma {:induction false} JoinSplit(s: string, sep: char)
    ensures Join(Split(s, sep), sep) == s
    decreases |s|
  {
    if |s| > 0 {
      var rest := Split(s[1..], sep);
      JoinSplit(s[1..], sep);
      if s[0] == sep {
        assert Split(s, sep) == [""] + rest;
        assert s == [sep] + s[1..];
      } else {
        var r := Split(s, sep);
        assert r[1..] == rest[1..];
        if |rest| == 1 {
          assert s == [s[0]] + rest[0];
        } else {
          assert Join(rest, sep) == rest[0] + [sep] + Join(rest[1..], sep);
          assert s == [s[0]] + s[1..];
        }
      }
    }
  }

  function Last<T>(s: seq<T>): T
    requires |s| > 0
  {
    s[|s| - 1]
  }

  /** `name.split('.').pop()`: the text after the last '.', or the whole name when it has none. */
  function Extension(name: string): (ext: string)
    ensures '.' !in ext
  {
    Last(Split(name, '.'))
  }

  /** The last part of a split is a suffix of the string, preceded by the separator when shorter. */
  lemma {:induction false} SplitLastIsSuffix(s: string, sep: char)
    ensures EndsWith(s, Last(Split(s, sep)))
    ensures |Last(Split(s, sep))| < |s| ==> s[|s| - |Last(Split(s, sep))| - 1] == sep
    decreases |s|
  {
    if |s| > 0 {
      var tail := s[1..];
      SplitLastIsSuffix(tail, sep);
      if s[0] == sep || |Split(tail, sep)| > 1 {
        SplitLastOfTail(s, sep);
        var e := Last(Split(tail, sep));
        if s[0] != sep {
          SplitManyHasSep(tail, sep);
          SuffixWithoutSepIsShorter(tail, e, sep);
        }
        SuffixOfTail(s, e);
      } else {
        SplitLastIsWhole(s, sep);
      }
    }
  }

  /** When the first character splits or the rest has several parts, the last part is the
      rest's last part. */
  lemma SplitLastOfTail(s: string, sep: char)
    requires |s| > 0 && (s[0] == sep || |Split(s[1..], sep)| > 1)
    ensures Last(Split(s, sep)) == Last(Split(s[1..], sep))
  {
  }

  /** Otherwise the whole string is its one part. */
  lemma SplitLastIsWhole(s: string, sep: char)
    requires |s| > 0 && s[0] != sep && |Split(s[1..], sep)| == 1
    ensures Last(Split(s, sep)) == s
  {
    SplitOneIsWhole(s[1..], sep);
  }

  /** A suffix without the separator of a string holding it is strictly shorter. */
  lemma SuffixWithoutSepIsShorter(t: string, e: string, sep: char)
    requires EndsWith(t, e) && sep in t && sep !in e
    ensures |e| < |t|
  {
    var n := |t| - |e|;
    forall i | n <= i < |t| ensures t[i] != sep {
      assert t[i] == t[n..][i - n];
    }
    var k :| 0 <= k < |t| && t[k] == sep;
    assert k < n;
  }

  /** A suffix of the tail is a suffix of the whole, and the character before it is the
      same, or the first character when the suffix is the whole tail. */
  lemma SuffixOfTail(s: string, e: string)
    requires |s| > 0 && EndsWith(s[1..], e)
    ensures EndsWith(s, e) && |e| < |s|
    ensures |e| < |s| - 1 ==> s[|s| - |e| - 1] == s[1..][|s| - 1 - |e| - 1]
    ensures |e| == |s| - 1 ==> s[|s| - |e| - 1] == s[0]
  {
    assert s[|s| - |e|..] == s[1..][|s| - 1 - |e|..];
  }

  lemma SplitManyHasSep(s: string, sep: char)
    requires |Split(s, sep)| > 1
    ensures sep in s
  {
    var r := Split(s, sep);
    JoinSplit(s, sep);
    assert s == r[0] + [sep] + Join(r[1..], sep);
    assert s[|r[0]|] == sep;
  }

  lemma SplitOneIsWhole(s: string, sep: char)
    requires |Split(s, sep)| == 1
    ensures Split(s, sep)[0] == s
  {
    JoinSplit(s, sep);
  }

  /** The extension is a suffix of the name; when shorter than the name a '.' precedes it. */
  lemma ExtensionIsSuffix(name: string)
    ensures EndsWith(name, Extension(name))
    ensures |Extension(name)| < |name| ==> name[|name| - |Extension(name)| - 1] == '.'
    ensures '.' !in name ==> Extension(name) == name
  {
    SplitLastIsSuffix(name, '.');
  }

  /** `s.split(sep)[1]` for a multi-character separator: the text between the first
      occurrence of `sep` and the next one (or the end); `None` when `sep` is absent. */
  function SecondPart(s: string, sep: string): (r: Option<string>)
    requires |sep| > 0
    ensures r.Some? <==> IndexOf(s, sep).Some?
    ensures r.Some? ==> !Includes(r.value, sep)
  {
    match IndexOf(s, sep)
    case None => None
    case Some(i) =>
      var rest := s[i + |sep|..];
      match IndexOf(rest, sep)
      case None =>
        IncludesIffIndexOf(rest, sep);
        Some(rest)
      case Some(j) =>
        BeforeFirstExcludes(rest, sep, j);
        Some(rest[..j])
  }

  /** A string that starts at no position is not included. */
  lemma {:induction false} NotIncluded(hay: string, needle: string)
    requires forall k :: 0 <= k <= |hay| ==> !StartsWith(hay[k..], needle)
    ensures !Includes(hay, needle)
    decreases |hay|
  {
    assert hay[0..] == hay;
    if |hay| > 0 {
      forall k | 0 <= k <= |hay[1..]| ensures !StartsWith(hay[1..][k..], needle) {
        assert hay[1..][k..] == hay[k + 1..];
      }
      NotIncluded(hay[1..], needle);
    }
  }

  /** The text before the first occurrence of `sep` does not hold `sep`. */
  lemma BeforeFirstExcludes(s: string, sep: string, j: nat)
    requires |sep| > 0 && IndexOf(s, sep) == Some(j)
    ensures !Includes(s[..j], sep)
  {
    var part := s[..j];
    forall k | 0 <= k <= |part| ensures !StartsWith(part[k..], sep) {
      if k + |sep| <= |part| {
        assert !StartsWith(s[k..], sep);
        assert part[k..][..|sep|] == s[k..][..|sep|];
      }
    }
    NotIncluded(part, sep);
  }
}

=== FILE: tutor_applications.dfy ===
/** The tutor's applications page: the tutor's applications newest first, each
    with its offer's subject and level (or a placeholder for a deleted offer),
    grouped into pending, accepted and refused sections. */
module TutorApplications {
  import opened Wrappers
  import opened Seqs
  import opened Constants
  import opened Store
  import TutorOfferDetails
  import TutorDashboard

  /** The offer columns the page loads: `select('id, matiere, niveau')`. */
  datatype OfferBrief = OfferBrief(id: Id, matiere: string, niveau: string)

  /** An application as the page holds it. */
  datatype ApplicationWithOffer = ApplicationWithOffer(
    id: Id, message: string, statut: ApplicationStatus, createdAt: int, offerId: Id, offer: OfferBrief)

  const DeletedOffer: string := "Offre supprimée"

  /** `offer || { id: offer_id, matiere: 'Offre supprimée', niveau: '' }` after the
      `.single()` load: the offer's columns when exactly one row carries the id, the
      placeholder when none does. */
  function OfferBriefOf(db: Db, offerId: Id): (b: OfferBrief)
    ensures b.id == offerId
    ensures (forall k :: 0 <= k < |db.offers| ==> db.offers[k].id != offerId) ==>
              b == OfferBrief(offerId, DeletedOffer, "")
    ensures forall k :: 0 <= k < |db.offers| && db.offers[k].id == offerId && UniqueOfferIds(db.offers) ==>
              b == OfferBrief(offerId, db.offers[k].matiere, db.offers[k].niveau)
  {
    forall k | 0 <= k < |db.offers| && db.offers[k].id == offerId && UniqueOfferIds(db.offers)
      ensures TutorOfferDetails.LoadOffer(db, offerId) == Success(db.offers[k])
    {
      TutorOfferDetails.LoadOfferAnyStatus(db, k);
    }
    match TutorOfferDetails.LoadOffer(db, offerId)
    case Success(o) => OfferBrief(offerId, o.matiere, o.niveau)
    case Failure(_) => OfferBrief(offerId, DeletedOffer, "")
  }

  function WithOfferBrief(db: Db): Application -> ApplicationWithOffer {
    (a: Application) =>
      ApplicationWithOffer(a.id, a.message, a.statut, a.createdAt, a.offerId, OfferBriefOf(db, a.offerId))
  }

  function ViewCreatedAt(a: ApplicationWithOffer): int { a.createdAt }

  /** `fetchApplications`: the tutor's own applications (`.eq('repetiteur_id', user)`),
      newest first, each joined with its offer. */
  function ApplicationsWithOffers(db: Db, user: Id): (r: seq<ApplicationWithOffer>)
    ensures multiset(r) == multiset(Map(Filter(db.applications, TutorDashboard.ByTutor(user)), WithOfferBrief(db)))
    ensures forall i :: 0 <= i < |r| ==>
              exists a :: a in db.applications && a.repetiteurId == user && r[i] == WithOfferBrief(db)(a)
    ensures forall i :: 0 <= i < |r| ==> r[i].offer.id == r[i].offerId
    ensures SortedDesc(r, ViewCreatedAt)
  {
    var apps := TutorDashboard.MyApplications(db, user);
    var r := Map(apps, WithOfferBrief(db));
    forall i | 0 <= i < |r|
      ensures exists a :: a in db.applications && a.repetiteurId == user && r[i] == WithOfferBrief(db)(a)
      ensures r[i].createdAt == apps[i].createdAt && r[i].offer.id == r[i].offerId
    {
      assert r[i] == WithOfferBrief(db)(apps[i]);
      assert apps[i] in db.applications && apps[i].repetiteurId == user;
    }
    MapMultiset(apps, Filter(db.applications, TutorDashboard.ByTutor(user)), WithOfferBrief(db));
    r
  }

  // ----- the three sections ------------------------------------------------------

  function StatusIs(s: ApplicationStatus): ApplicationWithOffer -> bool {
    (a: ApplicationWithOffer) => a.statut == s
  }

  /** The group of one status: the applications carrying it, in list order. */
  function Group(apps: seq<ApplicationWithOffer>, s: ApplicationStatus): (g: seq<ApplicationWithOffer>)
    ensures forall a :: a in g <==> a in apps && a.statut == s
    ensures IsSubsequence(g, apps)
  {
    FilterIsSubsequence(apps, StatusIs(s));
    assert forall a :: a in Filter(apps, StatusIs(s)) ==> StatusIs(s)(a);
    Filter(apps, StatusIs(s))
  }

  /** The three groups together hold every application exactly once. */
  lemma GroupsPartition(apps: seq<ApplicationWithOffer>)
    ensures |Group(apps, EnAttente)| + |Group(apps, Acceptee)| + |Group(apps, Refusee)| == |apps|
  {
    FilterSplit3(apps, StatusIs(EnAttente), StatusIs(Acceptee), StatusIs(Refusee));
  }

  /** The page body: the empty message, or the sections in the order pending, accepted,
      refused, each rendered only when its group is non-empty. */
  datatype Body = NoApplications | Sections(shown: seq<ApplicationStatus>)

  function SectionIf(apps: seq<ApplicationWithOffer>, s: ApplicationStatus): seq<ApplicationStatus> {
    if |Group(apps, s)| > 0 then [s] else []
  }

  function PageBody(apps: seq<ApplicationWithOffer>): (b: Body)
    ensures b == NoApplications <==> |apps| == 0
    ensures b.Sections? ==> forall s :: s in b.shown <==> |Group(apps, s)| > 0
    ensures b.Sections? ==> IsSubsequence(b.shown, [EnAttente, Acceptee, Refusee])
  {
    if |apps| == 0 then NoApplications
    else
      var shown := SectionIf(apps, EnAttente) + SectionIf(apps, Acceptee) + SectionIf(apps, Refusee);
      assert IsSubsequence(shown, [EnAttente, Acceptee, Refusee]) by {
        OrderedPick(|Group(apps, EnAttente)| > 0, |Group(apps, Acceptee)| > 0, |Group(apps, Refusee)| > 0);
      }
      Sections(shown)
  }

  lemma OrderedPick(p: bool, q: bool, r: bool)
    ensures IsSubsequence((if p then [EnAttente] else []) + (if q then [Acceptee] else [])
                            + (if r then [Refusee] else []), [EnAttente, Acceptee, Refusee])
  {
  }

  /** Every application of a non-empty list is shown in exactly one section: the one of its
      status, which the page renders. */
  lemma EveryApplicationShownOnce(apps: seq<ApplicationWithOffer>, a: ApplicationWithOffer)
    requires a in apps
    ensures PageBody(apps).Sections? && a.statut in PageBody(apps).shown
    ensures forall s :: a in Group(apps, s) <==> s == a.statut
  {
    assert a in Group(apps, a.statut);
  }
}

=== FILE: tutor_contracts.dfy ===
/** The tutor's contracts page: a read-only view of the tutor's contracts newest
    first, each with its parent, split into active and past sections. */
module TutorContracts {
  import opened Wrappers
  import opened Seqs
  import opened Constants
  import opened Store
  import opened Jsx

  function OfTutor(user: Id): Contract -> bool {
    (c: Contract) => c.repetiteurId == user
  }

  /** `.eq('repetiteur_id', user).order('created_at', { ascending: false })`. */
  function TutorContractList(db: Db, user: Id): (r: seq<Contract>)
    ensures forall i :: 0 <= i < |r| ==> r[i].repetiteurId == user && r[i] in db.contracts
    ensures forall i :: 0 <= i < |db.contracts| && db.contracts[i].repetiteurId == user ==>
              db.contracts[i] in r
    ensures |r| == |Filter(db.contracts, OfTutor(user))|
    ensures SortedDesc(r, ContractCreatedAt)
    ensures multiset(r) == multiset(Filter(db.contracts, OfTutor(user)))
  {
    var mine := Filter(db.contracts, OfTutor(user));
    var r := SortNewest(mine, ContractCreatedAt);
    SortNewestPermutes(mine, ContractCreatedAt);
    forall i | 0 <= i < |r| ensures r[i].repetiteurId == user && r[i] in db.contracts {
      assert r[i] in mine;
    }
    forall i | 0 <= i < |db.contracts| && db.contracts[i].repetiteurId == user ensures db.contracts[i] in r {
      assert db.contracts[i] in mine;
    }
    r
  }

  /** A contract card: the contract and its parent. */
  datatype ContractView = ContractView(contract: Contract, parent: PersonSummary)

  /** `profilesMap.get(parent_id) || { full_name: 'Inconnu', avatar_url: null, phone: '' }`. */
  function WithParent(db: Db): Contract -> ContractView {
    (c: Contract) => ContractView(c, SummaryOr(db.profiles, c.parentId, "Inconnu"))
  }

  /** `fetchContracts`: the list joined with the parents' profiles. Nothing is written:
      the page has no way to change a contract. */
  function ContractsWithParents(db: Db, user: Id): (r: seq<ContractView>)
    ensures |r| == |TutorContractList(db, user)|
    ensures forall i :: 0 <= i < |r| ==>
              r[i].contract == TutorContractList(db, user)[i] && r[i].parent.id == r[i].contract.parentId
    ensures forall i :: 0 <= i < |r| && FindProfile(db.profiles, r[i].contract.parentId).None? ==>
              r[i].parent == PersonSummary(r[i].contract.parentId, "Inconnu", None, "")
    ensures forall i :: 0 <= i < |r| && FindProfile(db.profiles, r[i].contract.parentId).Some? ==>
              r[i].parent.fullName == FindProfile(db.profiles, r[i].contract.parentId).value.fullName
  {
    Map(TutorContractList(db, user), WithParent(db))
  }

  // ----- the two sections ---------------------------------------------------

  function IsActive(v: ContractView): bool {
    v.contract.statut == Actif
  }

  function IsPast(v: ContractView): bool {
    v.contract.statut != Actif
  }

  datatype Sections = Sections(active: seq<ContractView>, past: seq<ContractView>)

  /** `activeContracts` and `pastContracts`: the active contracts and all the others,
      each in list order; together they hold every contract once. */
  function SplitSections(views: seq<ContractView>): (s: Sections)
    ensures forall v :: v in s.active <==> v in views && v.contract.statut == Actif
    ensures forall v :: v in s.past <==> v in views && v.contract.statut != Actif
    ensures IsSubsequence(s.active, views) && IsSubsequence(s.past, views)
    ensures |s.active| + |s.past| == |views|
  {
    FilterSplit(views, IsActive, IsPast);
    FilterIsSubsequence(views, IsActive);
    FilterIsSubsequence(views, IsPast);
    assert forall v :: v in Filter(views, IsActive) ==> IsActive(v);
    assert forall v :: v in Filter(views, IsPast) ==> IsPast(v);
    Sections(Filter(views, IsActive), Filter(views, IsPast))
  }

  /** The page body: the empty card when there is no contract, otherwise each section
      that has at least one contract. */
  datatype Body = NoContracts | Shown(activeSection: bool, pastSection: bool)

  function PageBody(views: seq<ContractView>): (b: Body)
    ensures b == NoContracts <==> |views| == 0
    ensures b.Shown? ==> (b.activeSection <==> exists v :: v in views && v.contract.statut == Actif)
    ensures b.Shown? ==> (b.pastSection <==> exists v :: v in views && v.contract.statut != Actif)
    ensures b.Shown? ==> b.activeSection || b.pastSection
  {
    var s := SplitSections(views);
    if |views| == 0 then NoContracts
    else
      assert |s.active| > 0 ==> s.active[0] in s.active;
      assert |s.past| > 0 ==> s.past[0] in s.past;
      Shown(|s.active| > 0, |s.past| > 0)
  }

  // ----- the agreed rate --------------------------------------------------------

  function TarifText(n: int): string {
    "Tarif convenu: " + IntText(n) + " FCFA"
  }

  /** `{contract.tarif_convenu && (…)}` as written, on both contracts pages: a rate of 0
      renders the bare text "0". */
  function TarifLineAsWritten(tarif: Option<int>): (out: seq<string>)
    ensures tarif.None? ==> out == []
    ensures tarif == Some(0) ==> out == ["0"]
    ensures tarif.Some? && tarif.value != 0 ==> out == [TarifText(tarif.value)]
  {
    NumAnd(tarif, if tarif.Some? then [TarifText(tarif.value)] else [])
  }

  /** The line as evidently meant: shown exactly when a rate is recorded, never a bare number. */
  function TarifLine(tarif: Option<int>): (out: seq<string>)
    ensures out != [] <==> tarif.Some?
    ensures tarif.Some? ==> out == [TarifText(tarif.value)]
    ensures out != ["0"]
  {
    if tarif.Some? then [TarifText(tarif.value)] else []
  }

  /** The two agree except on a recorded rate of 0. */
  lemma TarifLineZeroDiffers(tarif: Option<int>)
    ensures tarif != Some(0) ==> TarifLineAsWritten(tarif) == TarifLine(tarif)
    ensures TarifLineAsWritten(Some(0)) == ["0"] != TarifLine(Some(0))
  {
  }
}

=== FILE: tutor_dashboard.dfy ===
/** The tutor's dashboard: the number of open offers, tallies of the tutor's
    own applications, the three newest of them, and the three newest open offers. */
module TutorDashboard {
  import opened Wrappers
  import opened Seqs
  import opened Constants
  import opened Store

  function ByTutor(user: Id): Application -> bool {
    (a: Application) => a.repetiteurId == user
  }

  /** `.eq('repetiteur_id', user).order('created_at', { ascending: false })`. */
  function MyApplications(db: Db, user: Id): (apps: seq<Application>)
    ensures multiset(apps) == multiset(Filter(db.applications, ByTutor(user)))
    ensures |apps| == |Filter(db.applications, ByTutor(user))|
    ensures forall i :: 0 <= i < |apps| ==> apps[i] in db.applications && apps[i].repetiteurId == user
    ensures forall i, j :: 0 <= i < j < |apps| ==> apps[i].createdAt >= apps[j].createdAt
  {
    var mine := Filter(db.applications, ByTutor(user));
    var apps := SortNewest(mine, AppCreatedAt);
    SortNewestPermutes(mine, AppCreatedAt);
    forall i | 0 <= i < |apps| ensures apps[i] in db.applications && apps[i].repetiteurId == user {
      assert apps[i] in mine;
    }
    apps
  }

  /** An application of the panel, with its offer's subject and level ('' when the offer
      is gone). */
  datatype MyApplication = MyApplication(id: Id, statut: ApplicationStatus, createdAt: int,
                                         offerId: Id, matiere: string, niveau: string)

  function WithOffer(offers: seq<Offer>): Application -> MyApplication {
    (a: Application) =>
      var o := FindOffer(offers, a.offerId);
      MyApplication(a.id, a.statut, a.createdAt, a.offerId,
                    if o.Some? then o.value.matiere else "", if o.Some? then o.value.niveau else "")
  }

  /** `.eq('statut', 'ouverte').order('created_at', { ascending: false }).limit(3)`. */
  function RecentOpenOffers(db: Db): (r: seq<Offer>)
    ensures var open := Filter(db.offers, OfferStatusIs(Ouverte));
            |r| == (if |open| < 3 then |open| else 3) && multiset(r) <= multiset(open)
    ensures forall i :: 0 <= i < |r| ==> r[i] in db.offers && r[i].statut == Ouverte
    ensures forall i, j :: 0 <= i < j < |r| ==> r[i].createdAt >= r[j].createdAt
  {
    var open := Filter(db.offers, OfferStatusIs(Ouverte));
    FilterMembers(db.offers, OfferStatusIs(Ouverte));
    Newest(open, OfferCreatedAt, 3)
  }

  /** The panel: the three newest own applications with their offers' details. */
  function ApplicationsPanel(db: Db, apps: seq<Application>): (r: seq<MyApplication>)
    ensures |r| == if |apps| < 3 then |apps| else 3
    ensures forall i :: 0 <= i < |r| ==>
              r[i].id == apps[i].id && r[i].offerId == apps[i].offerId
              && r[i].statut == apps[i].statut && r[i].createdAt == apps[i].createdAt
              && (FindOffer(db.offers, apps[i].offerId).None? ==> r[i].matiere == "" && r[i].niveau == "")
              && (FindOffer(db.offers, apps[i].offerId).Some? ==>
                    r[i].matiere == FindOffer(db.offers, apps[i].offerId).value.matiere
                    && r[i].niveau == FindOffer(db.offers, apps[i].offerId).value.niveau)
  {
    if |apps| > 0 then Map(Take(apps, 3), WithOffer(db.offers)) else []
  }

  datatype Dashboard = Dashboard(totalApplications: nat, pendingApplications: nat, acceptedApplications: nat,
                                 availableOffers: nat, recentOffers: seq<Offer>, myApplications: seq<MyApplication>)

  /** `fetchData`: the counts, the panel and the recent offers. */
  function TutorDashboardData(db: Db, user: Id): (d: Dashboard)
    ensures d.availableOffers == |Filter(db.offers, OfferStatusIs(Ouverte))|
    ensures d.totalApplications == |MyApplications(db, user)|
    ensures d.pendingApplications == |Filter(MyApplications(db, user), AppStatusIs(EnAttente))|
    ensures d.acceptedApplications == |Filter(MyApplications(db, user), AppStatusIs(Acceptee))|
    ensures d.pendingApplications + d.acceptedApplications <= d.totalApplications
    ensures d.myApplications == ApplicationsPanel(db, MyApplications(db, user))
    ensures d.recentOffers == RecentOpenOffers(db)
  {
    var apps := MyApplications(db, user);
    AppStatusesPartition(apps);
    Dashboard(|apps|, |Filter(apps, AppStatusIs(EnAttente))|, |Filter(apps, AppStatusIs(Acceptee))|,
              |Filter(db.offers, OfferStatusIs(Ouverte))|, RecentOpenOffers(db), ApplicationsPanel(db, apps))
  }

  /** An open offer left out of the recent offers is no newer than any listed one. */
  lemma RecentOffersAreNewest(db: Db, o: Offer)
    requires o in db.offers && o.statut == Ouverte
    ensures var recent := RecentOpenOffers(db);
            o in recent || forall j :: 0 <= j < |recent| ==> recent[j].createdAt >= o.createdAt
    ensures |RecentOpenOffers(db)| < 3 ==> o in RecentOpenOffers(db)
  {
    var open := Filter(db.offers, OfferStatusIs(Ouverte));
    var k :| 0 <= k < |db.offers| && db.offers[k] == o;
    assert o in open;
    TopOrOlder(open, OfferCreatedAt, 3, o);
  }
}

=== FILE: tutor_documents.dfy ===
/** The read-only view of a tutor's documents: the diplomas and identity-card
    files listed, each under a short display name, with the card sides labelled. */
module TutorDocuments {
  import opened Wrappers
  import opened Text
  import opened Uploads
  import opened Cni
  import opened Diplomas

  /** `.replace(/^(recto|verso)_\d+\./, '$1.')`: a leading side, '_', a run of digits
      and '.' become the side and '.'. */
  function ShortenSide(s: string): (r: string)
    ensures r == s || (|r| < |s| && (StartsWith(r, "recto.") || StartsWith(r, "verso.")))
  {
    if |s| >= 6 && (s[..6] == "recto_" || s[..6] == "verso_") then
      var t := s[6..];
      var k := LeadingDigits(t);
      if 0 < k < |t| && t[k] == '.' then
        var r := s[..5] + "." + t[k + 1..];
        assert r[..6] == s[..5] + ".";
        r
      else s
    else s
  }

  /** `displayName`: the timestamp prefix of a diploma is dropped, then a card file's
      timestamp. */
  function DisplayName(name: string): (r: string)
    ensures |r| <= |name|
    ensures (|name| == 0 || !IsDigit(name[0])) && !StartsWith(name, "recto_") && !StartsWith(name, "verso_")
            ==> r == name
  {
    ShortenSide(StripTimestamp(name))
  }

  /** A stored identity-card file is shown as its side and extension. */
  lemma CniDisplayName(side: Side, now: nat, fileName: string)
    ensures DisplayName(StoredName(side, now, fileName)) == SideName(side) + "." + Extension(fileName)
  {
    var name := StoredName(side, now, fileName);
    var d := NatToString(now);
    var ext := Extension(fileName);
    assert name == SideName(side) + "_" + d + "." + ext;
    assert !IsDigit(name[0]);
    assert LeadingDigits(name) == 0;
    assert StripTimestamp(name) == name;
    ShortenSideOfStored(SideName(side), d, ext);
  }

  /** A side, '_', a run of digits and '.' are shortened to the side and '.'. */
  lemma ShortenSideOfStored(sideName: string, d: string, rest: string)
    requires sideName == "recto" || sideName == "verso"
    requires |d| > 0 && AllDigits(d)
    ensures ShortenSide(sideName + "_" + d + "." + rest) == sideName + "." + rest
  {
    var s := sideName + "_" + d + "." + rest;
    assert s[..6] == sideName + "_";
    var t := s[6..];
    assert t == d + ("." + rest);
    LeadingDigitsOfDigits(d, "." + rest);
    assert t[|d|] == '.';
    assert t[|d| + 1..] == rest;
    assert s[..5] == sideName;
  }

  /** A stored diploma is shown under its sanitised original name, unless that name itself
      starts like a card file. */
  lemma DiplomaDisplayName(now: nat, original: string)
    requires !StartsWith(Sanitize(original), "recto_") && !StartsWith(Sanitize(original), "verso_")
    ensures DisplayName(DiplomaName(now, original)) == Sanitize(original)
  {
    DisplayNameRoundTrip(now, original);
    var s := Sanitize(original);
    assert |s| >= 6 ==> s[..6] != "recto_" && s[..6] != "verso_";
  }

  /** The card label: 'Recto' for a name starting with 'recto', 'Verso' otherwise. */
  function CniLabel(name: string): (text: string)
    ensures text == "Recto" <==> ClassifySide(name) == Recto
    ensures text == "Verso" <==> ClassifySide(name) == Verso
  {
    if StartsWith(name, "recto") then "Recto" else "Verso"
  }

  /** The view: the two listings, their total, and whether the empty message shows. */
  datatype DocumentsView = DocumentsView(diplomas: seq<string>, cniFiles: seq<string>, totalDocs: nat, empty: bool)

  function ViewDocuments(diplomaNames: seq<string>, cniNames: seq<string>): (v: DocumentsView)
    ensures v.diplomas == Listed(diplomaNames) && v.cniFiles == Listed(cniNames)
    ensures Placeholder !in v.diplomas && Placeholder !in v.cniFiles
    ensures v.totalDocs == |v.diplomas| + |v.cniFiles|
    ensures v.empty <==> (forall n :: n in diplomaNames ==> n == Placeholder)
                         && (forall n :: n in cniNames ==> n == Placeholder)
  {
    var d := Listed(diplomaNames);
    var c := Listed(cniNames);
    assert |d| > 0 ==> d[0] in d;
    assert |c| > 0 ==> c[0] in c;
    DocumentsView(d, c, |d| + |c|, |d| + |c| == 0)
  }
}

=== FILE: tutor_offer_details.dfy ===
/** The tutor's page for one offer: loading it, knowing whether the tutor
    already applied, the panel that offers (or refuses) to apply, and the
    apply handler with the backend's one-application-per-tutor-and-offer
    unique index. */
module TutorOfferDetails {
  import opened Wrappers
  import opened Seqs
  import opened Constants
  import opened Store

  // ----- loading ------------------------------------------------------------

  function WithId(offerId: Id): Offer -> bool {
    (o: Offer) => o.id == offerId
  }

  /** The offer load: `.eq('id', offerId).single()`, with no status filter. */
  function LoadOffer(db: Db, offerId: Id): (r: Result<Offer, Error>)
    ensures r.Success? ==> r.value in db.offers && r.value.id == offerId
    ensures r.Failure? ==> r.error == NotFound
  {
    var matches := Filter(db.offers, WithId(offerId));
    if |matches| == 1 then Success(matches[0]) else Failure(NotFound)
  }

  /** Any offer loads, whatever its status: closed and in-progress offers included. */
  lemma LoadOfferAnyStatus(db: Db, k: nat)
    requires UniqueOfferIds(db.offers) && k < |db.offers|
    ensures LoadOffer(db, db.offers[k].id) == Success(db.offers[k])
  {
    FilterSingle(db.offers, WithId(db.offers[k].id), k);
  }

  function PairOf(offerId: Id, tutor: Id): Application -> bool {
    (a: Application) => a.offerId == offerId && a.repetiteurId == tutor
  }

  /** `hasApplied` as loaded with `.maybeSingle()`: one matching row gives true; none,
      or an error for several rows, gives false. */
  function LoadHasApplied(db: Db, offerId: Id, tutor: Id): (applied: bool)
    ensures applied ==> HasApplied(db, offerId, tutor)
  {
    var matches := Filter(db.applications, PairOf(offerId, tutor));
    if |matches| == 1 then
      assert matches[0] in db.applications;
      true
    else false
  }

  /** Under the unique index, the loaded flag is exactly "an application exists". */
  lemma LoadHasAppliedExact(db: Db, offerId: Id, tutor: Id)
    requires UniquePairs(db.applications)
    ensures LoadHasApplied(db, offerId, tutor) <==> HasApplied(db, offerId, tutor)
  {
    if HasApplied(db, offerId, tutor) {
      var k :| 0 <= k < |db.applications| && db.applications[k].offerId == offerId
               && db.applications[k].repetiteurId == tutor;
      FilterSingle(db.applications, PairOf(offerId, tutor), k);
    }
  }

  /** `!!profile?.documents_valides`: a missing profile or flag counts as false. */
  function DocumentsValides(profile: Option<Profile>): (ok: bool)
    ensures ok <==> profile.Some? && profile.value.documentsValides == Some(true)
  {
    match profile
    case None => false
    case Some(p) => p.documentsValides.GetOr(false)
  }

  // ----- the apply panel ----------------------------------------------------

  datatype Panel = AppliedBanner | BlockedUntilValidated | ApplyButton

  /** The panel: a banner once applied; otherwise the button, disabled until the
      documents are validated. The offer's status plays no part. */
  function ApplyPanel(hasApplied: bool, documentsValides: bool): (p: Panel)
    ensures p == ApplyButton <==> !hasApplied && documentsValides
    ensures p == AppliedBanner <==> hasApplied
  {
    if hasApplied then AppliedBanner
    else if !documentsValides then BlockedUntilValidated
    else ApplyButton
  }

  // ----- applying -----------------------------------------------------------

  /** The backend's answer to the insert: the unique index rejects a second
      application of the same tutor to the same offer before anything else. */
  function InsertReply(db: Db, offerId: Id, tutor: Id, reply: Reply): (out: Reply)
    ensures HasApplied(db, offerId, tutor) ==> out == Rejected(UniqueViolation)
    ensures !HasApplied(db, offerId, tutor) ==> out == reply
  {
    if HasApplied(db, offerId, tutor) then Rejected(UniqueViolation) else reply
  }

  /** `handleApply`: nothing without a loaded offer and a user; otherwise a pending
      application with the message is inserted, a duplicate is reported as
      `AlreadyApplied` and any other rejection as a store failure. */
  function Apply(db: Db, user: Option<Id>, loaded: Option<Offer>, message: string,
                 newId: Id, now: int, reply: Reply): (r: Result<Db, Error>)
    ensures loaded.None? || user.None? ==> r == Failure(Ignored)
    ensures loaded.Some? && user.Some? && HasApplied(db, loaded.value.id, user.value) ==>
              r == Failure(AlreadyApplied)
    ensures loaded.Some? && user.Some? && !HasApplied(db, loaded.value.id, user.value) ==>
              (reply == Done <==> r.Success?)
    ensures r.Success? ==> r.value.(applications := db.applications) == db
    ensures r.Success? ==>
              var apps := r.value.applications;
              |apps| == |db.applications| + 1 && apps[..|db.applications|] == db.applications
              && apps[|db.applications|] ==
                 Application(newId, loaded.value.id, user.value, message, EnAttente, now)
    ensures r.Success? ==> HasApplied(r.value, loaded.value.id, user.value)
    ensures r.Success? && UniquePairs(db.applications) ==> UniquePairs(r.value.applications)
  {
    if loaded.None? || user.None? then Failure(Ignored)
    else
      var offerId := loaded.value.id;
      var tutor := user.value;
      match InsertReply(db, offerId, tutor, reply)
      case Rejected(code) =>
        if code == UniqueViolation then Failure(AlreadyApplied) else Failure(StoreFailure(code))
      case Done =>
        var a := Application(newId, offerId, tutor, message, EnAttente, now);
        var apps := db.applications + [a];
        assert apps[|db.applications|] == a;
        Success(db.(applications := apps))
  }

  /** The page's flag after applying: set once the insert succeeded. */
  function HasAppliedAfter(hasApplied: bool, r: Result<Db, Error>): (applied: bool)
    ensures r.Success? ==> applied
    ensures r.Failure? ==> applied == hasApplied
  {
    hasApplied || r.Success?
  }

  /** After a successful application the button is gone, both on the page and on a
      reload of it. */
  lemma NoSecondApplication(db: Db, user: Id, o: Offer, message: string, newId: Id, now: int,
                            hasApplied: bool, documentsValides: bool)
    requires UniquePairs(db.applications)
    requires Apply(db, Some(user), Some(o), message, newId, now, Done).Success?
    ensures var r := Apply(db, Some(user), Some(o), message, newId, now, Done);
            ApplyPanel(HasAppliedAfter(hasApplied, r), documentsValides) == AppliedBanner
            && ApplyPanel(LoadHasApplied(r.value, o.id, user), documentsValides) == AppliedBanner
  {
    var r := Apply(db, Some(user), Some(o), message, newId, now, Done);
    LoadHasAppliedExact(r.value, o.id, user);
  }

  /** A second attempt, whatever the backend would have said otherwise, is reported as
      already applied and changes nothing. */
  lemma SecondAttemptRejected(db: Db, user: Id, o: Offer, message: string, newId: Id, now: int,
                              reply: Reply, db1: Db, message2: string, newId2: Id, now2: int)
    requires Apply(db, Some(user), Some(o), message, newId, now, Done) == Success(db1)
    ensures Apply(db1, Some(user), Some(o), message2, newId2, now2, reply) == Failure(AlreadyApplied)
  {
  }

  /** The handler never looks at the offer's status: applying to a closed offer behaves
      exactly as applying to an open one. */
  lemma ApplyIgnoresOfferStatus(db: Db, user: Option<Id>, o: Offer, s: OfferStatus, message: string,
                                newId: Id, now: int, reply: Reply)
    ensures Apply(db, user, Some(o), message, newId, now, reply)
            == Apply(db, user, Some(o.(statut := s)), message, newId, now, reply)
  {
  }
}

=== FILE: tutor_profile.dfy ===
/** The tutor profile form: its validation schema, the completeness flag
    written with it, the mapping between the form and the stored columns in
    both directions, and the checkbox lists for subjects, levels and slots. */
module TutorProfile {
  import opened Wrappers
  import opened Seqs
  import opened Store

  /** The form values as the form holds them (numbers already read with `parseInt(..) || 0`). */
  datatype ProfileForm = ProfileForm(
    bio: string,
    matieres: seq<string>,
    niveaux: seq<string>,
    disponibilites: seq<string>,
    localisation: string,
    tarifHoraire: int,
    experienceAnnees: int)

  /** A fresh profile row: nothing filled in, not complete. */
  const EmptyColumns := TutorColumns(None, None, None, None, None, None, None, false)

  /** The form's initial values. */
  const DefaultForm := ProfileForm("", [], [], [], "", 0, 0)

  // ----- schema -----------------------------------------------------------

  /** A failed field check of the schema. */
  datatype ProfileIssue = BioLength | NoMatiere | NoNiveau | NoDisponibilite
                        | LocalisationTooShort | TarifOutOfRange | ExperienceOutOfRange

  /** Every failed check, in field order. */
  function SchemaIssues(f: ProfileForm): (issues: seq<ProfileIssue>)
    ensures issues == [] <==>
      (f.bio == "" || 50 <= |f.bio| <= 1000)
      && |f.matieres| >= 1 && |f.niveaux| >= 1 && |f.disponibilites| >= 1
      && |f.localisation| >= 3
      && (f.tarifHoraire == 0 || 1000 <= f.tarifHoraire <= 100000)
      && 0 <= f.experienceAnnees <= 50
  {
    (if f.bio == "" || 50 <= |f.bio| <= 1000 then [] else [BioLength])
    + (if |f.matieres| >= 1 then [] else [NoMatiere])
    + (if |f.niveaux| >= 1 then [] else [NoNiveau])
    + (if |f.disponibilites| >= 1 then [] else [NoDisponibilite])
    + (if |f.localisation| >= 3 then [] else [LocalisationTooShort])
    + (if f.tarifHoraire == 0 || 1000 <= f.tarifHoraire <= 100000 then [] else [TarifOutOfRange])
    + (if 0 <= f.experienceAnnees <= 50 then [] else [ExperienceOutOfRange])
  }

  predicate SchemaValid(f: ProfileForm) {
    SchemaIssues(f) == []
  }

  /** The initial form is not submittable: the three lists and the location are empty. */
  lemma DefaultFormInvalid()
    ensures SchemaIssues(DefaultForm) == [NoMatiere, NoNiveau, NoDisponibilite, LocalisationTooShort]
  {
  }

  // ----- completeness -----------------------------------------------------

  /** `profilComplet`: a biography of at least 50 characters, at least one subject,
      level and slot, and a non-empty location. */
  function ProfilComplet(f: ProfileForm): (complete: bool)
    ensures complete ==> |f.bio| >= 50 && f.localisation != ""
    ensures complete ==> |f.matieres| > 0 && |f.niveaux| > 0 && |f.disponibilites| > 0
    ensures (|f.bio| >= 50 && f.localisation != "" && |f.matieres| > 0 && |f.niveaux| > 0
             && |f.disponibilites| > 0) ==> complete
  {
    f.bio != "" && |f.bio| >= 50
    && |f.matieres| > 0 && |f.niveaux| > 0 && |f.disponibilites| > 0
    && f.localisation != ""
  }

  /** On a valid submission the schema forces every other conjunct, so the profile
      is complete exactly when a biography was written. */
  lemma CompleteIffBio(f: ProfileForm)
    requires SchemaValid(f)
    ensures ProfilComplet(f) <==> f.bio != ""
  {
  }

  // ----- form to row, row to form -----------------------------------------

  /** `x || null` on a string: the empty string is stored as null. */
  function NullIfEmpty(s: string): (r: Option<string>)
    ensures r.None? <==> s == ""
    ensures r.Some? ==> r.value == s
  {
    if s == "" then None else Some(s)
  }

  /** The update written on submit: empty bio and location and a zero rate become
      null, experience is stored as given (0 stays 0), the lists are stored as they
      are, and the completeness flag is computed from the form. */
  function Save(f: ProfileForm): (row: TutorColumns)
    ensures row.bio.None? <==> f.bio == ""
    ensures row.localisation.None? <==> f.localisation == ""
    ensures row.tarifHoraire.None? <==> f.tarifHoraire == 0
    ensures row.tarifHoraire.Some? ==> row.tarifHoraire.value == f.tarifHoraire
    ensures row.experienceAnnees == Some(f.experienceAnnees)
    ensures row.matieres == Some(f.matieres) && row.niveaux == Some(f.niveaux)
    ensures row.disponibilites == Some(f.disponibilites)
    ensures row.profilComplet == ProfilComplet(f)
  {
    TutorColumns(
      NullIfEmpty(f.bio),
      Some(f.matieres),
      Some(f.niveaux),
      Some(f.disponibilites),
      NullIfEmpty(f.localisation),
      if f.tarifHoraire == 0 then None else Some(f.tarifHoraire),
      Some(f.experienceAnnees),
      ProfilComplet(f))
  }

  /** `x || 0` on a stored number: null and 0 both read as 0. */
  function ZeroIfNull(n: Option<int>): (r: int)
    ensures n.None? ==> r == 0
    ensures n.Some? ==> r == n.value
  {
    n.GetOr(0)
  }

  /** Loading a stored row into the form: null text becomes '', null lists become
      [], null numbers become 0. */
  function Load(row: TutorColumns): (f: ProfileForm)
    ensures row.bio.None? ==> f.bio == ""
    ensures row.matieres.None? ==> f.matieres == []
    ensures row.niveaux.None? ==> f.niveaux == []
    ensures row.disponibilites.None? ==> f.disponibilites == []
    ensures row.localisation.None? ==> f.localisation == ""
    ensures row.tarifHoraire.None? ==> f.tarifHoraire == 0
    ensures row.experienceAnnees.None? ==> f.experienceAnnees == 0
  {
    ProfileForm(
      row.bio.GetOr(""),
      row.matieres.GetOr([]),
      row.niveaux.GetOr([]),
      row.disponibilites.GetOr([]),
      row.localisation.GetOr(""),
      ZeroIfNull(row.tarifHoraire),
      ZeroIfNull(row.experienceAnnees))
  }

  /** Saving then reloading gives back exactly what was submitted. */
  lemma LoadSave(f: ProfileForm)
    ensures Load(Save(f)) == f
  {
  }

  /** A fresh row loads as the form's initial values. */
  lemma LoadEmpty()
    ensures Load(EmptyColumns) == DefaultForm
  {
  }

  /** `onSubmit`: the schema runs first; then nothing happens without a signed-in
      profile; otherwise the tutor columns of that profile are overwritten with the
      saved form once the backend accepts, and nothing else changes. */
  function SubmitProfile(db: Db, current: Option<Id>, f: ProfileForm, reply: Reply): (r: Result<Db, Error>)
    ensures !SchemaValid(f) ==> r == Failure(Invalid)
    ensures SchemaValid(f) && current.None? ==> r == Failure(Ignored)
    ensures SchemaValid(f) && current.Some? && reply.Rejected? ==> r == Failure(StoreFailure(reply.code))
    ensures r.Success? ==> current.Some? && r.value.(profiles := db.profiles) == db
    ensures r.Success? ==> |r.value.profiles| == |db.profiles|
    ensures r.Success? ==> forall i :: 0 <= i < |db.profiles| ==>
              r.value.profiles[i] == if db.profiles[i].id == current.value
                                     then db.profiles[i].(tutor := Save(f)) else db.profiles[i]
  {
    if !SchemaValid(f) then Failure(Invalid)
    else if current.None? then Failure(Ignored)
    else if reply.Rejected? then Failure(StoreFailure(reply.code))
    else
      var id := current.value;
      Success(db.(profiles := UpdateWhere(db.profiles, (p: Profile) => p.id, id,
                                          (p: Profile) => p.(tutor := Save(f)))))
  }

  /** After a successful submit, reloading the form shows exactly what was submitted,
      and the stored completeness flag is set iff a biography was written. */
  lemma SubmitThenLoad(db: Db, current: Option<Id>, f: ProfileForm, reply: Reply, i: nat)
    requires SubmitProfile(db, current, f, reply).Success?
    requires i < |db.profiles| && db.profiles[i].id == current.value
    ensures Load(SubmitProfile(db, current, f, reply).value.profiles[i].tutor) == f
    ensures SubmitProfile(db, current, f, reply).value.profiles[i].tutor.profilComplet <==> f.bio != ""
  {
    LoadSave(f);
    CompleteIffBio(f);
  }

  // ----- checkbox lists ---------------------------------------------------

  /** Ticking a box appends its value. */
  function Tick(current: seq<string>, v: string): (r: seq<string>)
    ensures |r| == |current| + 1 && r[..|current|] == current && r[|current|] == v
  {
    current + [v]
  }

  /** Unticking a box removes every occurrence of its value and keeps the rest in order. */
  function Untick(current: seq<string>, v: string): (r: seq<string>)
    ensures v !in r
    ensures forall i :: 0 <= i < |current| && current[i] != v ==> current[i] in r
    ensures forall i :: 0 <= i < |r| ==> r[i] in current
  {
    Filter(current, x => x != v)
  }

  /** The box reacts to a click: a ticked box is unticked, an unticked one ticked. */
  function Toggle(current: seq<string>, v: string): (r: seq<string>)
    ensures v in r <==> v !in current
  {
    if v in current then Untick(current, v) else Tick(current, v)
  }

  /** Unticking keeps the surviving values in their original order. */
  lemma UntickKeepsOrder(current: seq<string>, v: string)
    ensures IsSubsequence(Untick(current, v), current)
  {
    FilterIsSubsequence(current, x => x != v);
  }

  /** Unticking a value just ticked restores the list. */
  lemma {:induction false} UntickTick(current: seq<string>, v: string)
    requires v !in current
    ensures Untick(Tick(current, v), v) == current
    decreases |current|
  {
    var p := (x: string) => x != v;
    if |current| == 0 {
      assert Tick(current, v) == [v];
      assert Filter([v], p) == Filter([v][1..], p);
    } else {
      assert Tick(current, v)[1..] == Tick(current[1..], v);
      UntickTick(current[1..], v);
    }
  }

  /** Clicking the boxes never introduces a duplicate value. */
  lemma ToggleKeepsDistinct(current: seq<string>, v: string)
    requires Distinct(current)
    ensures Distinct(Toggle(current, v))
  {
    if v in current {
      UntickKeepsOrder(current, v);
      DistinctSubsequence(Untick(current, v), current);
    }
  }
}

=== FILE: uploads.dfy ===
/** What the three upload components share: the chosen file as the browser
    describes it, the checks made before any storage call, the folder listing
    without its placeholder entry, and the outcome of a storage operation. */
module Uploads {
  import opened Wrappers
  import opened Seqs
  import opened Text

  /** A chosen file: its name, its MIME type as reported, and its size in bytes. */
  datatype FileInfo = FileInfo(name: string, mimeType: string, size: nat)

  /** Why a file is refused before anything is stored. */
  datatype Rejection = UnsupportedFormat | TooLarge

  /** An error of an upload handler: a refused file, or a storage error. */
  datatype UploadError = Refused(reason: Rejection) | StorageFailure(code: string)

  /** The folder after a handler ran, and the error it reported, if any. A failure can
      come after a first storage call succeeded, so the folder is kept either way. */
  datatype Stored = Stored(folder: set<string>, error: Option<UploadError>)

  const DocumentTypes: seq<string> := ["image/jpeg", "image/png", "image/webp", "application/pdf"]

  const Mebibyte: nat := 1024 * 1024
  const MaxCniBytes: nat := 5 * Mebibyte
  const MaxDiplomaBytes: nat := 10 * Mebibyte

  /** The document checks: the format first, then the size. */
  function CheckDocument(f: FileInfo, maxBytes: nat): (r: Option<Rejection>)
    ensures r.None? <==> f.mimeType in DocumentTypes && f.size <= maxBytes
    ensures r == Some(UnsupportedFormat) <==> f.mimeType !in DocumentTypes
    ensures r == Some(TooLarge) <==> f.mimeType in DocumentTypes && f.size > maxBytes
  {
    if f.mimeType !in DocumentTypes then Some(UnsupportedFormat)
    else if f.size > maxBytes then Some(TooLarge)
    else None
  }

  /** A file the identity-card limit accepts is accepted by the diploma limit too. */
  lemma CniLimitIsStricter(f: FileInfo)
    ensures CheckDocument(f, MaxCniBytes).None? ==> CheckDocument(f, MaxDiplomaBytes).None?
    ensures MaxCniBytes == 5242880 && MaxDiplomaBytes == 10485760
  {
  }

  /** The entry the storage keeps in an otherwise empty folder. */
  const Placeholder: string := ".emptyFolderPlaceholder"

  function NotPlaceholder(name: string): bool {
    name != Placeholder
  }

  /** The listed names: every stored name but the placeholder, in listing order. */
  function Listed(names: seq<string>): (r: seq<string>)
    ensures forall n :: n in r <==> n in names && n != Placeholder
    ensures IsSubsequence(r, names)
    ensures Placeholder !in names ==> r == names
  {
    FilterIsSubsequence(names, NotPlaceholder);
    assert forall n :: n in Filter(names, NotPlaceholder) ==> NotPlaceholder(n);
    if Placeholder !in names then
      FilterAll(names, NotPlaceholder);
      Filter(names, NotPlaceholder)
    else Filter(names, NotPlaceholder)
  }

  /** `name.toLowerCase().endsWith('.pdf')`. */
  function IsPdf(name: string): (b: bool)
    ensures b <==> |name| >= 4 && name[|name| - 4] == '.' && LowerChar(name[|name| - 3]) == 'p'
                   && LowerChar(name[|name| - 2]) == 'd' && LowerChar(name[|name| - 1]) == 'f'
  {
    var low := Lower(name);
    assert |low| >= 4 ==> low[|low| - 4..] == [low[|low| - 4], low[|low| - 3], low[|low| - 2], low[|low| - 1]];
    EndsWith(low, ".pdf")
  }

  /** The PDF test ignores case: a name and its lower-cased form are both PDFs or neither. */
  lemma IsPdfIgnoresCase(name: string)
    ensures IsPdf(name) <==> IsPdf(Lower(name))
  {
    LowerIdempotent(name);
  }
}

=== FILE: validations.dfy ===
/** The sign-up and sign-in validators: the Ivorian phone-number schema with
    its normalising transform, the mapping from a phone number to the
    synthetic login e-mail, and the field bounds of the two forms. */
module Validations {
  import opened Wrappers
  import opened Text

  // ----- phone schema -----------------------------------------------------

  /** The country prefix the pattern allows and the normaliser adds. */
  const CountryPrefix: string := "+225"

  /** A schema check that failed; zod runs every check and reports each failure. */
  datatype PhoneIssue = TooShort | BadFormat

  /** `s` is exactly `n` decimal digits. */
  predicate ExactlyDigits(s: string, n: nat) {
    |s| == n && AllDigits(s)
  }

  /** The pattern `^(\+225)?[0-9]{10}$`, matched as a backtracking engine does:
      first with the optional group taken, then without it. */
  predicate PhonePattern(s: string) {
    (StartsWith(s, CountryPrefix) && ExactlyDigits(s[|CountryPrefix|..], 10))
    || ExactlyDigits(s, 10)
  }

  /** The checks of the phone schema in order: `min(10)`, then the pattern. */
  function PhoneIssues(s: string): (issues: seq<PhoneIssue>)
    ensures issues == [] <==> PhonePattern(s)
    ensures TooShort in issues <==> |s| < 10
  {
    (if |s| < 10 then [TooShort] else []) + (if PhonePattern(s) then [] else [BadFormat])
  }

  /** The accepted phones are ten digits, optionally preceded by "+225"; the length
      check never rejects a phone the pattern accepts. */
  lemma PhoneAcceptedShape(s: string)
    ensures PhoneIssues(s) == [] <==>
      ExactlyDigits(s, 10) || (|s| == 14 && s[..4] == "+225" && AllDigits(s[4..]))
    ensures PhonePattern(s) ==> |s| >= 10
  {
  }

  /** The transform: keep the digits, then prefix "+" when they already start with
      "225", and "+225" otherwise. */
  function NormalizeDigits(s: string): (p: string)
    ensures |p| > 0 && p[0] == '+' && AllDigits(p[1..])
    ensures StartsWith(KeepDigits(s), "225") ==> p[1..] == KeepDigits(s)
    ensures !StartsWith(KeepDigits(s), "225") ==> p[1..] == "225" + KeepDigits(s)
  {
    var digits := KeepDigits(s);
    if StartsWith(digits, "225") then "+" + digits else CountryPrefix + digits
  }

  /** `phoneSchema.parse`: the normalised phone, or the failed checks. */
  function NormalizePhone(s: string): (r: Result<string, seq<PhoneIssue>>)
    ensures r.Success? <==> PhonePattern(s)
    ensures r.Failure? ==> |r.error| > 0
  {
    var issues := PhoneIssues(s);
    if issues == [] then Success(NormalizeDigits(s)) else Failure(issues)
  }

  /** Every normalised phone starts with "+225" and carries only digits after the '+'. */
  lemma NormalizedShape(s: string)
    requires NormalizePhone(s).Success?
    ensures StartsWith(NormalizePhone(s).value, CountryPrefix)
    ensures AllDigits(NormalizePhone(s).value[1..])
  {
    var p := NormalizePhone(s).value;
    if StartsWith(s, CountryPrefix) && ExactlyDigits(s[4..], 10) {
      KeepDigitsPrefixed(s[4..]);
      assert s == "+225" + s[4..];
    } else {
      var d := KeepDigits(s);
      assert d == s;
      if StartsWith(d, "225") {
        assert p == "+" + d;
        assert p[..4] == "+" + d[..3];
      }
    }
  }

  /** Removing the non-digits of "+225" followed by digits leaves "225" followed by them. */
  lemma KeepDigitsPrefixed(d: string)
    requires AllDigits(d)
    ensures KeepDigits("+225" + d) == "225" + d
  {
    assert ("+225" + d)[1..] == "225" + d;
    assert AllDigits("225" + d);
  }

  /** "+225" followed by ten digits normalises to itself. */
  lemma NormalizeInternational(d: string)
    requires ExactlyDigits(d, 10)
    ensures NormalizePhone(CountryPrefix + d) == Success(CountryPrefix + d)
  {
    var s := CountryPrefix + d;
    assert s[4..] == d;
    assert StartsWith(s, CountryPrefix) && ExactlyDigits(s[4..], 10);
    KeepDigitsPrefixed(d);
    assert StartsWith("225" + d, "225");
    assert "+" + ("225" + d) == CountryPrefix + d;
  }

  /** Normalisation is idempotent on its fourteen-character outputs. */
  lemma NormalizeIdempotent(s: string)
    requires NormalizePhone(s).Success? && |NormalizePhone(s).value| == 14
    ensures NormalizePhone(NormalizePhone(s).value) == NormalizePhone(s)
  {
    var p := NormalizePhone(s).value;
    NormalizedShape(s);
    assert p == CountryPrefix + p[4..];
    assert AllDigits(p[4..]) by {
      assert forall i :: 4 <= i < 14 ==> p[i] == p[1..][i - 1];
    }
    NormalizeInternational(p[4..]);
  }

  /** Ten local digits not starting with "225" receive the country prefix. */
  lemma NormalizeLocal(d: string)
    requires ExactlyDigits(d, 10) && !StartsWith(d, "225")
    ensures NormalizePhone(d) == Success(CountryPrefix + d)
  {
  }

  /** The quirk: ten local digits that happen to start with "225" only receive a '+',
      giving an eleven-character phone with ten digits after the '+', which the
      schema itself then rejects. */
  lemma NormalizeLocalStartingWith225(d: string)
    requires ExactlyDigits(d, 10) && StartsWith(d, "225")
    ensures NormalizePhone(d) == Success("+" + d)
    ensures |NormalizePhone(d).value| == 11
    ensures NormalizePhone(NormalizePhone(d).value).Failure?
  {
    var p := "+" + d;
    assert !ExactlyDigits(p, 10) by {
      assert !IsDigit(p[0]);
    }
  }

  // ----- login e-mail -----------------------------------------------------

  const EmailDomain: string := "@monrepetiteur.local"

  /** `phoneToEmail`: every '+' deleted, then the fixed domain appended. */
  function PhoneToEmail(phone: string): (email: string)
    ensures '+' !in email
    ensures EndsWith(email, EmailDomain)
    ensures '+' !in phone ==> email == phone + EmailDomain
  {
    RemoveChar(phone, '+') + EmailDomain
  }

  /** On normalised phones (a '+' then digits) the e-mail is the digits before the domain. */
  lemma PhoneToEmailOfNormalized(d: string)
    requires AllDigits(d)
    ensures PhoneToEmail("+" + d) == d + EmailDomain
  {
    assert ("+" + d)[1..] == d;
    assert forall i :: 0 <= i < |d| ==> d[i] != '+';
    assert '+' !in d;
  }

  /** Distinct normalised phones give distinct login e-mails. */
  lemma PhoneToEmailInjective(d1: string, d2: string)
    requires AllDigits(d1) && AllDigits(d2)
    requires PhoneToEmail("+" + d1) == PhoneToEmail("+" + d2)
    ensures d1 == d2
  {
    PhoneToEmailOfNormalized(d1);
    PhoneToEmailOfNormalized(d2);
    var e := d1 + EmailDomain;
    assert |d1| == |d2|;
    assert d1 == e[..|d1|];
  }

  /** Two phones of the normalised shape with the same login e-mail are equal. */
  lemma NormalizedEmailInjective(p1: string, p2: string)
    requires |p1| > 0 && p1[0] == '+' && AllDigits(p1[1..])
    requires |p2| > 0 && p2[0] == '+' && AllDigits(p2[1..])
    requires PhoneToEmail(p1) == PhoneToEmail(p2)
    ensures p1 == p2
  {
    assert p1 == "+" + p1[1..];
    assert p2 == "+" + p2[1..];
    PhoneToEmailInjective(p1[1..], p2[1..]);
  }

  /** Normalised phones of different accepted inputs never collide on the e-mail
      unless the normalised phones themselves are equal. */
  lemma LoginEmailDeterminesPhone(s1: string, s2: string)
    requires NormalizePhone(s1).Success? && NormalizePhone(s2).Success?
    requires PhoneToEmail(NormalizePhone(s1).value) == PhoneToEmail(NormalizePhone(s2).value)
    ensures NormalizePhone(s1).value == NormalizePhone(s2).value
  {
    NormalizedShape(s1);
    NormalizedShape(s2);
    NormalizedEmailInjective(NormalizePhone(s1).value, NormalizePhone(s2).value);
  }

  // ----- sign-up and sign-in forms ----------------------------------------

  /** `userTypeSchema`. */
  datatype UserType = ClientType | PrestataireType

  function ParseUserType(v: string): (r: Option<UserType>)
    ensures r.Some? <==> v == "client" || v == "prestataire"
  {
    if v == "client" then Some(ClientType)
    else if v == "prestataire" then Some(PrestataireType)
    else None
  }

  /** A field that failed validation. */
  datatype Field = FullName | Phone | Password | UserTypeField

  datatype SignUpInput = SignUpInput(fullName: string, phone: string, password: string, userType: string)
  datatype SignUpData = SignUpData(fullName: string, phone: string, password: string, userType: UserType)

  datatype SignInInput = SignInInput(phone: string, password: string)
  datatype SignInData = SignInData(phone: string, password: string)

  /** The fields of a sign-up form that fail their checks, in form order. */
  function SignUpIssues(f: SignUpInput): seq<Field> {
    (if 2 <= |f.fullName| <= 100 then [] else [FullName])
    + (if NormalizePhone(f.phone).Success? then [] else [Phone])
    + (if 6 <= |f.password| <= 72 then [] else [Password])
    + (if ParseUserType(f.userType).Some? then [] else [UserTypeField])
  }

  /** `signUpSchema.parse`. */
  function ValidateSignUp(f: SignUpInput): (r: Result<SignUpData, seq<Field>>)
    ensures r.Success? <==>
      2 <= |f.fullName| <= 100 && PhonePattern(f.phone)
      && 6 <= |f.password| <= 72 && (f.userType == "client" || f.userType == "prestataire")
    ensures r.Success? ==>
      r.value.fullName == f.fullName && r.value.password == f.password
      && r.value.phone == NormalizePhone(f.phone).value
      && Some(r.value.userType) == ParseUserType(f.userType)
    ensures r.Failure? ==> |r.error| > 0
  {
    var issues := SignUpIssues(f);
    if issues == [] then
      Success(SignUpData(f.fullName, NormalizePhone(f.phone).value, f.password,
                         ParseUserType(f.userType).value))
    else Failure(issues)
  }

  /** `signInSchema.parse`: the phone schema and a non-empty password, no upper bound. */
  function ValidateSignIn(f: SignInInput): (r: Result<SignInData, seq<Field>>)
    ensures r.Success? <==> PhonePattern(f.phone) && |f.password| >= 1
    ensures r.Success? ==> r.value.password == f.password && r.value.phone == NormalizePhone(f.phone).value
    ensures r.Failure? ==> |r.error| > 0
  {
    var issues := (if NormalizePhone(f.phone).Success? then [] else [Phone])
      + (if |f.password| >= 1 then [] else [Password]);
    if issues == [] then
      Success(SignInData(NormalizePhone(f.phone).value, f.password))
    else Failure(issues)
  }

  /** Signing in reaches the account created at sign-up exactly when both forms carry the
      same phone once normalised, however each was typed. */
  lemma SignInMatchesSignUp(up: SignUpInput, inp: SignInInput)
    requires ValidateSignUp(up).Success? && ValidateSignIn(inp).Success?
    ensures PhoneToEmail(ValidateSignIn(inp).value.phone) == PhoneToEmail(ValidateSignUp(up).value.phone)
            <==> NormalizePhone(inp.phone).value == NormalizePhone(up.phone).value
  {
    if PhoneToEmail(ValidateSignIn(inp).value.phone) == PhoneToEmail(ValidateSignUp(up).value.phone) {
      LoginEmailDeterminesPhone(inp.phone, up.phone);
    }
  }
}

=== FILE: wrappers.dfy ===
/** Option and Result types shared by the whole model: a missing row or an
    undefined field is an Option, a handler that can fail returns a Result. */
module Wrappers {

  datatype Option<+T> = None | Some(value: T) {

    /** The value, or `default` when absent (JavaScript's `x || default` on objects). */
    function GetOr(default: T): T {
      match this
      case Some(v) => v
      case None => default
    }
  }

  datatype Result<+T, +E> = Success(value: T) | Failure(error: E) {

    predicate IsFailure() {
      Failure?
    }

    function PropagateFailure<U>(): Result<U, E>
      requires Failure?
    {
      Failure(error)
    }

    function Extract(): T
      requires Success?
    {
      value
    }
  }
}
